=== FILE: README.md ===
# IT back office: a verified model of its business rules

This project is a Dafny model of the backend of an IT back office. It is a NestJS service over a Prisma database. The service handles:

- users, roles and permissions;
- the inventory of IT assets;
- a warehouse of consumables with a stock ledger and low-stock alerts;
- issue tracking;
- service requests with an approval workflow;
- software releases linked to issues;
- system settings and an audit trail.

Each service method reads rows, checks a few preconditions, writes, and appends an audit row. The model restates each method as a pure transition:

- The state is an immutable store: maps keyed by `Id`, sequences for append-only tables, and a `nextId` counter for fresh keys.
- Each method returns `Ok(new store)` or an error of the service's own taxonomy. A service checks before it writes, so an error leaves the store as it was.
- The seed script is the exception. It writes step by step without a transaction, so a failing run keeps the rows written before the failure (`Seed.SeedCommitted`).
- The taxonomy is NotFound, BadRequest, Forbidden and Unauthorized with their messages, plus a database error carrying its Prisma code (`P2002` unique violation, `P2025` record not found), a Prisma validation error and a runtime crash.

Modules follow the source:

| module | models |
|---|---|
| `Common` | identifiers, `Result`, the error taxonomy, JSON values for audit rows, JavaScript's `String(n)`, `[...new Set(xs)]` and `filter` on lists |
| `Identity` | users, roles, permissions and categories; their unique columns; the `findUnique`/`findFirst` lookups |
| `PermissionsGuard` | `canActivate`: a user's roles flattened into `resource:action` tags, all required tags needed |
| `Seed`, `SeedScript` | the seed script: roles, the permission catalogue, the role grants, categories, the administrator. `Seed` takes the catalogue as a parameter; `SeedScript` uses the literal catalogue of the script |
| `Auth` | `validateUser`, `login`, `register`, `refreshToken`, `logout`, `logoutAll` over the user sessions |
| `Warehouse` | the stock arithmetic, movements, low-stock alerts, item creation and deletion |
| `Inventory` | asset creation, update, deletion, assignment, maintenance scheduling and the asset audit log |
| `IssueLabels`, `Issues` | label lists, the per-label tally, and the issue state rules |
| `Pagination` | `skip` and `Math.ceil(total / limit)` of the list endpoints |
| `Requests` | request creation with its default five-step workflow, deletion, assignment, status, workflow completion, the overdue filter |
| `Admin` | user and role administration, system settings and the admin audit log |
| `ReleaseMonths`, `Versions` | releases, release–issue links, the stable-release count and the releases-by-month chart |
| `ExceptionFilter` | the global exception filter: HTTP status, message, details and log level for each kind of error |

Inputs the model cannot compute are parameters:

- the clock is `now: int`, in milliseconds;
- bcrypt hashes and the password check are a hash string and a `matches` predicate;
- signed JWTs are strings;
- generated SKUs and asset tags are strings;
- the set of existing issue ids is a set, where the versions service looks an issue up;
- the ISO-8601 text of the date a maintenance schedule stores is a string.

Prisma's schema is not part of this model. Where an operation depends on the schema, the model states what it assumes:

- column defaults: a new account is active and unverified, a new request is PENDING, a new workflow step is PENDING;
- unique columns: user email and username, role name, the `(resource, action)` pair of a permission, category name, refresh token, release version;
- cascades: deleting a release drops its issue links, and deleting a user or a role drops their links;
- cascades: deleting a request drops its workflow steps and comments, deleting an issue drops its comments, deleting an asset drops its maintenance schedules, and deleting an inventory item drops its stock movements and low-stock alerts;
- foreign keys written as plain fields name stored rows: an asset's, issue's or request's assignee, an asset's or inventory item's category and location. The database refuses a dangling id with `P2003`, which the model does not produce;
- deleting a user is assumed not to be blocked by the rows that reference the user (sessions, issues, requests, comments, audit rows), and those rows are not modelled as changing;
- audit rows are never deleted. The asset audit log's asset and the shared audit log's resource id are not enforced foreign keys, so the DELETED row of a removed asset can be written and outlives it.

## Model

| member | source | states |
|---|---|---|
| `PermissionsGuard.CanActivate` | apps/backend/src/modules/auth/guards/permissions.guard.ts:13-55 | With no permission metadata the request is allowed. With metadata and no principal, or a principal whose id is not a stored user, it is refused. Otherwise it is allowed exactly when every required tag is among the `resource:action` tags of the permissions of the user's roles. So a declared empty list allows. |
| `PermissionsGuard.Every` | apps/backend/src/modules/auth/guards/permissions.guard.ts:52-54 | `every`/`includes` is true exactly when each required tag is held. |
| `PermissionsGuard.NoRolesNoAccess` | apps/backend/src/modules/auth/guards/permissions.guard.ts:47-54 | A user with no roles is refused on every route that requires at least one tag. |
| `PermissionsGuard.GrantMonotone` | apps/backend/src/modules/auth/guards/permissions.guard.ts:47-54 | Adding roles to a user, or permissions to their roles, never turns an allowed request into a refused one. |
| `PermissionsGuard.FlagsIrrelevant` | apps/backend/src/modules/auth/guards/permissions.guard.ts:31-54 | The guard reads only roles and permissions: changing a user's `isActive` or `isVerified` flag changes no decision. |
| `PermissionsGuard.OnlyStoredTags` | apps/backend/src/modules/auth/guards/permissions.guard.ts:47-54 | A tag that no stored permission carries refuses every user. |
| `Identity.TagInjective` | apps/backend/src/modules/auth/guards/permissions.guard.ts:48 | `${resource}:${action}` is unambiguous when resources hold no colon: equal tags mean equal resource and action. |
| `Identity.FindKey` | apps/backend/src/modules/auth/auth.service.ts:94-102 | A lookup by a unique column returns a row that matches, with no matching row under a smaller key. It returns nothing only when no row below the bound matches. |
| `Identity.UserWithEmailExact` | apps/backend/src/modules/auth/auth.service.ts:29 | In a valid directory, looking a user up by their email finds that user. |
| `Identity.RoleNamedExact` | apps/backend/src/modules/auth/auth.service.ts:129-131 | In a valid directory, looking a role up by its name finds that role. |
| `Identity.PermissionForExact` | apps/backend/prisma/seed.ts:74-83 | In a valid directory, looking a permission up by its `(resource, action)` key finds that permission. |
| `Identity.CategoryNamedExact` | apps/backend/prisma/seed.ts:159-162 | In a valid directory, looking a category up by its name finds that category. |
| `Identity.ValidAfterInsertUser` | apps/backend/src/modules/auth/auth.service.ts:109-126 | Inserting a user under the next key, with an email and username nobody holds and existing roles, keeps every unique and reference constraint. |
| `Identity.ValidAfterUserEdit` | apps/backend/src/modules/admin/admin.service.ts:62-90 | Editing a user without touching the unique columns, and with existing roles only, keeps the directory valid. |
| `Seed.UpsertRole` | apps/backend/prisma/seed.ts:10-17 | A role upsert with an empty `update` returns the existing role of that name unchanged, or else creates the role with no permissions under a fresh key. No other table changes. |
| `Seed.UpsertPermissions` | apps/backend/prisma/seed.ts:73-84 | The catalogue loop adds exactly the catalogue's `(resource, action)` pairs and never changes a stored row. When all pairs are stored already, it changes nothing. |
| `Seed.Grant` | apps/backend/prisma/seed.ts:87-104 | Granting adds exactly the selected permission rows to the one role, keeps its name and description, and touches no other role. When they are all held already, it changes nothing. |
| `Seed.UpsertCategories` | apps/backend/prisma/seed.ts:148-164 | The category loop adds exactly the listed names and never changes a stored row. |
| `Seed.UpsertAdmin` | apps/backend/prisma/seed.ts:166-181 | An existing administrator email returns that row unchanged. Otherwise the administrator row is created, or the create fails with the unique violation on `username` when another user already holds `admin`. |
| `Seed.LinkRole` | apps/backend/prisma/seed.ts:183-196 | The user–role link is added once. Linking again changes nothing. |
| `Seed.UpsertFourRoles` | apps/backend/prisma/seed.ts:10-44 | The four role upserts give four roles carrying the four names. A role that did not exist before starts with no permissions. |
| `Seed.SeedGrants` | apps/backend/prisma/seed.ts:86-146 | Admin gains every permission row; Manager gains the rows its filter selects; User gains the rows its filter selects. No other role changes. |
| `Seed.SeedAdminUser` | apps/backend/prisma/seed.ts:166-196 | After the administrator step the administrator exists and holds the Admin role. A new administrator is exactly the default row plus that role. |
| `Seed.SeedCommitted` | apps/backend/prisma/seed.ts:10-196 | Without a transaction, a run leaves the seeded directory when it succeeds. When it fails, the users are untouched, but the catalogue pairs and category names are already added and an Admin role already holds every permission. |
| `Seed.SeedBeforeAdmin` | apps/backend/prisma/seed.ts:10-164 | The steps before the administrator add exactly the catalogue pairs and the category names, leave the users untouched, and leave an Admin role holding every permission. |
| `Seed.SeedWith` | apps/backend/prisma/seed.ts:10-196 | The seed fails only on the administrator username clash. Otherwise the directory has the four roles by name, the Admin role holds every permission, and the administrator holds the Admin role. |
| `Seed.SeedWithPairs` | apps/backend/prisma/seed.ts:47-84 | Seeding adds exactly the catalogue's `(resource, action)` pairs to the permission table. |
| `Seed.SeedWithCategories` | apps/backend/prisma/seed.ts:148-164 | Seeding adds exactly the listed category names. |
| `Seed.SeedWithFreshManager` | apps/backend/prisma/seed.ts:106-125 | A Manager role the seed creates holds exactly the permissions other than `users:delete` and `admin:manage`. |
| `Seed.SeedWithFreshUser` | apps/backend/prisma/seed.ts:127-146 | A User role the seed creates holds exactly the `read` permissions plus `requests:create`. |
| `Seed.SeedWithFreshTechnician` | apps/backend/prisma/seed.ts:37-44 | A Technician role the seed creates holds no permission. |
| `Seed.SeedWithValid` | apps/backend/prisma/seed.ts:10-196 | Seeding keeps every unique and reference constraint of the identity tables. |
| `Seed.SeedWithIdempotent` | apps/backend/prisma/seed.ts:73-196 | Running the seed on its own result changes nothing and returns the same rows, whatever password hash the second run computes: every upsert has an empty `update`. |
| `Seed.SeedRolesNoop` | apps/backend/prisma/seed.ts:10-44 | On a seeded directory the role upserts find the four roles and change nothing. |
| `Seed.SeedTablesNoop` | apps/backend/prisma/seed.ts:73-164 | On a directory that already holds the catalogue, the grants and the categories, those steps change nothing. |
| `Seed.SeedAdminUserNoop` | apps/backend/prisma/seed.ts:166-196 | When the administrator exists and holds the Admin role, the last step changes nothing. |
| `SeedScript.SeedRun` | apps/backend/prisma/seed.ts:6-196 | A successful run of the script has the four roles by name, an Admin role holding every permission, and the administrator, under the script's email, holding the Admin role. |
| `SeedScript.CatalogueDistinct` | apps/backend/prisma/seed.ts:47-71 | The catalogue has 16 entries, with no two sharing a `(resource, action)` key. |
| `SeedScript.CatalogueColonFree` | apps/backend/prisma/seed.ts:47-71 | No catalogue resource contains a colon, so catalogue tags are unambiguous. |
| `SeedScript.AdminPassesCatalogue` | apps/backend/prisma/seed.ts:87-104 | After the seed script, the administrator passes every route guarded by a catalogue tag. |
| `SeedScript.FreshUserRequests` | apps/backend/prisma/seed.ts:127-146 | A user whose only role is a User role created by the script may create requests and may not delete them. |
| `SeedScript.UncataloguedUnreachable` | apps/backend/prisma/seed.ts:47-84 | A tag that neither a stored row nor a catalogue entry carries refuses everybody after seeding. |
| `SeedScript.StockNotCatalogued` | apps/backend/prisma/seed.ts:47-71 | No catalogue entry carries `stock:update`, the tag the stock-adjustment route requires. |
| `Auth.ValidateUser` | apps/backend/src/modules/auth/auth.service.ts:28-46 | An unknown email or a wrong password gives no user. A deactivated account is refused only after its password matched. Otherwise the result is the user without the password hash. |
| `Auth.WithoutPassword` | apps/backend/src/modules/auth/auth.service.ts:44-45 | The returned user keeps the id, email, username and active flag, and has no password field. |
| `Auth.Login` | apps/backend/src/modules/auth/auth.service.ts:48-91 | Failing credentials give "Invalid credentials" and change nothing. A successful login appends exactly one active session for the user, expiring seven days later, stamps the last login and returns both tokens. |
| `Auth.LoginKeepsInvariants` | apps/backend/src/modules/auth/auth.service.ts:67-82 | Login keeps refresh tokens unique, every session owned by an existing user and the identity tables valid. |
| `Auth.Refresh` | apps/backend/src/modules/auth/auth.service.ts:147-171 | A new access token is signed only for an active, unexpired session holding the token, as that session's user. Every other request is "Invalid or expired refresh token". |
| `Auth.RefreshAccepts` | apps/backend/src/modules/auth/auth.service.ts:148-158 | With unique tokens, refresh succeeds exactly when the session holding the token is active and `expiresAt` is not before now. |
| `Auth.Logout` | apps/backend/src/modules/auth/auth.service.ts:173-187 | Exactly the active sessions of this user with this token are deactivated and get `revokedAt` = now. Every other session is unchanged, and no session is removed. |
| `Auth.RevokeWhere` | apps/backend/src/modules/auth/auth.service.ts:174-184 | `updateMany` keeps the number and order of sessions. Each active session the filter selects becomes inactive with `revokedAt` = now; every other session is kept as it was. |
| `Auth.LogoutAll` | apps/backend/src/modules/auth/auth.service.ts:189-202 | Every active session of the user is deactivated and gets `revokedAt` = now, and no other user's session changes. |
| `Auth.LogoutRevokesToken` | apps/backend/src/modules/auth/auth.service.ts:173-187 | After logging out with a token, refreshing with it fails at any later time. |
| `Auth.LogoutAllRevokesTokens` | apps/backend/src/modules/auth/auth.service.ts:189-202 | After logging out everywhere, every refresh token the user held fails. |
| `Auth.Register` | apps/backend/src/modules/auth/auth.service.ts:93-145 | An existing email is refused first, then an existing username. On success the new account takes the next id and has the form's fields and the hash. It gets the role named "User" exactly when one exists, and no existing row changes. |
| `Auth.RegisterValid` | apps/backend/src/modules/auth/auth.service.ts:109-140 | Registration keeps every constraint of the identity tables. |
| `Auth.RegisterThenValidate` | apps/backend/src/modules/auth/auth.service.ts:28-46 | A freshly registered account validates with a password that matches its hash. |
| `Warehouse.NextStock` | apps/backend/src/modules/warehouse/warehouse.service.ts:216-226 | STOCK_IN adds the quantity. STOCK_OUT subtracts it, and is refused with "Insufficient stock available" exactly when the quantity exceeds the stock. ADJUSTMENT sets the stock to the quantity. Any other type keeps the stock. |
| `Warehouse.NextStockNonNegative` | apps/backend/src/modules/warehouse/warehouse.service.ts:216-226 | With a positive quantity and non-negative stock, the next stock is never negative. |
| `Warehouse.RecordedMovementExplains` | apps/backend/src/modules/warehouse/warehouse.service.ts:243-252 | The recorded movement accounts for the step from its previous to its new stock. An adjustment records the absolute difference. |
| `Warehouse.AdjustStock` | apps/backend/src/modules/warehouse/warehouse.service.ts:204-260 | A missing item is NotFound, and an oversized stock-out is BadRequest. Otherwise the item gets the new stock and a stamp, exactly one movement recording previous and new stock is appended, and an open low-stock alert exists when the new stock is at or under the minimum. At or under it, an item with an open alert keeps the alerts as they were, and an item without one gets exactly one unresolved alert under the next key, with the message, stock, threshold and user. The alerts do not change when the stock is above the minimum. |
| `Warehouse.AdjustStockInv` | apps/backend/src/modules/warehouse/warehouse.service.ts:204-260 | Adjusting keeps stock non-negative, every movement explained by its quantity, and at most one unresolved alert per item. |
| `Warehouse.CreateLowStockAlert` | apps/backend/src/modules/warehouse/warehouse.service.ts:473-498 | An item that already has an unresolved alert gets nothing new. Otherwise exactly one unresolved alert is added. Either way the item has an open alert afterwards. |
| `Warehouse.CreateLowStockAlertOneOpen` | apps/backend/src/modules/warehouse/warehouse.service.ts:479-497 | Creating an alert never leaves two unresolved alerts for one item. |
| `Warehouse.CreateInventoryItem` | apps/backend/src/modules/warehouse/warehouse.service.ts:15-52 | The item is stored under a fresh key with its stock and minimum. It takes the form's SKU when that is non-empty and the generated one otherwise. A STOCK_IN "Initial stock" movement is appended exactly when the initial stock is positive. |
| `Warehouse.CreateInventoryItemInv` | apps/backend/src/modules/warehouse/warehouse.service.ts:15-52 | Creating an item keeps the ledger invariant. |
| `Warehouse.DeleteInventoryItem` | apps/backend/src/modules/warehouse/warehouse.service.ts:79-95 | A missing item is NotFound, and an item with stock is BadRequest and stays. Otherwise exactly that item is removed, with its movements and alerts. Every other movement and alert is kept. |
| `Warehouse.DeleteInventoryItemInv` | apps/backend/src/modules/warehouse/warehouse.service.ts:79-95 | Deleting an item keeps the ledger invariant. |
| `Warehouse.OpsKeepLedgerOwned` | apps/backend/src/modules/warehouse/warehouse.service.ts:15-347 | Creating an item, adjusting stock, resolving an alert and deleting an item keep every movement and alert attached to a stored item. |
| `Warehouse.ResolveStockAlert` | apps/backend/src/modules/warehouse/warehouse.service.ts:338-347 | A missing alert fails with the record-not-found database error. Otherwise exactly that alert is marked resolved, by the user, at now. |
| `Warehouse.ResolveStockAlertInv` | apps/backend/src/modules/warehouse/warehouse.service.ts:338-347 | Resolving keeps the invariant. Resolving an open alert leaves its item with no open alert. |
| `Inventory.AppendAudit` | apps/backend/src/modules/inventory/inventory.service.ts:478-490 | Exactly one audit row is appended and earlier rows are kept. Absent details are stored as null. |
| `Inventory.CreateAsset` | apps/backend/src/modules/inventory/inventory.service.ts:14-41 | The asset is stored under a fresh key and starts unassigned. It takes the form's tag or the generated one, and the form's status or AVAILABLE. One CREATED row records its tag and name. |
| `Inventory.ChangedFields` | apps/backend/src/modules/inventory/inventory.service.ts:67-72 | The UPDATED row lists each of name, categoryId, locationId and status exactly when the update carries it, once, and nothing else. |
| `Inventory.UpdateAsset` | apps/backend/src/modules/inventory/inventory.service.ts:43-75 | A missing asset is NotFound. Otherwise the supplied fields replace the stored ones, the assignee and tag stay, and one UPDATED row is appended. |
| `Inventory.UpdateCanStrandAssignee` | apps/backend/src/modules/inventory/inventory.service.ts:43-75 | A status-only update can move an assigned asset to AVAILABLE while it keeps its assignee. |
| `Inventory.DeleteAsset` | apps/backend/src/modules/inventory/inventory.service.ts:77-102 | A missing asset is NotFound, and an asset with an assignee is BadRequest and stays. Otherwise exactly that asset is removed with its maintenance schedules, every other schedule is kept, and one DELETED row is appended. |
| `Inventory.AssignAsset` | apps/backend/src/modules/inventory/inventory.service.ts:235-278 | A missing asset is NotFound, and an asset that is not AVAILABLE is BadRequest. Otherwise it becomes ASSIGNED to the target, stamped at now, with one ASSIGNED row. |
| `Inventory.UnassignAsset` | apps/backend/src/modules/inventory/inventory.service.ts:280-311 | From any status the asset becomes AVAILABLE with no assignee and no assignment date, and nothing else changes. One UNASSIGNED row records who had it. |
| `Inventory.AssignThenUnassign` | apps/backend/src/modules/inventory/inventory.service.ts:235-311 | Assigning an available, unassigned asset and unassigning it gives back the same asset. The audit names the previous assignee. |
| `Inventory.AssignmentOpsKeepAssignee` | apps/backend/src/modules/inventory/inventory.service.ts:14-354 | Creation, assign, unassign, delete and maintenance scheduling keep assignees on ASSIGNED assets only. |
| `Inventory.ScheduleMaintenance` | apps/backend/src/modules/inventory/inventory.service.ts:314-354 | A missing asset is NotFound and nothing is created. Otherwise exactly one schedule is added under a fresh key, storing the date as a date, with one MAINTENANCE_SCHEDULED row that records the stored date's ISO text. |
| `Inventory.OpsKeepSchedulesOwned` | apps/backend/src/modules/inventory/inventory.service.ts:14-354 | Creation, update, assign, unassign, delete and scheduling keep every maintenance schedule attached to a stored asset. |
| `Inventory.OneAuditRowPerChange` | apps/backend/src/modules/inventory/inventory.service.ts:478-490 | Every successful update, delete, assign and unassign appends exactly one row about that asset by the acting user, keeping earlier rows. |
| `IssueLabels.AddLabel` | apps/backend/src/modules/issues/issues.service.ts:452 | The new list has no duplicates, contains the label, and has exactly the old labels plus the label as members. |
| `IssueLabels.AddLabelAppends` | apps/backend/src/modules/issues/issues.service.ts:452 | On a duplicate-free list, adding keeps the order and appends the label only when it is new. |
| `IssueLabels.AddLabelIdempotent` | apps/backend/src/modules/issues/issues.service.ts:452 | Adding the same label twice gives the list that adding it once gives. |
| `IssueLabels.RemoveLabel` | apps/backend/src/modules/issues/issues.service.ts:499 | Every occurrence of the label goes, and every other label keeps its number of occurrences. |
| `IssueLabels.RemoveLabelKeepsOrder` | apps/backend/src/modules/issues/issues.service.ts:499 | Removing distributes over concatenation, so the remaining labels keep their relative order. |
| `IssueLabels.RemoveAfterAdd` | apps/backend/src/modules/issues/issues.service.ts:452-499 | Removing a label just added to a duplicate-free list that lacked it gives back the list. |
| `IssueLabels.TallyOf` | apps/backend/src/modules/issues/issues.service.ts:580-585 | One entry per distinct label, each counting that label's occurrences. The counts sum to the number of occurrences. |
| `IssueLabels.ByLabel` | apps/backend/src/modules/issues/issues.service.ts:573-591 | The per-label tally over all issues: distinct keys, exactly the labels used, counts summing to the total number of label occurrences. |
| `IssueLabels.ByLabelAsWritten` | apps/backend/src/modules/issues/issues.service.ts:580-585 | The reduce as written over all issues equals the intended tally whenever no label names an inherited member of a plain object. |
| `IssueLabels.ConstructorLabelMiscounted` | apps/backend/src/modules/issues/issues.service.ts:580-585 | As written, a label "constructor" gets the text of `Object` followed by "1" instead of the count 1. |
| `IssueLabels.ProtoLabelLost` | apps/backend/src/modules/issues/issues.service.ts:580-585 | As written, the label "__proto__" vanishes from the result, although it occurs once. |
| `IssueLabels.AsWrittenAgrees` | apps/backend/src/modules/issues/issues.service.ts:580-585 | On labels that are not names of inherited members, the reduce as written computes the intended tally. |
| `IssueLabels.Inherited` | apps/backend/src/modules/issues/issues.service.ts:582 | Reading an absent own key of `{}` yields a value exactly for the names of `Object.prototype` members and `__proto__`. |
| `Issues.CreateAuditLog` | apps/backend/src/modules/issues/issues.service.ts:594-612 | Exactly one row about the issue is appended, carrying the action and actor. Old and new values are recorded as given, or null when absent. |
| `Issues.DeleteIssue` | apps/backend/src/modules/issues/issues.service.ts:111-136 | A missing issue is NotFound, and an IN_PROGRESS issue is BadRequest, with the store and audit log unchanged. Otherwise exactly that issue goes with its comments, every other comment is kept, and one ISSUE_DELETED row records its title and status. |
| `Issues.AssignIssue` | apps/backend/src/modules/issues/issues.service.ts:274-321 | From any status the issue gets the assignee and becomes IN_PROGRESS, with one row of old and new assignee. A missing issue is NotFound. |
| `Issues.AddComment` | apps/backend/src/modules/issues/issues.service.ts:378-406 | The issue must exist. The comment is appended and nothing else changes. |
| `Issues.UpdateIssueStatus` | apps/backend/src/modules/issues/issues.service.ts:323-375 | The status is written, and `closedAt` is stamped only when it is CLOSED, otherwise kept. A comment is added exactly when the notes are non-empty. One row records old and new status. |
| `Issues.StatusOpsKeepStamps` | apps/backend/src/modules/issues/issues.service.ts:336 | Status updates, assignment, commenting and deletion keep every CLOSED issue stamped with a closing time. |
| `Issues.OpsKeepCommentsOwned` | apps/backend/src/modules/issues/issues.service.ts:111-406 | Commenting, status updates, assignment and deletion keep every comment attached to a stored issue. |
| `Issues.CloseTwice` | apps/backend/src/modules/issues/issues.service.ts:336 | Closing twice re-stamps `closedAt` with the later time; the issue stays CLOSED with two audit rows. |
| `Issues.AddLabel` | apps/backend/src/modules/issues/issues.service.ts:443-488 | Only that issue's labels change, to the de-duplicated list with the label. The audit row holds old and new lists and the added label. |
| `Issues.RemoveLabel` | apps/backend/src/modules/issues/issues.service.ts:490-535 | Only that issue's labels change, to the list without the label. The audit row holds old and new lists and the removed label. |
| `Issues.LabelOpsKeepDistinct` | apps/backend/src/modules/issues/issues.service.ts:443-535 | After adding, the issue's labels are duplicate-free; both operations keep a duplicate-free store so. |
| `Issues.AddThenRemoveLabel` | apps/backend/src/modules/issues/issues.service.ts:443-535 | Adding then removing a label the issue lacked restores the issues. |
| `Issues.IssuesByLabel` | apps/backend/src/modules/issues/issues.service.ts:573-591 | Over the stored issues, the tally has distinct keys and counts summing to the number of label occurrences. |
| `Issues.IssuesByLabelCountsIssues` | apps/backend/src/modules/issues/issues.service.ts:573-591 | When no issue repeats a label, a label's count is the number of issues carrying it. |
| `Pagination.Skip` | apps/backend/src/modules/issues/issues.service.ts:153 | The first page skips nothing, and valid pages never skip a negative number of rows. |
| `Pagination.Pages` | apps/backend/src/modules/issues/issues.service.ts:207-215 | For a positive limit the page count is the least number of pages holding all rows. A zero limit gives NaN for no rows and Infinity otherwise; a negative one gives a non-positive count. |
| `Pagination.RowOnOnePage` | apps/backend/src/modules/requests/requests.service.ts:179-237 | With a positive limit every row lies on exactly one page, and that page is within the page count. |
| `Requests.CreateAuditLog` | apps/backend/src/modules/requests/requests.service.ts:562-580 | Exactly one Request row is appended with the given values, and nothing else changes. |
| `Requests.DefaultWorkflow` | apps/backend/src/modules/requests/requests.service.ts:545-560 | Five steps for the request under five consecutive ids, with orders 1 to 5, all pending and not completed. |
| `Requests.CreateInitialWorkflowSteps` | apps/backend/src/modules/requests/requests.service.ts:545-560 | Exactly five steps are added under fresh ids, with orders 1 to 5, and the existing steps are kept. |
| `Requests.CreateRequest` | apps/backend/src/modules/requests/requests.service.ts:15-68 | A body with an `assets` list fails with the validation error and writes nothing, since the spread hands the list to a scalar-only create. Otherwise the request takes the next id with the form's title, description, type, priority, department and due date, starts PENDING without an assignee or closing time, and one REQUEST_CREATED row holds title, type and priority. |
| `Requests.CreateRequestWorkflow` | apps/backend/src/modules/requests/requests.service.ts:54-56 | An equipment or maintenance request owns exactly five steps with orders 1 to 5. Any other type owns none. |
| `Requests.DeleteRequest` | apps/backend/src/modules/requests/requests.service.ts:137-162 | A missing request is NotFound, and an IN_PROGRESS request is BadRequest and stays. Otherwise exactly that request goes with its workflow steps and comments, every other step and comment is kept, and one REQUEST_DELETED row is appended. |
| `Requests.DeleteKeepsOtherComments` | apps/backend/src/modules/requests/requests.service.ts:137-162 | Deleting a request that has no comments keeps the comment list exactly as it was, order included. |
| `Requests.AssignRequest` | apps/backend/src/modules/requests/requests.service.ts:302-352 | From any status the request gets the assignee and becomes IN_PROGRESS, with one row of old and new assignee. |
| `Requests.AddComment` | apps/backend/src/modules/requests/requests.service.ts:410-438 | The request must exist. The comment is appended and nothing else changes. |
| `Requests.UpdateRequestStatus` | apps/backend/src/modules/requests/requests.service.ts:354-407 | The status is written, and `closedAt` is stamped only when it is COMPLETED, otherwise kept. A comment is added exactly when notes are non-empty. One row records old and new status. |
| `Requests.StatusOpsKeepStamps` | apps/backend/src/modules/requests/requests.service.ts:367 | Status updates, assignment, commenting and deletion keep every COMPLETED request stamped. |
| `Requests.ApplyStep` | apps/backend/src/modules/requests/requests.service.ts:487-493 | The step takes the given status, or keeps its own, and gets `completedAt` exactly when the status is COMPLETED. |
| `Requests.UpdateWorkflowStep` | apps/backend/src/modules/requests/requests.service.ts:475-506 | A step that is missing or belongs to another request is NotFound. Otherwise exactly that step is updated. |
| `Requests.WorkflowCompletes` | apps/backend/src/modules/requests/requests.service.ts:500-503 | When every step of the request is then COMPLETED or SKIPPED, the request becomes COMPLETED, stamped at now. |
| `Requests.WorkflowCompletionNote` | apps/backend/src/modules/requests/requests.service.ts:500-503 | Completion through the workflow leaves the comment "All workflow steps completed". |
| `Requests.WorkflowWaits` | apps/backend/src/modules/requests/requests.service.ts:500-503 | While a step is unfinished, the request, comments and audit log stay untouched. |
| `Requests.UnfinishedSiblingBlocks` | apps/backend/src/modules/requests/requests.service.ts:500 | A request with another unfinished step is never completed by this update. |
| `Requests.OpsKeepChildrenOwned` | apps/backend/src/modules/requests/requests.service.ts:15-506 | Creation, deletion, assignment, commenting, status updates and step updates keep every workflow step and comment attached to a stored request. |
| `Requests.OwnedStepUpdate` | apps/backend/src/modules/requests/requests.service.ts:475-506 | When every step belongs to a stored request, a step update succeeds exactly when the step exists and belongs to the named request. |
| `Requests.OverdueStaysOverdue` | apps/backend/src/modules/requests/requests.service.ts:525-531 | A request that is not COMPLETED and due before now stays overdue as time passes. |
| `Requests.CompletionClearsOverdue` | apps/backend/src/modules/requests/requests.service.ts:525-531 | Completing a request takes it out of the overdue filter; assigning it does not. |
| `Requests.OverdueCount` | apps/backend/src/modules/requests/requests.service.ts:525-531 | The count over the keys below a bound is at most the bound, and it is zero exactly when no request there is overdue. |
| `Requests.CompletingLowersOverdue` | apps/backend/src/modules/requests/requests.service.ts:525-531 | Completing one request lowers the overdue count by one if it was overdue, and leaves it otherwise. |
| `Admin.CreateAuditLog` | apps/backend/src/modules/admin/admin.service.ts:392-405 | Exactly one row by the acting admin is appended, and nothing else changes. |
| `Admin.CreateUser` | apps/backend/src/modules/admin/admin.service.ts:15-49 | A taken email is the unique violation, and an unknown role id the record-not-found error. Otherwise the user takes the next id, the hash and exactly the given roles (none when absent). One CREATE_USER row by the admin is appended. |
| `Admin.ApplyChanges` | apps/backend/src/modules/admin/admin.service.ts:62-90 | Given fields replace stored ones. The password changes only for a non-empty password, and the roles become exactly the given ids, or stay when no ids are given. |
| `Admin.ChangedFields` | apps/backend/src/modules/admin/admin.service.ts:92-102 | The audit's `changes` list names each of email, firstName, lastName and isActive exactly when the body gives it, and never `password` or `roleIds`. |
| `Admin.UpdateUser` | apps/backend/src/modules/admin/admin.service.ts:51-105 | A missing user is NotFound, and a taken email the unique violation. Otherwise only that user changes, to the applied changes. The row records the changed fields and the `rolesChanged` and `passwordChanged` flags. |
| `Admin.UpdateUserKeepsRolesAndPassword` | apps/backend/src/modules/admin/admin.service.ts:68-77 | Without role ids and password, roles and password hash stay. |
| `Admin.DeleteUser` | apps/backend/src/modules/admin/admin.service.ts:107-133 | A missing user is NotFound, and deleting one's own account is Forbidden, with the user kept. Otherwise exactly that user goes, with one DELETE_USER row naming the email. |
| `Admin.CreateRole` | apps/backend/src/modules/admin/admin.service.ts:177-200 | A taken name is the unique violation. Otherwise the role takes the next id with exactly the given permissions, and one CREATE_ROLE row is appended. |
| `Admin.UpdateRole` | apps/backend/src/modules/admin/admin.service.ts:202-226 | A missing role is the record-not-found error. Otherwise the name is set, an absent description is kept, the permission set becomes exactly the given ids, and only that role changes. |
| `Admin.DeleteRole` | apps/backend/src/modules/admin/admin.service.ts:228-254 | A missing role is NotFound, and a role any user holds is Forbidden and stays. Otherwise exactly that role goes, with one DELETE_ROLE row naming it. |
| `Admin.CreateUserValid` | apps/backend/src/modules/admin/admin.service.ts:15-49 | User creation keeps the identity tables valid. |
| `Admin.UpdateUserValid` | apps/backend/src/modules/admin/admin.service.ts:51-105 | User updates keep the identity tables valid. |
| `Admin.DeleteUserValid` | apps/backend/src/modules/admin/admin.service.ts:107-133 | User deletion keeps the identity tables valid. |
| `Admin.CreateRoleValid` | apps/backend/src/modules/admin/admin.service.ts:177-200 | Role creation keeps the identity tables valid. |
| `Admin.UpdateRoleValid` | apps/backend/src/modules/admin/admin.service.ts:202-226 | Role updates keep the identity tables valid. |
| `Admin.DeleteRoleValid` | apps/backend/src/modules/admin/admin.service.ts:228-254 | Role deletion keeps the identity tables valid. |
| `Admin.Upsert` | apps/backend/src/modules/admin/admin.service.ts:285-291 | Every given key holds its value as a string. The keys are exactly the old ones plus the given ones, and other keys keep their values. |
| `Admin.UpdateSystemSettings` | apps/backend/src/modules/admin/admin.service.ts:284-304 | Every given key holds `String(value)`, and other keys are untouched. The reply is the whole settings table. One row lists the keys given. |
| `Admin.UpdateSettingsIdempotent` | apps/backend/src/modules/admin/admin.service.ts:284-304 | Saving the same settings twice gives the table that saving once gives. |
| `ReleaseMonths.Latest` | apps/backend/src/modules/versions/versions.service.ts:352-360 | The fetch returns min(count, 100) dates, newest first, drawn from the stored dates. |
| `ReleaseMonths.LatestAreNewest` | apps/backend/src/modules/versions/versions.service.ts:352-360 | No date left out of the fetch is newer than a fetched one. |
| `ReleaseMonths.Tally` | apps/backend/src/modules/versions/versions.service.ts:362-370 | One entry per month that occurs, in ascending month order, each counting that month's dates. The counts sum to the number of dates. |
| `ReleaseMonths.ReleasesByMonth` | apps/backend/src/modules/versions/versions.service.ts:351-371 | Exactly the months of the fetched releases are listed, in strictly ascending order. Each count is that month's number of fetched releases, and the counts sum to the number fetched, at most 100. |
| `Versions.Create` | apps/backend/src/modules/versions/versions.service.ts:12-54 | A version already in use is BadRequest, and nothing is written. Otherwise the release is added under a fresh key, as a prerelease only when the body says so. Versions stay unique. |
| `Versions.Update` | apps/backend/src/modules/versions/versions.service.ts:166-224 | A missing release is NotFound. An update succeeds exactly when the release exists and no other release holds the merged version. A successful update changes only that release, to the given fields over the stored ones. |
| `Versions.UpdateRefusesHeldVersion` | apps/backend/src/modules/versions/versions.service.ts:171-184 | Moving to a non-empty version another release holds is BadRequest. |
| `Versions.UpdateSameVersionPasses` | apps/backend/src/modules/versions/versions.service.ts:177-184 | A body with the release's own version, or no version, skips the check and succeeds. |
| `Versions.EmptyVersionClashIsDbError` | apps/backend/src/modules/versions/versions.service.ts:177-184 | An empty version skips the service check, so a clash on it is the database's unique violation. |
| `Versions.UpdateValid` | apps/backend/src/modules/versions/versions.service.ts:166-224 | Updates keep versions unique and links valid. |
| `Versions.Remove` | apps/backend/src/modules/versions/versions.service.ts:226-240 | A missing release is NotFound. Otherwise exactly that release and its links go, with the deletion message. |
| `Versions.AddIssue` | apps/backend/src/modules/versions/versions.service.ts:242-292 | A missing release is NotFound, then a missing issue is NotFound, then an existing link is BadRequest. Otherwise exactly the new link is added and links stay unique. |
| `Versions.RemoveIssue` | apps/backend/src/modules/versions/versions.service.ts:294-318 | NotFound exactly when the pair is not linked. Otherwise the link is gone and every other link is kept. |
| `Versions.AddThenRemoveIssue` | apps/backend/src/modules/versions/versions.service.ts:242-318 | Linking and then unlinking a pair gives back the original store. |
| `Versions.StableReleases` | apps/backend/src/modules/versions/versions.service.ts:344 | Total minus prereleases is exactly the number of stable releases, never negative. |
| `Versions.ReleasesByMonth` | apps/backend/src/modules/versions/versions.service.ts:351-371 | Over the stored releases, exactly the months of the fetched releases are listed, strictly ascending, and the counts sum to the number fetched: all releases, or 100 when there are more. |
| `ExceptionFilter.Catch` | apps/backend/src/common/filters/global-exception.filter.ts:16-79 | An HTTP exception keeps its status, and its message or response body. A known database error is 400. An unknown database error is 500 "Unknown database error", and a validation error is 400 "Validation error". Anything else is 500 "Internal server error" with no details. The log level is error exactly when the status is at least 500. |
| `ExceptionFilter.KnownErrorReply` | apps/backend/src/common/filters/global-exception.filter.ts:32-48 | P2002 is "Unique constraint violation" with the target fields, P2025 "Record not found", P2003 "Foreign key constraint violation". Any other code is "Database error" with the code. |
| `ExceptionFilter.ServiceFailureResponse` | apps/backend/src/common/filters/global-exception.filter.ts:25-76 | Every service failure reaches the client with its taxonomy status, and an HTTP failure keeps its message. A validation error is 400 "Validation error" without details. Only a crash is logged at error level. |
| `ExceptionFilter.MissingRecordIsBadRequest` | apps/backend/src/common/filters/global-exception.filter.ts:32-48 | An update or connect that found no row answers 400 "Record not found" without details, logged as a warning. |
| `Common.Dedup` | apps/backend/src/modules/issues/issues.service.ts:452 | `[...new Set(xs)]` has no duplicates and the same members. |
| `Common.DedupOfNoDup` | apps/backend/src/modules/issues/issues.service.ts:452 | A duplicate-free list passes through unchanged. |
| `Common.RemoveAll` | apps/backend/src/modules/issues/issues.service.ts:499 | `filter(y => y !== x)` keeps exactly the other elements, and drops as many as `x` occurred. |

## Left out

- Reads, listings, statistics and searches are left out: filters, `include`/`select` shaping, case-insensitive search, counts and aggregates. They are database queries, not business rules. Pagination's arithmetic is kept.
- Several operations are left out: `updateInventoryItem`, `getStockMovements`, `getStockLevelsOverTime`, issue and request creation or update beyond the rules above, `updateRequest`, release listing, and the audit-log listings. They are field copies or database queries without a rule of their own.
- `generateSKU` and `generateAssetTag` are left out because they read the clock and `Math.random`. The generated value is a parameter.
- bcrypt and JWT signing are parameters. So is the refresh secret and the configured refresh lifetime. The model does not verify a refresh token's signature, and neither does the service.
- Races are left out: the read-then-write races of alert de-duplication and stock updates, and the `Promise.all` fan-out of settings upserts. Each operation is one atomic step.
- The filter's logging output, timestamp and request path are left out as I/O.
- Controllers, modules, bootstrap, the logging interceptor, the Prisma service and the frontend are left out as routing and UI. The admin, issue and versions controllers attach only the JWT guard, so the permission tags on those routes are not enforced. The guard is modelled on its own.
- The Prisma schema is not part of this model. Column defaults, unique columns, foreign keys and cascades are assumptions, listed at the top.
- `getSystemSettings` is not a member of its own. The settings table is a string map, which is the reply of `Admin.UpdateSystemSettings`.
- Admin.UpdateSystemSettings: requires the given keys to be distinct, as the keys of a JavaScript object are. Object key order is taken as form order. Numbers are integers: `@IsNumber()` also admits fractions such as 1.5, whose `String` text is not modelled.
- Admin.ChangedFields: `Object.keys` lists the fields in the order the request body gives them. The model lists them in a fixed order, email, firstName, lastName, isActive.
- Inventory.ChangedFields: the body's key order is not modelled either. The model lists name, categoryId, locationId, status in that order.
- Inventory.AssignAsset, Inventory.CreateAsset, Issues.AssignIssue, Requests.AssignRequest, Warehouse.CreateInventoryItem: a foreign key written as a plain field is assumed to name a stored row. A dangling id, which the database refuses with `P2003` before any audit row is written, is not modelled.
- Admin.DeleteUser: the rows that reference the deleted user are assumed not to block the delete, and what the database does to them is not modelled.
- Admin.UpdateUser: absent fields are `None`, so JSON `null`, which `@IsOptional()` lets through, is not told apart from an absent key. With `"roleIds": null` the service throws on `.map` and answers 500; the model keeps the roles.
- Admin.UpdateSystemSettings: a JSON `null` value, which the service stores as the text "null", is not modelled.
- Versions.Update: a JSON `null` field, which the spread writes and so clears a description or changelog, is not modelled; an absent and a `null` field both keep the stored value.
- ExceptionFilter.KnownErrorReply: the unique-violation target is one string. Prisma usually reports `meta.target` as a list of field names.
- ExceptionFilter.Catch: an HTTP exception's message is a string. A `ValidationPipe` error carries a list of messages, which is not modelled.
- SeedScript.SeedRun: states the shape of a successful run. When a run fails is stated by `Seed.SeedWith` for any catalogue.
- Admin.Upsert: requires the given keys to be distinct, for the same reason.
- Admin.CreateUser: `phoneNumber`, `department` and `jobTitle` are not modelled. When the email is taken and a role id is unknown, the model reports the unique violation; the database's order of the two checks is not specified here.
- Admin.UpdateUser: only the email, names and active flag are modelled among the plain fields.
- Inventory.UpdateAsset: only the name, category, location and status fields are modelled.
- Requests.UpdateWorkflowStep: only the `status` field of the step update is modelled. A step whose request is gone does not occur, since deleting a request drops its steps (`Requests.OwnedStepUpdate`).
- Requests.CreateRequest: requires identifiers below the store's counter; the counter stands in for the ids the database generates. The contents of an `assets` list are not modelled, since any list makes the create fail. The due date is taken as an already parsed time: `@IsDateString()` also admits a date-only text such as `2025-01-31`, which the spread hands to the database unchanged, and whether the database then refuses it is not modelled.
- Inventory.ScheduleMaintenance: the scheduled date is taken as the stored date's ISO text. A date-only text that `@IsDateString()` admits reaches the database unchanged through the spread, and whether the database refuses it is not modelled.
- Warehouse.NextStock: quantities are integers. `@IsNumber()` without `@IsInt()` also admits a fraction such as 1.5; what the stock column does with it depends on its type, which is not modelled.
- Warehouse.AdjustStock: the movement quantity is an integer, for the same reason.
- Warehouse.CreateInventoryItem: the initial stock and the minimum stock level are integers, for the same reason.
- Auth.Login: the session expires 7 × 86 400 000 ms after now. `setDate(+7)` can differ by an hour across a daylight-saving change.
- Auth.Register: requires identifiers below the directory's counter, an invariant every operation keeps.
- Warehouse.AdjustStock: requires identifiers below the store's counter, an invariant every operation keeps.
- Versions.Create: requires the store invariant (unique versions, existing link ends, unique links), which the database guarantees.
- Versions.Update: requires the store invariant, which the database guarantees.
- Versions.ReleasesByMonth: states which months are listed, their order and the total. The per-month counts are stated by `ReleaseMonths.ReleasesByMonth`, which it calls.
- ReleaseMonths.ReleasesByMonth: months are (year, month) records rather than `YYYY-MM` strings. `localeCompare` is month order, which matches for four-digit years. The civil-calendar conversion is checked only at the epoch.
- IssueLabels.ByLabel: entries are listed in first-occurrence order. JavaScript lists integer-like keys first, so that order is not modelled.
- Pagination.Pages: `page` and `limit` are integers. A non-integer query value is not modelled.

## Findings

| source | as written | input that shows it | evidently intended | confidence | as-written member | corrected member |
|---|---|---|---|---|---|---|
| apps/backend/src/modules/issues/issues.service.ts:580-585 | `acc[label] = (acc[label] \|\| 0) + 1` on a plain `{}` reads members inherited from `Object.prototype` | an issue labelled `constructor` counts as `"function Object() { [native code] }1"`; an issue labelled `__proto__` is dropped, since assigning a string to `__proto__` is ignored | one entry per label with its number of occurrences | not executed | `IssueLabels.ByLabelAsWritten` (`IssueLabels.ConstructorLabelMiscounted`, `IssueLabels.ProtoLabelLost`) | `IssueLabels.ByLabel` (`IssueLabels.AsWrittenAgrees`) |


=== FILE: admin.dfy ===
/**
 * Administration of the identity tables and the system settings. Every
 * successful change appends one row to the administrative audit log naming
 * the acting administrator. Constraint violations the database would raise
 * (a duplicate email or role name, a relation to a missing row, an update
 * of a missing row) are returned as the corresponding Prisma errors.
 */
module Admin {
  import opened Common
  import opened Identity

  /** A row of the audit log as this service writes it; `details` is null when not given. */
  datatype AdminAudit = AdminAudit(userId: Id, action: string, resourceType: string, resourceId: string, details: Option<Json>)

  datatype AdminState = AdminState(dir: Directory, settings: map<string, string>, audit: seq<AdminAudit>)

  /** The value of one field of the settings form. */
  datatype SettingValue = SText(s: string) | SNumber(n: int) | SFlag(b: bool)

  datatype NewUser = NewUser(email: string, firstName: string, lastName: string, isActive: Option<bool>,
                             roleIds: Option<seq<Id>>)

  /** The fields an update may carry; an absent field is left as it is. */
  datatype UserChanges = UserChanges(email: Option<string>, password: Option<string>, firstName: Option<string>,
                                     lastName: Option<string>, isActive: Option<bool>, roleIds: Option<seq<Id>>)

  /** Values a new row takes from the column defaults. */
  const DefaultActive: bool := true
  const DefaultVerified: bool := false

  function CreateAuditLog(st: AdminState, admin: Id, action: string, resourceType: string, resourceId: string, details: Json): (r: AdminState)
    ensures r.dir == st.dir && r.settings == st.settings
    ensures r.audit == st.audit + [AdminAudit(admin, action, resourceType, resourceId, Some(details))]
  {
    st.(audit := st.audit + [AdminAudit(admin, action, resourceType, resourceId, Some(details))])
  }

  /** One audit row was appended, by `admin`, with the given action. */
  predicate AuditedBy(st: AdminState, st': AdminState, admin: Id, action: string)
  {
    |st'.audit| == |st.audit| + 1 && st'.audit[..|st.audit|] == st.audit &&
    st'.audit[|st.audit|].userId == admin && st'.audit[|st.audit|].action == action
  }

  function IdTexts(ids: seq<Id>): (r: seq<string>)
    ensures |r| == |ids|
    ensures forall i :: 0 <= i < |ids| ==> r[i] == IdText(ids[i])
  {
    seq(|ids|, i requires 0 <= i < |ids| => IdText(ids[i]))
  }

  /** The members of a sequence of ids, as Prisma's `connect` / `set` lists them. */
  function Members(ids: seq<Id>): (r: set<Id>)
    ensures forall k :: k in r <==> k in ids
  {
    set i | 0 <= i < |ids| :: ids[i]
  }

  // ---------------------------------------------------------------------
  // Users
  // ---------------------------------------------------------------------

  /** Some row other than `except` already holds the email. */
  predicate EmailTaken(users: map<Id, User>, email: string, except: Option<Id>)
  {
    exists j :: j in users && Some(j) != except && users[j].email == email
  }

  /**
   * `createUser`: the user gets exactly the given roles (none when no ids
   * are given) and the hashed password; the audit row lists the email and
   * the role ids as given.
   */
  function CreateUser(st: AdminState, form: NewUser, hash: string, admin: Id): (r: Result<(AdminState, Id)>)
    ensures EmailTaken(st.dir.users, form.email, None) ==> r == Err(Db(UniqueViolation, Some("email")))
    ensures !EmailTaken(st.dir.users, form.email, None) && form.roleIds.Some? && !(Members(form.roleIds.value) <= st.dir.roles.Keys) ==>
              r == Err(Db(RecordNotFound, None))
    ensures r.Ok? ==>
              var (st', k) := r.value;
              k == st.dir.nextId && k in st'.dir.users && st'.dir == st.dir.(users := st.dir.users[k := st'.dir.users[k]], nextId := k + 1) &&
              st'.dir.users[k].email == form.email && st'.dir.users[k].passwordHash == hash &&
              st'.dir.users[k].roles == (if form.roleIds.Some? then Members(form.roleIds.value) else {}) &&
              st'.dir.users[k].username.None? &&
              st'.dir.users[k].isActive == (if form.isActive.Some? then form.isActive.value else DefaultActive) &&
              st'.settings == st.settings && AuditedBy(st, st', admin, "CREATE_USER")
    ensures r.Ok? <==> !EmailTaken(st.dir.users, form.email, None) &&
                       (form.roleIds.Some? ==> Members(form.roleIds.value) <= st.dir.roles.Keys)
  {
    var d := st.dir;
    var roles := if form.roleIds.Some? then Members(form.roleIds.value) else {};
    if EmailTaken(d.users, form.email, None) then Err(Db(UniqueViolation, Some("email")))
    else if !(roles <= d.roles.Keys) then Err(Db(RecordNotFound, None))
    else
      var k := d.nextId;
      var u := User(form.email, None, form.firstName, form.lastName, hash,
                    if form.isActive.Some? then form.isActive.value else DefaultActive, DefaultVerified, None, roles);
      var details := JObj([("email", JStr(form.email))] +
                          (if form.roleIds.Some? then [("roles", StrArray(IdTexts(form.roleIds.value)))] else []));
      Ok((CreateAuditLog(st.(dir := d.(users := d.users[k := u], nextId := k + 1)), admin, "CREATE_USER", "USER", IdText(k), details), k))
  }

  /**
   * The names of the plain fields an update carries (`Object.keys(userData)`).
   * `Object.keys` lists them in the order of the request body, which the
   * model does not see; the model fixes the order email, firstName,
   * lastName, isActive.
   */
  function ChangedFields(ch: UserChanges): (r: seq<string>)
    ensures "email" in r <==> ch.email.Some?
    ensures "firstName" in r <==> ch.firstName.Some?
    ensures "lastName" in r <==> ch.lastName.Some?
    ensures "isActive" in r <==> ch.isActive.Some?
    ensures "password" !in r && "roleIds" !in r
  {
    (if ch.email.Some? then ["email"] else []) +
    (if ch.firstName.Some? then ["firstName"] else []) +
    (if ch.lastName.Some? then ["lastName"] else []) +
    (if ch.isActive.Some? then ["isActive"] else [])
  }

  /** The row after an update: given fields replaced, the password only when a non-empty one is given, the roles only when ids are given. */
  function ApplyChanges(u: User, ch: UserChanges, hash: string): (v: User)
    ensures v.username == u.username && v.isVerified == u.isVerified && v.lastLoginAt == u.lastLoginAt
    ensures v.passwordHash == (if Truthy(ch.password) then hash else u.passwordHash)
    ensures v.roles == (if ch.roleIds.Some? then Members(ch.roleIds.value) else u.roles)
    ensures v.email == (if ch.email.Some? then ch.email.value else u.email)
    ensures v.firstName == (if ch.firstName.Some? then ch.firstName.value else u.firstName)
    ensures v.lastName == (if ch.lastName.Some? then ch.lastName.value else u.lastName)
    ensures v.isActive == (if ch.isActive.Some? then ch.isActive.value else u.isActive)
  {
    u.(email := if ch.email.Some? then ch.email.value else u.email,
       firstName := if ch.firstName.Some? then ch.firstName.value else u.firstName,
       lastName := if ch.lastName.Some? then ch.lastName.value else u.lastName,
       isActive := if ch.isActive.Some? then ch.isActive.value else u.isActive,
       passwordHash := if Truthy(ch.password) then hash else u.passwordHash,
       roles := if ch.roleIds.Some? then Members(ch.roleIds.value) else u.roles)
  }

  /**
   * `updateUser`: a missing user is NotFound; the audit row lists the changed
   * plain fields and whether the roles and the password changed.
   */
  function UpdateUser(st: AdminState, id: Id, ch: UserChanges, hash: string, admin: Id): (r: Result<AdminState>)
    ensures id !in st.dir.users ==> r == Err(NotFound("User not found"))
    ensures id in st.dir.users && ch.email.Some? && EmailTaken(st.dir.users, ch.email.value, Some(id)) ==>
              r == Err(Db(UniqueViolation, Some("email")))
    ensures r.Ok? ==>
              id in st.dir.users &&
              r.value.dir == st.dir.(users := st.dir.users[id := ApplyChanges(st.dir.users[id], ch, hash)]) &&
              r.value.settings == st.settings && AuditedBy(st, r.value, admin, "UPDATE_USER") &&
              r.value.audit[|st.audit|].details == Some(JObj([
                ("changes", StrArray(ChangedFields(ch))),
                ("rolesChanged", JBool(ch.roleIds.Some?)),
                ("passwordChanged", JBool(Truthy(ch.password)))]))
    ensures r.Ok? <==> id in st.dir.users && !(ch.email.Some? && EmailTaken(st.dir.users, ch.email.value, Some(id))) &&
                       (ch.roleIds.Some? ==> Members(ch.roleIds.value) <= st.dir.roles.Keys)
  {
    var d := st.dir;
    if id !in d.users then Err(NotFound("User not found"))
    else if ch.email.Some? && EmailTaken(d.users, ch.email.value, Some(id)) then Err(Db(UniqueViolation, Some("email")))
    else if ch.roleIds.Some? && !(Members(ch.roleIds.value) <= d.roles.Keys) then Err(Db(RecordNotFound, None))
    else
      var details := JObj([("changes", StrArray(ChangedFields(ch))), ("rolesChanged", JBool(ch.roleIds.Some?)),
                           ("passwordChanged", JBool(Truthy(ch.password)))]);
      Ok(CreateAuditLog(st.(dir := d.(users := d.users[id := ApplyChanges(d.users[id], ch, hash)])), admin, "UPDATE_USER", "USER",
                        IdText(id), details))
  }

  /** With no role ids and no password, the roles and the password hash stay as they were. */
  lemma UpdateUserKeepsRolesAndPassword(st: AdminState, id: Id, ch: UserChanges, hash: string, admin: Id)
    requires ch.roleIds.None? && !Truthy(ch.password)
    requires UpdateUser(st, id, ch, hash, admin).Ok?
    ensures var u := UpdateUser(st, id, ch, hash, admin).value.dir.users[id];
            u.roles == st.dir.users[id].roles && u.passwordHash == st.dir.users[id].passwordHash
  {
  }

  /** `deleteUser`: a missing user is NotFound and an administrator cannot delete their own account. */
  function DeleteUser(st: AdminState, id: Id, admin: Id): (r: Result<AdminState>)
    ensures id !in st.dir.users ==> r == Err(NotFound("User not found"))
    ensures id in st.dir.users && id == admin ==> r == Err(Forbidden("Cannot delete your own account"))
    ensures r.Ok? <==> id in st.dir.users && id != admin
    ensures r.Ok? ==>
              r.value.dir == st.dir.(users := st.dir.users - {id}) && r.value.settings == st.settings &&
              AuditedBy(st, r.value, admin, "DELETE_USER") &&
              r.value.audit[|st.audit|].details == Some(JObj([("email", JStr(st.dir.users[id].email))]))
  {
    var d := st.dir;
    if id !in d.users then Err(NotFound("User not found"))
    else if id == admin then Err(Forbidden("Cannot delete your own account"))
    else Ok(CreateAuditLog(st.(dir := d.(users := d.users - {id})), admin, "DELETE_USER", "USER", IdText(id),
                           JObj([("email", JStr(d.users[id].email))])))
  }

  // ---------------------------------------------------------------------
  // Roles
  // ---------------------------------------------------------------------

  /** Some role other than `except` already has the name. */
  predicate NameTaken(roles: map<Id, Role>, name: string, except: Option<Id>)
  {
    exists j :: j in roles && Some(j) != except && roles[j].name == name
  }

  function RoleDetails(name: string, permissionIds: seq<Id>): Json
  {
    JObj([("name", JStr(name)), ("permissions", StrArray(IdTexts(permissionIds)))])
  }

  /** `createRole`: a new role with exactly the given permissions. */
  function CreateRole(st: AdminState, name: string, description: string, permissionIds: seq<Id>, admin: Id): (r: Result<(AdminState, Id)>)
    ensures NameTaken(st.dir.roles, name, None) ==> r == Err(Db(UniqueViolation, Some("name")))
    ensures r.Ok? <==> !NameTaken(st.dir.roles, name, None) && Members(permissionIds) <= st.dir.permissions.Keys
    ensures r.Ok? ==>
              var (st', k) := r.value;
              k == st.dir.nextId &&
              st'.dir == st.dir.(roles := st.dir.roles[k := Role(name, description, Members(permissionIds))], nextId := k + 1) &&
              st'.settings == st.settings && AuditedBy(st, st', admin, "CREATE_ROLE")
  {
    var d := st.dir;
    if NameTaken(d.roles, name, None) then Err(Db(UniqueViolation, Some("name")))
    else if !(Members(permissionIds) <= d.permissions.Keys) then Err(Db(RecordNotFound, None))
    else
      var k := d.nextId;
      var d' := d.(roles := d.roles[k := Role(name, description, Members(permissionIds))], nextId := k + 1);
      Ok((CreateAuditLog(st.(dir := d'), admin, "CREATE_ROLE", "ROLE", IdText(k), RoleDetails(name, permissionIds)), k))
  }

  /**
   * `updateRole`: the update itself fails on a missing role; otherwise the
   * name is set and the permission set becomes exactly the given ids. An
   * absent description is left as it is.
   */
  function UpdateRole(st: AdminState, id: Id, name: string, description: Option<string>, permissionIds: seq<Id>, admin: Id): (r: Result<AdminState>)
    ensures id !in st.dir.roles ==> r == Err(Db(RecordNotFound, None))
    ensures r.Ok? <==> id in st.dir.roles && !NameTaken(st.dir.roles, name, Some(id)) &&
                       Members(permissionIds) <= st.dir.permissions.Keys
    ensures r.Ok? ==>
              r.value.dir.users == st.dir.users && r.value.dir.permissions == st.dir.permissions &&
              r.value.dir.nextId == st.dir.nextId && r.value.dir.categories == st.dir.categories &&
              r.value.dir.roles == st.dir.roles[id := Role(name, if description.Some? then description.value else st.dir.roles[id].description,
                                                            Members(permissionIds))] &&
              r.value.settings == st.settings && AuditedBy(st, r.value, admin, "UPDATE_ROLE")
  {
    var d := st.dir;
    if id !in d.roles then Err(Db(RecordNotFound, None))
    else if NameTaken(d.roles, name, Some(id)) then Err(Db(UniqueViolation, Some("name")))
    else if !(Members(permissionIds) <= d.permissions.Keys) then Err(Db(RecordNotFound, None))
    else
      var role := Role(name, if description.Some? then description.value else d.roles[id].description, Members(permissionIds));
      Ok(CreateAuditLog(st.(dir := d.(roles := d.roles[id := role])), admin, "UPDATE_ROLE", "ROLE", IdText(id),
                        RoleDetails(name, permissionIds)))
  }

  /** Some user holds the role. */
  predicate RoleInUse(users: map<Id, User>, id: Id)
  {
    exists u :: u in users && id in users[u].roles
  }

  /** `deleteRole`: a missing role is NotFound and a role held by any user cannot be deleted. */
  function DeleteRole(st: AdminState, id: Id, admin: Id): (r: Result<AdminState>)
    ensures id !in st.dir.roles ==> r == Err(NotFound("Role not found"))
    ensures id in st.dir.roles && RoleInUse(st.dir.users, id) ==> r == Err(Forbidden("Cannot delete role that is assigned to users"))
    ensures r.Ok? <==> id in st.dir.roles && !RoleInUse(st.dir.users, id)
    ensures r.Ok? ==>
              r.value.dir == st.dir.(roles := st.dir.roles - {id}) && r.value.settings == st.settings &&
              AuditedBy(st, r.value, admin, "DELETE_ROLE") &&
              r.value.audit[|st.audit|].details == Some(JObj([("name", JStr(st.dir.roles[id].name))]))
  {
    var d := st.dir;
    if id !in d.roles then Err(NotFound("Role not found"))
    else if RoleInUse(d.users, id) then Err(Forbidden("Cannot delete role that is assigned to users"))
    else Ok(CreateAuditLog(st.(dir := d.(roles := d.roles - {id})), admin, "DELETE_ROLE", "ROLE", IdText(id),
                           JObj([("name", JStr(d.roles[id].name))])))
  }

  // ---------------------------------------------------------------------
  // The directory stays valid
  // ---------------------------------------------------------------------

  lemma CreateUserValid(st: AdminState, form: NewUser, hash: string, admin: Id)
    requires Valid(st.dir) && CreateUser(st, form, hash, admin).Ok?
    ensures Valid(CreateUser(st, form, hash, admin).value.0.dir)
  {
    var d := st.dir;
    var u := CreateUser(st, form, hash, admin).value.0.dir.users[d.nextId];
    ValidAfterInsertUser(d, u);
  }

  lemma UpdateUserValid(st: AdminState, id: Id, ch: UserChanges, hash: string, admin: Id)
    requires Valid(st.dir) && UpdateUser(st, id, ch, hash, admin).Ok?
    ensures Valid(UpdateUser(st, id, ch, hash, admin).value.dir)
  {
    var d := st.dir;
    var u := ApplyChanges(d.users[id], ch, hash);
    UserColumnsAfterReplace(d.users, id, u);
    assert UserRolesExist(d.users[id := u], d.roles.Keys);
  }

  /** Replacing a row by one whose email no other row holds and whose username is unchanged keeps the user columns unique. */
  lemma UserColumnsAfterReplace(users: map<Id, User>, k: Id, u: User)
    requires UserColumnsUnique(users) && k in users
    requires forall j :: j in users && j != k ==> users[j].email != u.email
    requires u.username == users[k].username
    ensures UserColumnsUnique(users[k := u])
  {
  }

  lemma DeleteUserValid(st: AdminState, id: Id, admin: Id)
    requires Valid(st.dir) && DeleteUser(st, id, admin).Ok?
    ensures Valid(DeleteUser(st, id, admin).value.dir)
  {
    assert UserColumnsUnique(st.dir.users - {id});
  }

  lemma CreateRoleValid(st: AdminState, name: string, description: string, permissionIds: seq<Id>, admin: Id)
    requires Valid(st.dir) && CreateRole(st, name, description, permissionIds, admin).Ok?
    ensures Valid(CreateRole(st, name, description, permissionIds, admin).value.0.dir)
  {
    var d := st.dir;
    var d' := CreateRole(st, name, description, permissionIds, admin).value.0.dir;
    assert UserRolesExist(d'.users, d'.roles.Keys) by {
      assert d'.users == d.users && d.roles.Keys <= d'.roles.Keys;
    }
  }

  lemma UpdateRoleValid(st: AdminState, id: Id, name: string, description: Option<string>, permissionIds: seq<Id>, admin: Id)
    requires Valid(st.dir) && UpdateRole(st, id, name, description, permissionIds, admin).Ok?
    ensures Valid(UpdateRole(st, id, name, description, permissionIds, admin).value.dir)
  {
    var d := st.dir;
    var d' := UpdateRole(st, id, name, description, permissionIds, admin).value.dir;
    assert d'.roles.Keys == d.roles.Keys;
  }

  lemma DeleteRoleValid(st: AdminState, id: Id, admin: Id)
    requires Valid(st.dir) && DeleteRole(st, id, admin).Ok?
    ensures Valid(DeleteRole(st, id, admin).value.dir)
  {
    var d := st.dir;
    assert UserRolesExist(d.users, d.roles.Keys - {id}) by {
      forall u | u in d.users ensures d.users[u].roles <= d.roles.Keys - {id} {
        assert id !in d.users[u].roles;
      }
    }
  }

  // ---------------------------------------------------------------------
  // System settings
  // ---------------------------------------------------------------------

  /** `String(value)`. */
  function Stringify(v: SettingValue): string
  {
    match v
    case SText(s) => s
    case SNumber(n) => IntToString(n)
    case SFlag(b) => if b then "true" else "false"
  }

  function Keys(entries: seq<(string, SettingValue)>): (r: seq<string>)
    ensures |r| == |entries|
    ensures forall i :: 0 <= i < |entries| ==> r[i] == entries[i].0
  {
    seq(|entries|, i requires 0 <= i < |entries| => entries[i].0)
  }

  /** Upserts each entry in turn. */
  function Upsert(settings: map<string, string>, entries: seq<(string, SettingValue)>): (r: map<string, string>)
    requires NoDup(Keys(entries))
    ensures forall i :: 0 <= i < |entries| ==> entries[i].0 in r && r[entries[i].0] == Stringify(entries[i].1)
    ensures forall k :: k in r <==> k in settings || k in Keys(entries)
    ensures forall k :: k in settings && k !in Keys(entries) ==> r[k] == settings[k]
    decreases |entries|
  {
    if |entries| == 0 then settings
    else
      var last := entries[|entries| - 1];
      var prefix := entries[..|entries| - 1];
      assert Keys(prefix) == Keys(entries)[..|entries| - 1];
      assert last.0 !in Keys(prefix);
      Upsert(settings, prefix)[last.0 := Stringify(last.1)]
  }

  /**
   * `updateSystemSettings`: every given key is upserted with its value as a
   * string; the reply is the whole settings table. An object's keys are
   * distinct, hence the precondition.
   */
  function UpdateSystemSettings(st: AdminState, entries: seq<(string, SettingValue)>, admin: Id): (r: (AdminState, map<string, string>))
    requires NoDup(Keys(entries))
    ensures r.0.dir == st.dir && r.1 == r.0.settings
    ensures forall i :: 0 <= i < |entries| ==> entries[i].0 in r.1 && r.1[entries[i].0] == Stringify(entries[i].1)
    ensures forall k :: k !in Keys(entries) ==> (k in r.1 <==> k in st.settings) && (k in st.settings ==> r.1[k] == st.settings[k])
    ensures AuditedBy(st, r.0, admin, "UPDATE_SYSTEM_SETTINGS") &&
            r.0.audit[|st.audit|] == AdminAudit(admin, "UPDATE_SYSTEM_SETTINGS", "SYSTEM_SETTINGS", "global",
                                                Some(JObj([("settings", StrArray(Keys(entries)))])))
  {
    var settings := Upsert(st.settings, entries);
    var st' := CreateAuditLog(st.(settings := settings), admin, "UPDATE_SYSTEM_SETTINGS", "SYSTEM_SETTINGS", "global",
                              JObj([("settings", StrArray(Keys(entries)))]));
    (st', settings)
  }

  /** Saving the same form twice leaves the same settings as saving it once. */
  lemma UpdateSettingsIdempotent(st: AdminState, entries: seq<(string, SettingValue)>, admin: Id)
    requires NoDup(Keys(entries))
    ensures var once := UpdateSystemSettings(st, entries, admin).0;
            UpdateSystemSettings(once, entries, admin).1 == once.settings
  {
    var once := UpdateSystemSettings(st, entries, admin).0;
    var twice := UpdateSystemSettings(once, entries, admin).1;
    forall k | k in twice ensures k in once.settings && twice[k] == once.settings[k] {
      if k in Keys(entries) {
        var i :| 0 <= i < |entries| && Keys(entries)[i] == k;
        assert twice[entries[i].0] == Stringify(entries[i].1);
      }
    }
  }
}

=== FILE: auth.dfy ===
/**
 * Authentication: checking credentials, opening a session at login,
 * registering an account, and the refresh-token session lifecycle
 * (refresh, logout, logout everywhere).
 *
 * Password hashing and comparison and JWT signing are outside the model:
 * `matches` stands for `bcrypt.compare`, hashes and signed tokens arrive
 * as parameters, and a refresh answers with the payload it would sign.
 */
module Auth {
  import opened Common
  import opened Identity

  /** Milliseconds in the seven days a refresh session lives. */
  const SessionLifetime: int := 7 * 24 * 60 * 60 * 1000

  /** A row of the session table. */
  datatype Session = Session(userId: Id, refreshToken: string, expiresAt: int, isActive: bool, revokedAt: Option<int>)

  /** The identity tables together with the session table, in creation order. */
  datatype AuthState = AuthState(dir: Directory, sessions: seq<Session>)

  /** A user row as handed back to callers: every column except the password hash. */
  datatype PublicUser = PublicUser(
    id: Id,
    email: string,
    username: Option<string>,
    firstName: string,
    lastName: string,
    isActive: bool,
    isVerified: bool,
    lastLoginAt: Option<int>,
    roles: set<Id>)

  function WithoutPassword(k: Id, u: User): (p: PublicUser)
    ensures p.id == k && p.email == u.email && p.username == u.username && p.isActive == u.isActive
  {
    PublicUser(k, u.email, u.username, u.firstName, u.lastName, u.isActive, u.isVerified, u.lastLoginAt, u.roles)
  }

  /** The claims signed into access and refresh tokens. */
  datatype Payload = Payload(sub: Id, email: string, username: Option<string>)

  /** What login hands back: the user, and the two signed tokens. */
  datatype LoginReply = LoginReply(user: PublicUser, accessToken: string, refreshToken: string)

  /** The columns register selects from the created row. */
  datatype Registered = Registered(id: Id, email: string, username: Option<string>, firstName: string,
                                   lastName: string, isActive: bool)

  datatype RegisterForm = RegisterForm(email: string, username: string, firstName: string, lastName: string)

  /**
   * `validateUser`: `Ok(None)` for an unknown email or a wrong password, a
   * refusal for a deactivated account only once the password matched, and
   * otherwise the user without its password.
   */
  function ValidateUser(d: Directory, email: string, password: string, matches: (string, string) -> bool)
    : (r: Result<Option<PublicUser>>)
    ensures UserWithEmail(d, email).None? ==> r == Ok(None)
    ensures UserWithEmail(d, email).Some? ==>
              var k := UserWithEmail(d, email).value;
              && (!matches(password, d.users[k].passwordHash) ==> r == Ok(None))
              && (matches(password, d.users[k].passwordHash) && !d.users[k].isActive ==>
                    r == Err(Unauthorized("Account is deactivated")))
              && (matches(password, d.users[k].passwordHash) && d.users[k].isActive ==>
                    r == Ok(Some(WithoutPassword(k, d.users[k]))))
  {
    match UserWithEmail(d, email)
    case None => Ok(None)
    case Some(k) =>
      var u := d.users[k];
      if !matches(password, u.passwordHash) then Ok(None)
      else if !u.isActive then Err(Unauthorized("Account is deactivated"))
      else Ok(Some(WithoutPassword(k, u)))
  }

  /** No two sessions share a refresh token (the column is unique). */
  ghost predicate TokensUnique(ss: seq<Session>)
  {
    forall i, j :: 0 <= i < j < |ss| ==> ss[i].refreshToken != ss[j].refreshToken
  }

  /** Every session belongs to an existing user. */
  ghost predicate SessionsOwned(st: AuthState)
  {
    forall i :: 0 <= i < |st.sessions| ==> st.sessions[i].userId in st.dir.users
  }

  /** The first session holding `token`, if any. */
  function SessionWithToken(ss: seq<Session>, token: string): (r: Option<nat>)
    ensures r.Some? ==> r.value < |ss| && ss[r.value].refreshToken == token
    ensures r.Some? ==> forall i :: 0 <= i < r.value ==> ss[i].refreshToken != token
    ensures r.None? <==> forall i :: 0 <= i < |ss| ==> ss[i].refreshToken != token
  {
    if |ss| == 0 then None
    else if ss[0].refreshToken == token then Some(0)
    else
      match SessionWithToken(ss[1..], token)
      case None => None
      case Some(i) => Some(i + 1)
  }

  /**
   * `login`. The session row is inserted before the last-login stamp is
   * written; a refresh token already stored breaks the unique column.
   */
  function Login(st: AuthState, email: string, password: string, matches: (string, string) -> bool,
                 accessToken: string, refreshToken: string, now: int): (r: Result<(AuthState, LoginReply)>)
    ensures r.Ok? <==> ValidateUser(st.dir, email, password, matches).Ok? &&
                       ValidateUser(st.dir, email, password, matches).value.Some? &&
                       SessionWithToken(st.sessions, refreshToken).None?
    ensures ValidateUser(st.dir, email, password, matches) == Ok(None) ==> r == Err(Unauthorized("Invalid credentials"))
    ensures ValidateUser(st.dir, email, password, matches).Err? ==> r == Err(ValidateUser(st.dir, email, password, matches).failure)
    ensures r.Ok? ==>
              var k := UserWithEmail(st.dir, email).value;
              && r.value.0.sessions == st.sessions + [Session(k, refreshToken, now + SessionLifetime, true, None)]
              && r.value.0.dir == st.dir.(users := st.dir.users[k := st.dir.users[k].(lastLoginAt := Some(now))])
              && r.value.1 == LoginReply(WithoutPassword(k, st.dir.users[k]), accessToken, refreshToken)
  {
    match ValidateUser(st.dir, email, password, matches)
    case Err(f) => Err(f)
    case Ok(None) => Err(Unauthorized("Invalid credentials"))
    case Ok(Some(user)) =>
      if SessionWithToken(st.sessions, refreshToken).Some? then Err(Db(UniqueViolation, Some("refreshToken")))
      else
        var session := Session(user.id, refreshToken, now + SessionLifetime, true, None);
        var u := st.dir.users[user.id];
        var dir := st.dir.(users := st.dir.users[user.id := u.(lastLoginAt := Some(now))]);
        Ok((AuthState(dir, st.sessions + [session]), LoginReply(user, accessToken, refreshToken)))
  }

  /** Login keeps refresh tokens unique and sessions owned, and the identity tables valid. */
  lemma LoginKeepsInvariants(st: AuthState, email: string, password: string, matches: (string, string) -> bool,
                             accessToken: string, refreshToken: string, now: int)
    requires Valid(st.dir) && TokensUnique(st.sessions) && SessionsOwned(st)
    requires Login(st, email, password, matches, accessToken, refreshToken, now).Ok?
    ensures var st' := Login(st, email, password, matches, accessToken, refreshToken, now).value.0;
            Valid(st'.dir) && TokensUnique(st'.sessions) && SessionsOwned(st')
  {
    var k := UserWithEmail(st.dir, email).value;
    ValidAfterUserEdit(st.dir, k, st.dir.users[k].(lastLoginAt := Some(now)));
  }

  /** `refreshToken`: only an active, unexpired session holding the token lets a new access token be signed. */
  function Refresh(st: AuthState, token: string, now: int): (r: Result<Payload>)
    ensures r.Ok? ==> exists i :: 0 <= i < |st.sessions| && st.sessions[i].refreshToken == token &&
                                  st.sessions[i].isActive && now <= st.sessions[i].expiresAt &&
                                  r.value.sub == st.sessions[i].userId
    ensures r.Err? && r.failure != Crash ==> r.failure == Unauthorized("Invalid or expired refresh token")
  {
    match SessionWithToken(st.sessions, token)
    case None => Err(Unauthorized("Invalid or expired refresh token"))
    case Some(i) =>
      var s := st.sessions[i];
      if !s.isActive || s.expiresAt < now then Err(Unauthorized("Invalid or expired refresh token"))
      else if s.userId !in st.dir.users then Err(Crash)
      else Ok(Payload(s.userId, st.dir.users[s.userId].email, st.dir.users[s.userId].username))
  }

  /** With unique tokens and owned sessions, refresh succeeds exactly for an active unexpired session's token. */
  lemma RefreshAccepts(st: AuthState, token: string, now: int, i: nat)
    requires TokensUnique(st.sessions) && SessionsOwned(st)
    requires i < |st.sessions| && st.sessions[i].refreshToken == token
    ensures Refresh(st, token, now).Ok? <==> st.sessions[i].isActive && now <= st.sessions[i].expiresAt
    ensures Refresh(st, token, now).Ok? ==> Refresh(st, token, now).value.sub == st.sessions[i].userId
  {
    assert SessionWithToken(st.sessions, token) == Some(i);
  }

  /** A session's row after it is revoked at time `now`. */
  function Revoked(s: Session, now: int): Session
  {
    s.(isActive := false, revokedAt := Some(now))
  }

  /** Revokes every active session satisfying `hit`, leaving the others as they are. */
  function RevokeWhere(ss: seq<Session>, hit: Session -> bool, now: int): (r: seq<Session>)
    ensures |r| == |ss|
    ensures forall i :: 0 <= i < |ss| ==> r[i] == if ss[i].isActive && hit(ss[i]) then Revoked(ss[i], now) else ss[i]
  {
    seq(|ss|, i requires 0 <= i < |ss| => if ss[i].isActive && hit(ss[i]) then Revoked(ss[i], now) else ss[i])
  }

  /** `logout`: revokes the active sessions of this user holding this token. */
  function Logout(st: AuthState, userId: Id, token: string, now: int): (r: AuthState)
    ensures r.dir == st.dir && |r.sessions| == |st.sessions|
    ensures forall i :: 0 <= i < |st.sessions| ==>
              (r.sessions[i].isActive <==>
                 st.sessions[i].isActive && (st.sessions[i].userId != userId || st.sessions[i].refreshToken != token))
    ensures forall i :: 0 <= i < |st.sessions| ==>
              r.sessions[i].userId == st.sessions[i].userId && r.sessions[i].refreshToken == st.sessions[i].refreshToken &&
              r.sessions[i].expiresAt == st.sessions[i].expiresAt
    ensures forall i :: 0 <= i < |st.sessions| && st.sessions[i].userId != userId ==> r.sessions[i] == st.sessions[i]
    ensures forall i :: 0 <= i < |st.sessions| ==>
              r.sessions[i] == if st.sessions[i].isActive && st.sessions[i].userId == userId && st.sessions[i].refreshToken == token
                               then st.sessions[i].(isActive := false, revokedAt := Some(now)) else st.sessions[i]
  {
    st.(sessions := RevokeWhere(st.sessions, (s: Session) => s.userId == userId && s.refreshToken == token, now))
  }

  /** `logoutAll`: revokes every active session of this user and touches no other user's sessions. */
  function LogoutAll(st: AuthState, userId: Id, now: int): (r: AuthState)
    ensures r.dir == st.dir && |r.sessions| == |st.sessions|
    ensures forall i :: 0 <= i < |st.sessions| ==>
              (r.sessions[i].isActive <==> st.sessions[i].isActive && st.sessions[i].userId != userId)
    ensures forall i :: 0 <= i < |st.sessions| ==>
              r.sessions[i].userId == st.sessions[i].userId && r.sessions[i].refreshToken == st.sessions[i].refreshToken
    ensures forall i :: 0 <= i < |st.sessions| && st.sessions[i].userId != userId ==> r.sessions[i] == st.sessions[i]
    ensures forall i :: 0 <= i < |st.sessions| ==>
              r.sessions[i] == if st.sessions[i].isActive && st.sessions[i].userId == userId
                               then st.sessions[i].(isActive := false, revokedAt := Some(now)) else st.sessions[i]
  {
    st.(sessions := RevokeWhere(st.sessions, (s: Session) => s.userId == userId, now))
  }

  /** After logging out everywhere, none of the user's refresh tokens is accepted any more. */
  lemma LogoutAllRevokesTokens(st: AuthState, userId: Id, now: int, i: nat, later: int)
    requires TokensUnique(st.sessions) && SessionsOwned(st)
    requires i < |st.sessions| && st.sessions[i].userId == userId
    ensures Refresh(LogoutAll(st, userId, now), st.sessions[i].refreshToken, later).Err?
  {
    var st' := LogoutAll(st, userId, now);
    assert TokensUnique(st'.sessions) by {
      forall a, b | 0 <= a < b < |st'.sessions| ensures st'.sessions[a].refreshToken != st'.sessions[b].refreshToken {
        assert st.sessions[a].refreshToken != st.sessions[b].refreshToken;
      }
    }
    assert SessionsOwned(st') by {
      forall a | 0 <= a < |st'.sessions| ensures st'.sessions[a].userId in st'.dir.users {
        assert st'.sessions[a].userId == st.sessions[a].userId;
      }
    }
    RefreshAccepts(st', st.sessions[i].refreshToken, later, i);
  }

  /** After logging out with a token, that token is no longer accepted. */
  lemma LogoutRevokesToken(st: AuthState, userId: Id, now: int, i: nat, later: int)
    requires TokensUnique(st.sessions) && SessionsOwned(st)
    requires i < |st.sessions| && st.sessions[i].userId == userId
    ensures Refresh(Logout(st, userId, st.sessions[i].refreshToken, now), st.sessions[i].refreshToken, later).Err?
  {
    var token := st.sessions[i].refreshToken;
    var st' := Logout(st, userId, token, now);
    assert TokensUnique(st'.sessions) by {
      forall a, b | 0 <= a < b < |st'.sessions| ensures st'.sessions[a].refreshToken != st'.sessions[b].refreshToken {
        assert st.sessions[a].refreshToken != st.sessions[b].refreshToken;
      }
    }
    assert SessionsOwned(st') by {
      forall a | 0 <= a < |st'.sessions| ensures st'.sessions[a].userId in st'.dir.users {
        assert st'.sessions[a].userId == st.sessions[a].userId;
      }
    }
    RefreshAccepts(st', token, later, i);
  }

  /**
   * `register`: an existing email is refused first, then an existing
   * username; the new account gets the role named "User" when one exists.
   * The schema's column defaults make the account active and unverified.
   */
  function Register(d: Directory, form: RegisterForm, passwordHash: string): (r: Result<(Directory, Registered)>)
    requires KeysBelow(d)
    ensures UserWithEmail(d, form.email).Some? ==> r == Err(BadRequest("Email already exists"))
    ensures UserWithEmail(d, form.email).None? && UserWithUsername(d, form.username).Some? ==>
              r == Err(BadRequest("Username already exists"))
    ensures r.Ok? <==> UserWithEmail(d, form.email).None? && UserWithUsername(d, form.username).None?
    ensures r.Ok? ==>
              var k := r.value.1.id;
              && k == d.nextId && r.value.0.nextId == d.nextId + 1
              && k !in d.users && r.value.0.users.Keys == d.users.Keys + {k}
              && (forall j :: j in d.users ==> r.value.0.users[j] == d.users[j])
              && r.value.0.users[k].(roles := {}) ==
                   User(form.email, Some(form.username), form.firstName, form.lastName, passwordHash, true, false, None, {})
              && r.value.0.roles == d.roles && r.value.0.permissions == d.permissions && r.value.0.categories == d.categories
              && (RoleNamed(d, "User").Some? ==> r.value.0.users[k].roles == {RoleNamed(d, "User").value})
              && (RoleNamed(d, "User").None? ==> r.value.0.users[k].roles == {})
  {
    if UserWithEmail(d, form.email).Some? then Err(BadRequest("Email already exists"))
    else if UserWithUsername(d, form.username).Some? then Err(BadRequest("Username already exists"))
    else
      var k := d.nextId;
      var roles := match RoleNamed(d, "User") case Some(role) => {role} case None => {};
      var u := User(form.email, Some(form.username), form.firstName, form.lastName, passwordHash, true, false, None, roles);
      Ok((d.(users := d.users[k := u], nextId := d.nextId + 1),
          Registered(k, u.email, u.username, u.firstName, u.lastName, u.isActive)))
  }

  /** Registration keeps every constraint of the identity tables. */
  lemma RegisterValid(d: Directory, form: RegisterForm, passwordHash: string)
    requires Valid(d) && Register(d, form, passwordHash).Ok?
    ensures Valid(Register(d, form, passwordHash).value.0)
  {
    var d' := Register(d, form, passwordHash).value.0;
    EmailFree(d, form.email);
    UsernameFree(d, form.username);
    ValidAfterInsertUser(d, d'.users[d.nextId]);
  }

  /** Once registered, an account can log in with the matching password. */
  lemma RegisterThenValidate(d: Directory, form: RegisterForm, passwordHash: string, password: string,
                             matches: (string, string) -> bool)
    requires Valid(d) && Register(d, form, passwordHash).Ok?
    requires matches(password, passwordHash)
    ensures var (d', reg) := Register(d, form, passwordHash).value;
            ValidateUser(d', form.email, password, matches).Ok? &&
            ValidateUser(d', form.email, password, matches).value == Some(WithoutPassword(reg.id, d'.users[reg.id]))
  {
    var (d', reg) := Register(d, form, passwordHash).value;
    RegisterValid(d, form, passwordHash);
    UserWithEmailExact(d', reg.id);
  }
}

=== FILE: common.dfy ===
/**
 * Vocabulary shared by every service of the back office: row identifiers,
 * the failures a service call can end in, JSON snapshots written to audit
 * rows, and the few sequence operations the services perform on arrays
 * (de-duplication through a `Set`, `filter`, counting).
 */
module Common {

  /** Row identifiers. The database generates them; the model draws them from a per-store counter. */
  type Id = nat

  datatype Option<T> = None | Some(value: T)

  /**
   * How a service call can end other than normally: the HTTP exceptions the
   * services throw, a known ORM request error (a Prisma error code and, for a
   * unique-constraint violation, the offending column), the ORM's refusal of
   * a query whose data does not fit the schema (a validation error), or a
   * runtime crash (a `TypeError`, which is not an HTTP exception).
   */
  datatype Failure =
    | NotFound(message: string)
    | BadRequest(message: string)
    | Forbidden(message: string)
    | Unauthorized(message: string)
    | Db(code: string, target: Option<string>)
    | Invalid
    | Crash

  datatype Result<T> = Ok(value: T) | Err(failure: Failure)

  /** Prisma's error codes used by the model. */
  const UniqueViolation: string := "P2002"
  const RecordNotFound: string := "P2025"

  /**
   * A JSON value. An audit column holding `Some(j)` stands for the text
   * `JSON.stringify(j)`; `None` stands for SQL null.
   */
  datatype Json =
    | JNull
    | JBool(b: bool)
    | JNum(n: int)
    | JStr(s: string)
    | JArr(items: seq<Json>)
    | JObj(fields: seq<(string, Json)>)

  /**
   * A row of the shared audit table as the issue and request services write
   * it: the action code, the kind of record and its id, the values before and
   * after (null when not given), and the acting user.
   */
  datatype AuditRow = AuditRow(action: string, resource: string, resourceId: Id,
                               oldValues: Option<Json>, newValues: Option<Json>, userId: Id)

  /** Decimal text of a natural number, as JavaScript's `String(n)` writes it. */
  function NatToString(n: nat): (r: string)
    ensures |r| >= 1
    ensures forall i :: 0 <= i < |r| ==> '0' <= r[i] <= '9'
    ensures n < 10 <==> |r| == 1
  {
    if n < 10 then [Digit(n)] else NatToString(n / 10) + [Digit(n % 10)]
  }

  function Digit(d: nat): (c: char)
    requires d < 10
    ensures '0' <= c <= '9'
  {
    ['0', '1', '2', '3', '4', '5', '6', '7', '8', '9'][d]
  }

  /** Reads back the value of a string of decimal digits. */
  function DigitsValue(s: string): nat
    requires forall i :: 0 <= i < |s| ==> '0' <= s[i] <= '9'
  {
    if |s| == 0 then 0 else 10 * DigitsValue(s[..|s| - 1]) + (s[|s| - 1] - '0') as nat
  }

  /** `NatToString` loses nothing: its digits read back as the number. */
  lemma {:induction false} NatToStringRoundTrip(n: nat)
    ensures DigitsValue(NatToString(n)) == n
  {
    if n >= 10 {
      var r := NatToString(n);
      assert r[..|r| - 1] == NatToString(n / 10);
      NatToStringRoundTrip(n / 10);
    }
  }

  /** Decimal text of an integer, with a leading minus sign when negative. */
  function IntToString(i: int): (r: string)
    ensures |r| >= 1
    ensures i < 0 <==> r[0] == '-'
  {
    if i < 0 then "-" + NatToString(-i) else NatToString(i)
  }

  /** How an identifier appears inside messages and JSON snapshots. */
  function IdText(id: Id): string
  {
    NatToString(id)
  }

  /** A nullable foreign key as JSON: `null` or the identifier's text. */
  function IdJson(id: Option<Id>): (j: Json)
    ensures j.JNull? <==> id.None?
  {
    match id
    case None => JNull
    case Some(v) => JStr(IdText(v))
  }

  /** An array of strings as JSON. */
  function StrArray(items: seq<string>): (j: Json)
    ensures j.JArr? && |j.items| == |items|
    ensures forall i :: 0 <= i < |items| ==> j.items[i] == JStr(items[i])
  {
    JArr(seq(|items|, i requires 0 <= i < |items| => JStr(items[i])))
  }

  /**
   * The new values of a status change, `{ status, notes }`: JSON leaves out a
   * property whose value is `undefined`, so `notes` appears only when given.
   */
  function StatusChange(status: string, notes: Option<string>): Json
  {
    match notes
    case None => JObj([("status", JStr(status))])
    case Some(n) => JObj([("status", JStr(status)), ("notes", JStr(n))])
  }

  /** JavaScript truthiness of an optional string: absent and empty are both falsy. */
  predicate Truthy(s: Option<string>)
  {
    s.Some? && s.value != ""
  }

  // ---------------------------------------------------------------------
  // Sequences
  // ---------------------------------------------------------------------

  predicate NoDup<T(==)>(s: seq<T>)
  {
    forall i, j :: 0 <= i < j < |s| ==> s[i] != s[j]
  }

  /** Number of occurrences of `x` in `s`. */
  function Count<T(==)>(s: seq<T>, x: T): nat
  {
    if |s| == 0 then 0 else Count(s[..|s| - 1], x) + (if s[|s| - 1] == x then 1 else 0)
  }

  lemma {:induction false} CountPositive<T>(s: seq<T>, x: T)
    ensures Count(s, x) > 0 <==> x in s
  {
    if |s| > 0 {
      CountPositive(s[..|s| - 1], x);
      assert s == s[..|s| - 1] + [s[|s| - 1]];
    }
  }

  lemma {:induction false} CountAppend<T>(a: seq<T>, b: seq<T>, x: T)
    ensures Count(a + b, x) == Count(a, x) + Count(b, x)
    decreases |b|
  {
    if |b| > 0 {
      assert (a + b)[..|a + b| - 1] == a + b[..|b| - 1];
      CountAppend(a, b[..|b| - 1], x);
    } else {
      assert a + b == a;
    }
  }

  /** In a sequence without duplicates every member occurs exactly once. */
  lemma {:induction false} CountNoDup<T>(s: seq<T>, x: T)
    requires NoDup(s)
    ensures Count(s, x) == if x in s then 1 else 0
  {
    if |s| > 0 {
      var p := s[..|s| - 1];
      assert NoDup(p);
      CountNoDup(p, x);
      assert s == p + [s[|s| - 1]];
      assert s[|s| - 1] !in p by {
        forall i | 0 <= i < |p| ensures p[i] != s[|s| - 1] {
          assert p[i] == s[i];
        }
      }
    }
  }

  /**
   * `[...new Set(s)]`: the distinct elements of `s`, each at the position of
   * its first occurrence.
   */
  function Dedup<T(==,!new)>(s: seq<T>): (r: seq<T>)
    ensures NoDup(r)
    ensures forall x :: x in r <==> x in s
    decreases |s|
  {
    if |s| == 0 then []
    else
      var prefix := Dedup(s[..|s| - 1]);
      var last := s[|s| - 1];
      assert s == s[..|s| - 1] + [last];
      if last in prefix then prefix else prefix + [last]
  }

  /** A sequence that already has no duplicates passes through `Dedup` unchanged. */
  lemma {:induction false} DedupOfNoDup<T(!new)>(s: seq<T>)
    requires NoDup(s)
    ensures Dedup(s) == s
  {
    if |s| > 0 {
      var p := s[..|s| - 1];
      assert NoDup(p);
      DedupOfNoDup(p);
      assert s[|s| - 1] !in p by {
        forall i | 0 <= i < |p| ensures p[i] != s[|s| - 1] {
          assert p[i] == s[i];
        }
      }
      assert s == p + [s[|s| - 1]];
    }
  }

  /** `s.filter(y => y !== x)`. */
  function RemoveAll<T(==,!new)>(s: seq<T>, x: T): (r: seq<T>)
    ensures forall y :: y in r <==> y in s && y != x
    ensures |r| + Count(s, x) == |s|
    decreases |s|
  {
    if |s| == 0 then []
    else
      var prefix := RemoveAll(s[..|s| - 1], x);
      var last := s[|s| - 1];
      assert s == s[..|s| - 1] + [last];
      if last == x then prefix else prefix + [last]
  }

  /** `s.filter(p)`: the elements of `s` that satisfy `p`, in their order. */
  function Filter<T(!new)>(s: seq<T>, p: T -> bool): (r: seq<T>)
    ensures forall y :: y in r <==> y in s && p(y)
    ensures |r| <= |s|
    decreases |s|
  {
    if |s| == 0 then []
    else
      var prefix := Filter(s[..|s| - 1], p);
      var last := s[|s| - 1];
      assert s == s[..|s| - 1] + [last];
      if p(last) then prefix + [last] else prefix
  }

  /** A filter that every element passes keeps the whole sequence. */
  lemma {:induction false} FilterKeepsAll<T(!new)>(s: seq<T>, p: T -> bool)
    requires forall i :: 0 <= i < |s| ==> p(s[i])
    ensures Filter(s, p) == s
    decreases |s|
  {
    if |s| > 0 {
      FilterKeepsAll(s[..|s| - 1], p);
      assert s == s[..|s| - 1] + [s[|s| - 1]];
    }
  }

  /** Filtering distributes over concatenation, so the kept elements stay in their original order. */
  lemma {:induction false} RemoveAllAppend<T(!new)>(a: seq<T>, b: seq<T>, x: T)
    ensures RemoveAll(a + b, x) == RemoveAll(a, x) + RemoveAll(b, x)
    decreases |b|
  {
    if |b| == 0 {
      assert a + b == a;
    } else {
      assert (a + b)[..|a + b| - 1] == a + b[..|b| - 1];
      RemoveAllAppend(a, b[..|b| - 1], x);
    }
  }

  /** Filtering out `x` leaves the number of occurrences of every other value unchanged. */
  lemma {:induction false} RemoveAllCounts<T(!new)>(s: seq<T>, x: T, y: T)
    requires y != x
    ensures Count(RemoveAll(s, x), y) == Count(s, y)
    decreases |s|
  {
    if |s| > 0 {
      var p := s[..|s| - 1];
      RemoveAllCounts(p, x, y);
      if s[|s| - 1] != x {
        var r := RemoveAll(p, x) + [s[|s| - 1]];
        assert r[..|r| - 1] == RemoveAll(p, x);
      }
    }
  }

  /** A sequence in which nothing occurs twice has no duplicates. */
  lemma CountAtMostOneIsNoDup<T>(s: seq<T>)
    requires forall y :: Count(s, y) <= 1
    ensures NoDup(s)
  {
    forall i, j | 0 <= i < j < |s| ensures s[i] != s[j] {
      if s[i] == s[j] {
        var p := s[..j];
        assert s[..j + 1] == p + [s[j]];
        assert s == s[..j + 1] + s[j + 1..];
        assert s[i] in p by { assert p[i] == s[i]; }
        CountPositive(p, s[i]);
        CountAppend(p, [s[j]], s[i]);
        assert Count([s[j]], s[i]) == Count([s[j]][..0], s[i]) + 1;
        CountAppend(s[..j + 1], s[j + 1..], s[i]);
        assert false;
      }
    }
  }

  /** Filtering a duplicate-free sequence leaves it duplicate-free. */
  lemma RemoveAllKeepsNoDup<T(!new)>(s: seq<T>, x: T)
    requires NoDup(s)
    ensures NoDup(RemoveAll(s, x))
  {
    var r := RemoveAll(s, x);
    forall y ensures Count(r, y) <= 1 {
      CountNoDup(s, y);
      if y != x {
        RemoveAllCounts(s, x, y);
      } else {
        CountPositive(r, y);
      }
    }
    CountAtMostOneIsNoDup(r);
  }

  /** Filtering out a value that does not occur changes nothing. */
  lemma {:induction false} RemoveAllAbsent<T(!new)>(s: seq<T>, x: T)
    requires x !in s
    ensures RemoveAll(s, x) == s
    decreases |s|
  {
    if |s| > 0 {
      RemoveAllAbsent(s[..|s| - 1], x);
      assert s == s[..|s| - 1] + [s[|s| - 1]];
    }
  }
}

=== FILE: exception_filter.dfy ===
/**
 * The global exception filter: every error that escapes a request handler is
 * classified into an HTTP status, a message, optional details and a log level.
 */
module ExceptionFilter {
  import opened Common

  /** What `HttpException.getResponse()` returns: a bare string or a response object. */
  datatype HttpBody =
    | TextBody(text: string)
    | ObjectBody(statusCode: int, message: string, error: string)

  /**
   * The thrown value, as far as the filter tells kinds apart. A known
   * request error's `target` stands for `meta.target`, which Prisma usually
   * reports as a list of field names; the model carries it as one string.
   */
  datatype Exception =
    | Http(status: int, body: HttpBody, exceptionMessage: string)
    | PrismaKnown(code: string, target: Option<string>)
    | PrismaUnknown
    | PrismaValidation
    | Other

  /** The `details` member of the error response. */
  datatype Details =
    | HttpDetails(body: HttpBody)
    | FieldDetails(field: Option<string>)
    | CodeDetails(code: string)

  datatype LogLevel = ErrorLevel | WarnLevel

  /**
   * The JSON body sent back (timestamp, path and method left out) and how the
   * failure is logged. `details == None` means the key is absent from the body.
   */
  datatype Outcome = Outcome(statusCode: int, message: string, details: Option<Details>, level: LogLevel)

  const InternalServerError: int := 500
  const BadRequestStatus: int := 400

  /** The message and details fixed by a known ORM error code. */
  function KnownErrorReply(code: string, target: Option<string>): (r: (string, Option<Details>))
    ensures code == UniqueViolation ==> r == ("Unique constraint violation", Some(FieldDetails(target)))
    ensures code == RecordNotFound ==> r == ("Record not found", None)
    ensures code == "P2003" ==> r == ("Foreign key constraint violation", None)
    ensures code !in {UniqueViolation, RecordNotFound, "P2003"} ==> r == ("Database error", Some(CodeDetails(code)))
  {
    if code == UniqueViolation then ("Unique constraint violation", Some(FieldDetails(target)))
    else if code == RecordNotFound then ("Record not found", None)
    else if code == "P2003" then ("Foreign key constraint violation", None)
    else ("Database error", Some(CodeDetails(code)))
  }

  /** The filter's `catch`. */
  function Catch(e: Exception): (o: Outcome)
    ensures o.level == ErrorLevel <==> o.statusCode >= 500
    ensures e.Http? ==> o.statusCode == e.status
    ensures e.Http? && e.body.TextBody? ==> o.message == e.body.text && o.details.None?
    ensures e.Http? && e.body.ObjectBody? ==> o.details == Some(HttpDetails(e.body))
    ensures e.Http? && e.body.ObjectBody? && e.body.message != "" ==> o.message == e.body.message
    ensures e.Http? && e.body.ObjectBody? && e.body.message == "" ==> o.message == e.exceptionMessage
    ensures e.PrismaKnown? ==> o.statusCode == BadRequestStatus
    ensures e.PrismaUnknown? ==> o.statusCode == InternalServerError && o.message == "Unknown database error"
    ensures e.PrismaValidation? ==> o.statusCode == BadRequestStatus && o.message == "Validation error"
    ensures e.Other? ==> o.statusCode == InternalServerError && o.message == "Internal server error" && o.details.None?
    ensures (e.PrismaUnknown? || e.PrismaValidation?) ==> o.details.None?
  {
    var (status, message, details) :=
      match e
      case Http(s, body, exMessage) =>
        (match body
         case TextBody(t) => (s, t, None)
         case ObjectBody(_, m, _) => (s, if m != "" then m else exMessage, Some(HttpDetails(body))))
      case PrismaKnown(code, target) =>
        var (m, d) := KnownErrorReply(code, target);
        (BadRequestStatus, m, d)
      case PrismaUnknown => (InternalServerError, "Unknown database error", None)
      case PrismaValidation => (BadRequestStatus, "Validation error", None)
      case Other => (InternalServerError, "Internal server error", None);
    Outcome(status, message, details, if status >= 500 then ErrorLevel else WarnLevel)
  }

  /**
   * The exception a service failure throws: NestJS's built-in HTTP exceptions
   * (response object `{statusCode, message, error}`), Prisma's known request
   * error or validation error, or a plain runtime error.
   */
  function Thrown(f: Failure): Exception
  {
    match f
    case NotFound(m) => Http(404, ObjectBody(404, m, "Not Found"), m)
    case BadRequest(m) => Http(400, ObjectBody(400, m, "Bad Request"), m)
    case Forbidden(m) => Http(403, ObjectBody(403, m, "Forbidden"), m)
    case Unauthorized(m) => Http(401, ObjectBody(401, m, "Unauthorized"), m)
    case Db(code, target) => PrismaKnown(code, target)
    case Invalid => PrismaValidation
    case Crash => Other
  }

  /** The HTTP status of each kind of failure in the error taxonomy. */
  function TaxonomyStatus(f: Failure): int
  {
    match f
    case NotFound(_) => 404
    case BadRequest(_) => 400
    case Forbidden(_) => 403
    case Unauthorized(_) => 401
    case Db(_, _) => 400
    case Invalid => 400
    case Crash => 500
  }

  /**
   * Every service failure reaches the client with its taxonomy status; an HTTP
   * failure keeps its own message; only a crash is logged at error level.
   */
  lemma ServiceFailureResponse(f: Failure)
    ensures Catch(Thrown(f)).statusCode == TaxonomyStatus(f)
    ensures ((f.NotFound? || f.BadRequest? || f.Forbidden? || f.Unauthorized?) && f.message != "") ==>
              Catch(Thrown(f)).message == f.message
    ensures f.Invalid? ==> Catch(Thrown(f)).message == "Validation error" && Catch(Thrown(f)).details.None?
    ensures Catch(Thrown(f)).level == ErrorLevel <==> f.Crash?
  {
  }

  /** An update or connect that found no row answers 400 "Record not found", with no details. */
  lemma MissingRecordIsBadRequest()
    ensures Catch(Thrown(Db(RecordNotFound, None))) == Outcome(400, "Record not found", None, WarnLevel)
  {
  }
}

=== FILE: identity.dfy ===
/**
 * The identity tables shared by authentication, authorisation, seeding and
 * administration: users, roles, permissions (and the seeded categories),
 * with the uniqueness and referential constraints the schema enforces.
 */
module Identity {
  import opened Common

  /**
   * A user row. `roles` is the many-to-many user-role relation seen from the
   * user. `username` is optional because administrators create users without one.
   */
  datatype User = User(
    email: string,
    username: Option<string>,
    firstName: string,
    lastName: string,
    passwordHash: string,
    isActive: bool,
    isVerified: bool,
    lastLoginAt: Option<int>,
    roles: set<Id>)

  /** A role row; `permissions` is the role-permission relation seen from the role. */
  datatype Role = Role(name: string, description: string, permissions: set<Id>)

  /** A permission row, unique on `(resource, action)`. */
  datatype Permission = Permission(resource: string, action: string, description: string)

  datatype Category = Category(name: string, description: string)

  datatype Directory = Directory(
    users: map<Id, User>,
    roles: map<Id, Role>,
    permissions: map<Id, Permission>,
    categories: map<Id, Category>,
    nextId: nat)

  const EmptyDirectory: Directory := Directory(map[], map[], map[], map[], 0)

  /** The permission tag `resource:action` that routes declare and the guard compares. */
  function Tag(p: Permission): string
  {
    p.resource + ":" + p.action
  }

  /** In a tag whose resource has no colon, the first colon sits right after the resource. */
  lemma TagColon(p: Permission)
    requires ':' !in p.resource
    ensures |p.resource| < |Tag(p)| && Tag(p)[|p.resource|] == ':'
    ensures forall i :: 0 <= i < |p.resource| ==> Tag(p)[i] != ':'
  {
  }

  /** Tags are unambiguous as long as resources contain no colon. */
  lemma TagInjective(p: Permission, q: Permission)
    requires ':' !in p.resource && ':' !in q.resource
    requires Tag(p) == Tag(q)
    ensures p.resource == q.resource && p.action == q.action
  {
    TagColon(p);
    TagColon(q);
    var tp, tq := Tag(p), Tag(q);
    assert |p.resource| == |q.resource|;
    assert p.resource == tp[..|p.resource|] == tq[..|q.resource|] == q.resource;
    assert p.action == tp[|p.resource| + 1..] == tq[|q.resource| + 1..] == q.action;
  }

  /**
   * A lookup by a unique non-key column (`findUnique` / `findFirst`): the least
   * identifier below `bound` whose row satisfies `p`.
   */
  function FindKey<T>(m: map<Id, T>, p: T -> bool, bound: nat): (r: Option<Id>)
    ensures r.Some? ==> r.value in m && r.value < bound && p(m[r.value])
    ensures r.Some? ==> forall k :: k in m && k < r.value ==> !p(m[k])
    ensures r.None? ==> forall k :: k in m && k < bound ==> !p(m[k])
  {
    if bound == 0 then None
    else
      var below := FindKey(m, p, bound - 1);
      if below.Some? then below
      else if bound - 1 in m && p(m[bound - 1]) then Some(bound - 1)
      else None
  }

  /** With every key below the bound, the scan finds a row exactly when one matches. */
  lemma FindKeyComplete<T>(m: map<Id, T>, p: T -> bool, bound: nat)
    requires forall k :: k in m ==> k < bound
    ensures FindKey(m, p, bound).None? <==> forall k :: k in m ==> !p(m[k])
  {
  }

  /** When exactly one row matches, the scan finds that one. */
  lemma FindKeyUnique<T>(m: map<Id, T>, p: T -> bool, bound: nat, k: Id)
    requires forall j :: j in m ==> j < bound
    requires k in m && p(m[k])
    requires forall j :: j in m && p(m[j]) ==> j == k
    ensures FindKey(m, p, bound) == Some(k)
  {
  }

  /** Raising the bound past every key changes nothing. */
  lemma {:induction false} FindKeyBound<T>(m: map<Id, T>, p: T -> bool, bound: nat, bound': nat)
    requires forall k :: k in m ==> k < bound
    requires bound <= bound'
    ensures FindKey(m, p, bound') == FindKey(m, p, bound)
    decreases bound'
  {
    if bound' > bound {
      FindKeyBound(m, p, bound, bound' - 1);
    }
  }

  function UserWithEmail(d: Directory, email: string): Option<Id>
  {
    FindKey(d.users, (u: User) => u.email == email, d.nextId)
  }

  function UserWithUsername(d: Directory, username: string): Option<Id>
  {
    FindKey(d.users, (u: User) => u.username == Some(username), d.nextId)
  }

  function RoleNamed(d: Directory, name: string): Option<Id>
  {
    FindKey(d.roles, (r: Role) => r.name == name, d.nextId)
  }

  function PermissionFor(d: Directory, resource: string, action: string): Option<Id>
  {
    FindKey(d.permissions, (p: Permission) => p.resource == resource && p.action == action, d.nextId)
  }

  function CategoryNamed(d: Directory, name: string): Option<Id>
  {
    FindKey(d.categories, (c: Category) => c.name == name, d.nextId)
  }

  /** Every row's key was handed out by the counter. */
  ghost predicate KeysBelow(d: Directory)
  {
    && (forall k :: k in d.users ==> k < d.nextId)
    && (forall k :: k in d.roles ==> k < d.nextId)
    && (forall k :: k in d.permissions ==> k < d.nextId)
    && (forall k :: k in d.categories ==> k < d.nextId)
  }

  /** The relations point at existing rows. */
  ghost predicate ReferencesExist(d: Directory)
  {
    UserRolesExist(d.users, d.roles.Keys) && RolePermissionsExist(d.roles, d.permissions.Keys)
  }

  ghost predicate UserRolesExist(users: map<Id, User>, roles: set<Id>)
  {
    forall u :: u in users ==> users[u].roles <= roles
  }

  ghost predicate RolePermissionsExist(roles: map<Id, Role>, permissions: set<Id>)
  {
    forall r :: r in roles ==> roles[r].permissions <= permissions
  }

  /** The unique constraints of the identity tables. */
  ghost predicate UniqueColumns(d: Directory)
  {
    && UserColumnsUnique(d.users)
    && (forall a, b :: a in d.roles && b in d.roles && a != b ==> d.roles[a].name != d.roles[b].name)
    && (forall a, b :: a in d.permissions && b in d.permissions && a != b ==>
          (d.permissions[a].resource, d.permissions[a].action) != (d.permissions[b].resource, d.permissions[b].action))
    && (forall a, b :: a in d.categories && b in d.categories && a != b ==> d.categories[a].name != d.categories[b].name)
  }

  /** Emails are unique, and so are the usernames that are set. */
  ghost predicate UserColumnsUnique(users: map<Id, User>)
  {
    && (forall a, b :: a in users && b in users && a != b ==> users[a].email != users[b].email)
    && (forall a, b :: a in users && b in users && a != b && users[a].username.Some? ==>
          users[a].username != users[b].username)
  }

  ghost predicate Valid(d: Directory)
  {
    KeysBelow(d) && ReferencesExist(d) && UniqueColumns(d)
  }

  /** In a valid directory the lookups find exactly the row carrying the key. */
  lemma UserWithEmailExact(d: Directory, k: Id)
    requires Valid(d) && k in d.users
    ensures UserWithEmail(d, d.users[k].email) == Some(k)
  {
    FindKeyUnique(d.users, (u: User) => u.email == d.users[k].email, d.nextId, k);
  }

  lemma RoleNamedExact(d: Directory, k: Id)
    requires Valid(d) && k in d.roles
    ensures RoleNamed(d, d.roles[k].name) == Some(k)
  {
    FindKeyUnique(d.roles, (r: Role) => r.name == d.roles[k].name, d.nextId, k);
  }

  lemma PermissionForExact(d: Directory, k: Id)
    requires Valid(d) && k in d.permissions
    ensures PermissionFor(d, d.permissions[k].resource, d.permissions[k].action) == Some(k)
  {
    var p := d.permissions[k];
    FindKeyUnique(d.permissions, (q: Permission) => q.resource == p.resource && q.action == p.action, d.nextId, k);
  }

  lemma CategoryNamedExact(d: Directory, k: Id)
    requires Valid(d) && k in d.categories
    ensures CategoryNamed(d, d.categories[k].name) == Some(k)
  {
    FindKeyUnique(d.categories, (c: Category) => c.name == d.categories[k].name, d.nextId, k);
  }

  /** Editing a user row without touching its unique columns, and with existing roles only, keeps the directory valid. */
  lemma ValidAfterUserEdit(d: Directory, k: Id, u: User)
    requires Valid(d) && k in d.users
    requires u.email == d.users[k].email && u.username == d.users[k].username
    requires u.roles <= d.roles.Keys
    ensures Valid(d.(users := d.users[k := u]))
  {
    UserColumnsAfterEdit(d.users, k, u);
  }

  lemma UserColumnsAfterEdit(users: map<Id, User>, k: Id, u: User)
    requires UserColumnsUnique(users) && k in users
    requires u.email == users[k].email && u.username == users[k].username
    ensures UserColumnsUnique(users[k := u])
  {
    var users' := users[k := u];
    assert forall j :: j in users' ==> users'[j].email == users[j].email && users'[j].username == users[j].username;
  }

  /** A lookup that finds nothing means no row carries the value. */
  lemma EmailFree(d: Directory, email: string)
    requires KeysBelow(d) && UserWithEmail(d, email).None?
    ensures forall j :: j in d.users ==> d.users[j].email != email
  {
    FindKeyComplete(d.users, (u: User) => u.email == email, d.nextId);
  }

  lemma UsernameFree(d: Directory, username: string)
    requires KeysBelow(d) && UserWithUsername(d, username).None?
    ensures forall j :: j in d.users ==> d.users[j].username != Some(username)
  {
    FindKeyComplete(d.users, (u: User) => u.username == Some(username), d.nextId);
  }

  /** Inserting a user under the next key, with an unused email and username and existing roles, keeps the directory valid. */
  lemma ValidAfterInsertUser(d: Directory, u: User)
    requires Valid(d)
    requires forall j :: j in d.users ==> d.users[j].email != u.email
    requires u.username.Some? ==> forall j :: j in d.users ==> d.users[j].username != u.username
    requires u.roles <= d.roles.Keys
    ensures Valid(d.(users := d.users[d.nextId := u], nextId := d.nextId + 1))
  {
    UserColumnsAfterInsert(d.users, d.nextId, u);
  }

  lemma UserColumnsAfterInsert(users: map<Id, User>, k: Id, u: User)
    requires UserColumnsUnique(users) && k !in users
    requires forall j :: j in users ==> users[j].email != u.email
    requires u.username.Some? ==> forall j :: j in users ==> users[j].username != u.username
    ensures UserColumnsUnique(users[k := u])
  {
  }

  lemma EmptyDirectoryValid()
    ensures Valid(EmptyDirectory)
  {
  }
}

=== FILE: inventory.dfy ===
/**
 * The asset register: assets that are assigned to and taken back from
 * users, maintenance schedules, and the asset audit log that every change
 * appends to.
 */
module Inventory {
  import opened Common

  datatype AssetStatus = Available | Assigned | Maintenance | Retired

  datatype Asset = Asset(
    name: string,
    assetTag: string,
    categoryId: Id,
    locationId: Id,
    status: AssetStatus,
    assignedToId: Option<Id>,
    assignedAt: Option<int>,
    createdById: Id)

  /** A maintenance schedule; `scheduledDate` is the stored date written as ISO-8601 text. */
  datatype Schedule = Schedule(assetId: Id, kind: string, title: string, scheduledDate: string,
                               assignedToId: Option<Id>, createdById: Id)

  /** An asset audit row; `details` is the stored JSON text, `None` for SQL null. */
  datatype AuditEntry = AuditEntry(assetId: Id, userId: Id, action: string, details: Option<Json>)

  datatype Store = Store(assets: map<Id, Asset>, maintenance: map<Id, Schedule>, audit: seq<AuditEntry>, nextId: nat)

  /** The fields of a new asset the model keeps; a missing status takes the column default. */
  datatype AssetForm = AssetForm(name: string, assetTag: Option<string>, categoryId: Id, locationId: Id,
                                 status: Option<AssetStatus>)

  /** The fields an update may carry; a missing field is left as it is. */
  datatype AssetChanges = AssetChanges(name: Option<string>, categoryId: Option<Id>, locationId: Option<Id>,
                                       status: Option<AssetStatus>)

  /** The maintenance form; `scheduledDate` is the date string as the client sent it. */
  datatype MaintenanceForm = MaintenanceForm(assetId: Id, kind: string, title: string, scheduledDate: string,
                                             assignedToId: Option<Id>)

  ghost predicate KeysBelow(s: Store)
  {
    (forall k :: k in s.assets ==> k < s.nextId) && (forall k :: k in s.maintenance ==> k < s.nextId)
  }

  /** Only an asset in the ASSIGNED state has an assignee. */
  ghost predicate AssigneeOnlyWhenAssigned(s: Store)
  {
    forall k :: k in s.assets && s.assets[k].assignedToId.Some? ==> s.assets[k].status == Assigned
  }

  /** `createAssetAuditLog`: appends one row; absent details are stored as null. */
  function AppendAudit(s: Store, assetId: Id, user: Id, action: string, details: Option<Json>): (r: Store)
    ensures r.assets == s.assets && r.maintenance == s.maintenance && r.nextId == s.nextId
    ensures |r.audit| == |s.audit| + 1 && r.audit[..|s.audit|] == s.audit
    ensures r.audit[|s.audit|].details.None? <==> details.None?
  {
    s.(audit := s.audit + [AuditEntry(assetId, user, action, details)])
  }

  function TagAndName(a: Asset): Json
  {
    JObj([("assetTag", JStr(a.assetTag)), ("name", JStr(a.name))])
  }

  /** `createAsset`: the asset under a fresh key and a CREATED audit row. */
  function CreateAsset(s: Store, form: AssetForm, generatedTag: string, user: Id): (r: (Store, Id))
    requires KeysBelow(s)
    ensures KeysBelow(r.0) && r.1 !in s.assets && r.1 in r.0.assets
    ensures r.0.assets == s.assets[r.1 := r.0.assets[r.1]] && r.0.maintenance == s.maintenance
    ensures r.0.assets[r.1].assetTag == if Truthy(form.assetTag) then form.assetTag.value else generatedTag
    ensures r.0.assets[r.1].status == (if form.status.Some? then form.status.value else Available)
    ensures r.0.assets[r.1].assignedToId.None?
    ensures r.0.audit == s.audit + [AuditEntry(r.1, user, "CREATED", Some(TagAndName(r.0.assets[r.1])))]
  {
    var tag := if Truthy(form.assetTag) then form.assetTag.value else generatedTag;
    var k := s.nextId;
    var asset := Asset(form.name, tag, form.categoryId, form.locationId,
                       if form.status.Some? then form.status.value else Available, None, None, user);
    var s1 := s.(assets := s.assets[k := asset], nextId := s.nextId + 1);
    (AppendAudit(s1, k, user, "CREATED", Some(TagAndName(asset))), k)
  }

  /**
   * The names of the fields an update carries. `Object.keys` lists them in
   * the order of the request body, which the model does not see; the model
   * fixes the order name, categoryId, locationId, status.
   */
  function ChangedFields(c: AssetChanges): (r: seq<string>)
    ensures |r| <= 4 && NoDup(r)
    ensures forall x :: x in r ==> x in ["name", "categoryId", "locationId", "status"]
    ensures "name" in r <==> c.name.Some?
    ensures "categoryId" in r <==> c.categoryId.Some?
    ensures "locationId" in r <==> c.locationId.Some?
    ensures "status" in r <==> c.status.Some?
  {
    (if c.name.Some? then ["name"] else []) +
    (if c.categoryId.Some? then ["categoryId"] else []) +
    (if c.locationId.Some? then ["locationId"] else []) +
    (if c.status.Some? then ["status"] else [])
  }

  function Apply(a: Asset, c: AssetChanges): Asset
  {
    a.(name := if c.name.Some? then c.name.value else a.name,
       categoryId := if c.categoryId.Some? then c.categoryId.value else a.categoryId,
       locationId := if c.locationId.Some? then c.locationId.value else a.locationId,
       status := if c.status.Some? then c.status.value else a.status)
  }

  /** `updateAsset`: the supplied fields replace the stored ones; an UPDATED row lists which fields were sent. */
  function UpdateAsset(s: Store, id: Id, c: AssetChanges, user: Id): (r: Result<Store>)
    ensures id !in s.assets ==> r == Err(NotFound("Asset not found"))
    ensures id in s.assets ==> r.Ok?
    ensures r.Ok? ==> r.value.assets.Keys == s.assets.Keys && r.value.maintenance == s.maintenance
    ensures r.Ok? ==> forall k :: k in s.assets && k != id ==> r.value.assets[k] == s.assets[k]
    ensures r.Ok? ==> r.value.assets[id].status == (if c.status.Some? then c.status.value else s.assets[id].status)
    ensures r.Ok? ==> r.value.assets[id].name == (if c.name.Some? then c.name.value else s.assets[id].name)
    ensures r.Ok? ==> r.value.assets[id].assignedToId == s.assets[id].assignedToId
    ensures r.Ok? ==> r.value.assets[id].assetTag == s.assets[id].assetTag
    ensures r.Ok? ==>
              r.value.audit == s.audit + [AuditEntry(id, user, "UPDATED", Some(JObj([("changes", StrArray(ChangedFields(c)))])))]
  {
    if id !in s.assets then Err(NotFound("Asset not found"))
    else
      var fields := ChangedFields(c);
      var s1 := s.(assets := s.assets[id := Apply(s.assets[id], c)]);
      Ok(AppendAudit(s1, id, user, "UPDATED", Some(JObj([("changes", StrArray(fields))]))))
  }

  /** An update that changes only the status can leave an unassigned-looking asset with an assignee. */
  lemma UpdateCanStrandAssignee(user: Id)
    ensures var a := Asset("laptop", "LAP-1", 0, 0, Assigned, Some(7), Some(0), user);
            var s := Store(map[0 := a], map[], [], 1);
            var r := UpdateAsset(s, 0, AssetChanges(None, None, None, Some(Available)), user);
            AssigneeOnlyWhenAssigned(s) && r.Ok? && !AssigneeOnlyWhenAssigned(r.value)
  {
    var a := Asset("laptop", "LAP-1", 0, 0, Assigned, Some(7), Some(0), user);
    var s := Store(map[0 := a], map[], [], 1);
    var r := UpdateAsset(s, 0, AssetChanges(None, None, None, Some(Available)), user);
    assert r.value.assets[0].assignedToId.Some? && r.value.assets[0].status == Available;
  }

  /**
   * `deleteAsset`: an assigned asset is refused; otherwise it is removed
   * together with its maintenance schedules (their foreign key cascades).
   * The asset's audit rows stay, and a DELETED row naming the removed asset
   * is appended after them.
   */
  function DeleteAsset(s: Store, id: Id, user: Id): (r: Result<Store>)
    ensures id !in s.assets ==> r == Err(NotFound("Asset not found"))
    ensures id in s.assets && s.assets[id].assignedToId.Some? ==> r == Err(BadRequest("Cannot delete an assigned asset"))
    ensures r.Ok? <==> id in s.assets && s.assets[id].assignedToId.None?
    ensures r.Ok? ==> r.value.assets == s.assets - {id} && r.value.nextId == s.nextId
    ensures r.Ok? ==> forall k :: k in r.value.maintenance <==> k in s.maintenance && s.maintenance[k].assetId != id
    ensures r.Ok? ==> forall k :: k in r.value.maintenance ==> r.value.maintenance[k] == s.maintenance[k]
    ensures r.Ok? ==> r.value.audit == s.audit + [AuditEntry(id, user, "DELETED", Some(TagAndName(s.assets[id])))]
  {
    if id !in s.assets then Err(NotFound("Asset not found"))
    else if s.assets[id].assignedToId.Some? then Err(BadRequest("Cannot delete an assigned asset"))
    else
      var kept := map k | k in s.maintenance && s.maintenance[k].assetId != id :: s.maintenance[k];
      Ok(AppendAudit(s.(assets := s.assets - {id}, maintenance := kept), id, user, "DELETED", Some(TagAndName(s.assets[id]))))
  }

  /** `assignAsset`: only an AVAILABLE asset can be handed to a user. */
  function AssignAsset(s: Store, id: Id, to: Id, user: Id, now: int): (r: Result<Store>)
    ensures id !in s.assets ==> r == Err(NotFound("Asset not found"))
    ensures id in s.assets && s.assets[id].status != Available ==> r == Err(BadRequest("Asset is not available for assignment"))
    ensures r.Ok? <==> id in s.assets && s.assets[id].status == Available
    ensures r.Ok? ==> r.value.assets == s.assets[id := s.assets[id].(status := Assigned, assignedToId := Some(to), assignedAt := Some(now))]
    ensures r.Ok? ==> r.value.audit == s.audit + [AuditEntry(id, user, "ASSIGNED", Some(JObj([("assignedToId", JStr(IdText(to)))])))]
    ensures r.Ok? ==> r.value.maintenance == s.maintenance && r.value.nextId == s.nextId
  {
    if id !in s.assets then Err(NotFound("Asset not found"))
    else if s.assets[id].status != Available then Err(BadRequest("Asset is not available for assignment"))
    else
      var a := s.assets[id].(assignedToId := Some(to), status := Assigned, assignedAt := Some(now));
      Ok(AppendAudit(s.(assets := s.assets[id := a]), id, user, "ASSIGNED", Some(JObj([("assignedToId", JStr(IdText(to)))]))))
  }

  /** `unassignAsset`: from any state, the asset becomes AVAILABLE with no assignee; the row records who had it. */
  function UnassignAsset(s: Store, id: Id, user: Id): (r: Result<Store>)
    ensures id !in s.assets ==> r == Err(NotFound("Asset not found"))
    ensures r.Ok? <==> id in s.assets
    ensures r.Ok? ==> id in r.value.assets && r.value.assets[id].status == Available &&
                      r.value.assets[id].assignedToId.None? && r.value.assets[id].assignedAt.None?
    ensures r.Ok? ==> r.value.assets == s.assets[id := r.value.assets[id]] && r.value.maintenance == s.maintenance
    ensures r.Ok? ==> r.value.assets[id].(status := s.assets[id].status, assignedToId := s.assets[id].assignedToId,
                                           assignedAt := s.assets[id].assignedAt) == s.assets[id]
    ensures r.Ok? ==>
              r.value.audit == s.audit + [AuditEntry(id, user, "UNASSIGNED", Some(JObj([("previousAssignedToId", IdJson(s.assets[id].assignedToId))])))]
  {
    if id !in s.assets then Err(NotFound("Asset not found"))
    else
      var a := s.assets[id].(assignedToId := None, status := Available, assignedAt := None);
      Ok(AppendAudit(s.(assets := s.assets[id := a]), id, user, "UNASSIGNED",
                     Some(JObj([("previousAssignedToId", IdJson(s.assets[id].assignedToId))]))))
  }

  /** Assigning and then taking back an available, never-assigned asset gives back the same asset. */
  lemma AssignThenUnassign(s: Store, id: Id, to: Id, user: Id, now: int)
    requires id in s.assets && s.assets[id].status == Available
    requires s.assets[id].assignedToId.None? && s.assets[id].assignedAt.None?
    ensures AssignAsset(s, id, to, user, now).Ok?
    ensures var s1 := AssignAsset(s, id, to, user, now).value;
            UnassignAsset(s1, id, user).Ok? && UnassignAsset(s1, id, user).value.assets == s.assets
    ensures var s1 := AssignAsset(s, id, to, user, now).value;
            UnassignAsset(s1, id, user).value.audit[|s.audit| + 1].details ==
              Some(JObj([("previousAssignedToId", IdJson(Some(to)))]))
  {
    var s1 := AssignAsset(s, id, to, user, now).value;
    var s2 := UnassignAsset(s1, id, user).value;
    assert s2.assets[id] == s.assets[id];
  }

  /** Creation, assign, unassign, delete and scheduling keep assignees on ASSIGNED assets only. */
  lemma AssignmentOpsKeepAssignee(s: Store, id: Id, to: Id, user: Id, now: int, form: AssetForm, generatedTag: string,
                                  plan: MaintenanceForm, storedDate: string)
    requires AssigneeOnlyWhenAssigned(s) && KeysBelow(s)
    ensures AssigneeOnlyWhenAssigned(CreateAsset(s, form, generatedTag, user).0)
    ensures AssignAsset(s, id, to, user, now).Ok? ==> AssigneeOnlyWhenAssigned(AssignAsset(s, id, to, user, now).value)
    ensures UnassignAsset(s, id, user).Ok? ==> AssigneeOnlyWhenAssigned(UnassignAsset(s, id, user).value)
    ensures DeleteAsset(s, id, user).Ok? ==> AssigneeOnlyWhenAssigned(DeleteAsset(s, id, user).value)
    ensures ScheduleMaintenance(s, plan, storedDate, user).Ok? ==>
              AssigneeOnlyWhenAssigned(ScheduleMaintenance(s, plan, storedDate, user).value.0)
  {
  }

  /**
   * Every maintenance schedule belongs to a stored asset: a schedule is
   * created only for an existing asset and deleting the asset takes its
   * schedules along.
   */
  ghost predicate SchedulesOwned(s: Store)
  {
    forall k :: k in s.maintenance ==> s.maintenance[k].assetId in s.assets
  }

  /** Every asset operation keeps each maintenance schedule attached to a stored asset. */
  lemma OpsKeepSchedulesOwned(s: Store, id: Id, to: Id, user: Id, now: int, c: AssetChanges, form: AssetForm,
                              generatedTag: string, plan: MaintenanceForm, storedDate: string)
    requires SchedulesOwned(s) && KeysBelow(s)
    ensures SchedulesOwned(CreateAsset(s, form, generatedTag, user).0)
    ensures UpdateAsset(s, id, c, user).Ok? ==> SchedulesOwned(UpdateAsset(s, id, c, user).value)
    ensures AssignAsset(s, id, to, user, now).Ok? ==> SchedulesOwned(AssignAsset(s, id, to, user, now).value)
    ensures UnassignAsset(s, id, user).Ok? ==> SchedulesOwned(UnassignAsset(s, id, user).value)
    ensures DeleteAsset(s, id, user).Ok? ==> SchedulesOwned(DeleteAsset(s, id, user).value)
    ensures ScheduleMaintenance(s, plan, storedDate, user).Ok? ==>
              SchedulesOwned(ScheduleMaintenance(s, plan, storedDate, user).value.0)
  {
    CreationKeepsSchedulesOwned(s, user, form, generatedTag, plan, storedDate);
  }

  /** A new asset leaves every schedule's asset stored; a new schedule names a stored asset. */
  lemma CreationKeepsSchedulesOwned(s: Store, user: Id, form: AssetForm, generatedTag: string, plan: MaintenanceForm,
                                    storedDate: string)
    requires SchedulesOwned(s) && KeysBelow(s)
    ensures SchedulesOwned(CreateAsset(s, form, generatedTag, user).0)
    ensures ScheduleMaintenance(s, plan, storedDate, user).Ok? ==>
              SchedulesOwned(ScheduleMaintenance(s, plan, storedDate, user).value.0)
  {
  }

  /**
   * `scheduleMainenance`: a schedule for an existing asset, and a
   * MAINTENANCE_SCHEDULED row. `storedDate` is the ISO-8601 text of the
   * date the database stores for the form's date string; the audit row
   * records the stored schedule's date, as the service reads it back.
   */
  function ScheduleMaintenance(s: Store, form: MaintenanceForm, storedDate: string, user: Id): (r: Result<(Store, Id)>)
    requires KeysBelow(s)
    ensures form.assetId !in s.assets ==> r == Err(NotFound("Asset not found"))
    ensures r.Ok? <==> form.assetId in s.assets
    ensures r.Ok? ==> KeysBelow(r.value.0) && r.value.1 !in s.maintenance && r.value.0.assets == s.assets
    ensures r.Ok? ==>
              r.value.0.maintenance == s.maintenance[r.value.1 := Schedule(form.assetId, form.kind, form.title, storedDate, form.assignedToId, user)]
    ensures r.Ok? ==>
              r.value.0.audit == s.audit + [AuditEntry(form.assetId, user, "MAINTENANCE_SCHEDULED",
                          Some(JObj([("maintenanceId", JStr(IdText(r.value.1))),
                                     ("scheduledDate", JStr(r.value.0.maintenance[r.value.1].scheduledDate)),
                                     ("type", JStr(form.kind))])))]
  {
    if form.assetId !in s.assets then Err(NotFound("Asset not found"))
    else
      var k := s.nextId;
      var m := Schedule(form.assetId, form.kind, form.title, storedDate, form.assignedToId, user);
      var s1 := s.(maintenance := s.maintenance[k := m], nextId := s.nextId + 1);
      Ok((AppendAudit(s1, form.assetId, user, "MAINTENANCE_SCHEDULED",
                      Some(JObj([("maintenanceId", JStr(IdText(k))), ("scheduledDate", JStr(m.scheduledDate)),
                                 ("type", JStr(m.kind))]))), k))
  }

  /** Every successful asset operation appends exactly one audit row, naming the acting user, and keeps the earlier rows. */
  lemma OneAuditRowPerChange(s: Store, id: Id, to: Id, user: Id, now: int, c: AssetChanges)
    ensures AssignAsset(s, id, to, user, now).Ok? ==>
              var a := AssignAsset(s, id, to, user, now).value.audit;
              |a| == |s.audit| + 1 && a[..|s.audit|] == s.audit && a[|s.audit|].userId == user && a[|s.audit|].assetId == id
    ensures UnassignAsset(s, id, user).Ok? ==>
              var a := UnassignAsset(s, id, user).value.audit;
              |a| == |s.audit| + 1 && a[..|s.audit|] == s.audit && a[|s.audit|].userId == user && a[|s.audit|].assetId == id
    ensures DeleteAsset(s, id, user).Ok? ==>
              var a := DeleteAsset(s, id, user).value.audit;
              |a| == |s.audit| + 1 && a[..|s.audit|] == s.audit && a[|s.audit|].userId == user && a[|s.audit|].assetId == id
    ensures UpdateAsset(s, id, c, user).Ok? ==>
              var a := UpdateAsset(s, id, c, user).value.audit;
              |a| == |s.audit| + 1 && a[..|s.audit|] == s.audit && a[|s.audit|].userId == user && a[|s.audit|].assetId == id
  {
  }
}

=== FILE: issue_labels.dfy ===
/**
 * Issue labels: adding and removing a label on one issue's label list, and
 * the per-label tally over all issues that the analytics endpoint reports.
 *
 * The tally is modelled twice. `ByLabelAsWritten` follows the service's
 * reduce into a plain object literal, whose lookups also see the members
 * every object inherits, so a label such as "constructor" or "__proto__"
 * is miscounted. `ByLabel` is the tally the code evidently intends, counted
 * with own entries only.
 */
module IssueLabels {
  import opened Common

  // ---------------------------------------------------------------------
  // One issue's labels
  // ---------------------------------------------------------------------

  /** `[...new Set([...labels, label])]`. */
  function AddLabel(labels: seq<string>, lbl: string): (r: seq<string>)
    ensures NoDup(r)
    ensures lbl in r
    ensures forall x :: x in r <==> x in labels || x == lbl
  {
    Dedup(labels + [lbl])
  }

  /** On a list that already has no duplicates, adding keeps the order and appends the label only if it is new. */
  lemma AddLabelAppends(labels: seq<string>, lbl: string)
    requires NoDup(labels)
    ensures AddLabel(labels, lbl) == if lbl in labels then labels else labels + [lbl]
  {
    assert (labels + [lbl])[..|labels|] == labels;
    DedupOfNoDup(labels);
  }

  /** Adding the same label twice gives the same list as adding it once. */
  lemma AddLabelIdempotent(labels: seq<string>, lbl: string)
    ensures AddLabel(AddLabel(labels, lbl), lbl) == AddLabel(labels, lbl)
  {
    var once := AddLabel(labels, lbl);
    AddLabelAppends(once, lbl);
  }

  /** `labels.filter(l => l !== label)`. */
  function RemoveLabel(labels: seq<string>, lbl: string): (r: seq<string>)
    ensures lbl !in r
    ensures forall x :: x in r <==> x in labels && x != lbl
    ensures forall y :: y != lbl ==> Count(r, y) == Count(labels, y)
    ensures |r| == |labels| - Count(labels, lbl)
  {
    forall y | y != lbl ensures Count(RemoveAll(labels, lbl), y) == Count(labels, y) {
      RemoveAllCounts(labels, lbl, y);
    }
    RemoveAll(labels, lbl)
  }

  /** Removing distributes over concatenation, so the remaining labels keep their relative order. */
  lemma RemoveLabelKeepsOrder(a: seq<string>, b: seq<string>, lbl: string)
    ensures RemoveLabel(a + b, lbl) == RemoveLabel(a, lbl) + RemoveLabel(b, lbl)
  {
    RemoveAllAppend(a, b, lbl);
  }

  /** Removing a label just added gives back the list without that label. */
  lemma RemoveAfterAdd(labels: seq<string>, lbl: string)
    requires NoDup(labels) && lbl !in labels
    ensures RemoveLabel(AddLabel(labels, lbl), lbl) == labels
  {
    AddLabelAppends(labels, lbl);
    RemoveAllAppend(labels, [lbl], lbl);
    RemoveAllAbsent(labels, lbl);
    assert RemoveAll([lbl], lbl) == [];
  }

  // ---------------------------------------------------------------------
  // The label tally, as intended
  // ---------------------------------------------------------------------

  /** All labels of all issues, issue by issue, in order. */
  function Flatten(issues: seq<seq<string>>): seq<string>
  {
    if |issues| == 0 then [] else Flatten(issues[..|issues| - 1]) + issues[|issues| - 1]
  }

  /** A tally: label and count, in the order labels were first seen. */
  type Tally = seq<(string, nat)>

  /** The labels a tally has an entry for. */
  function Keys(t: Tally): set<string>
  {
    if |t| == 0 then {} else {t[0].0} + Keys(t[1..])
  }

  /** No label has two entries. */
  predicate KeysUnique(t: Tally)
  {
    |t| == 0 || (t[0].0 !in Keys(t[1..]) && KeysUnique(t[1..]))
  }

  /** The count recorded for `y`, or 0. */
  function CountOf(t: Tally, y: string): nat
  {
    if |t| == 0 then 0 else if t[0].0 == y then t[0].1 else CountOf(t[1..], y)
  }

  /** The sum of all counts. */
  function Total(t: Tally): nat
  {
    if |t| == 0 then 0 else t[0].1 + Total(t[1..])
  }

  /** One more occurrence of `x`: its entry is incremented, or a new entry with count 1 is appended. */
  function Bump(t: Tally, x: string): (r: Tally)
  {
    if |t| == 0 then [(x, 1)]
    else if t[0].0 == x then [(x, t[0].1 + 1)] + t[1..]
    else [t[0]] + Bump(t[1..], x)
  }

  lemma {:induction false} BumpKeys(t: Tally, x: string)
    ensures Keys(Bump(t, x)) == Keys(t) + {x}
    ensures KeysUnique(t) ==> KeysUnique(Bump(t, x))
    decreases |t|
  {
    if |t| > 0 {
      var r := Bump(t, x);
      if t[0].0 == x {
        assert r[1..] == t[1..];
      } else {
        BumpKeys(t[1..], x);
        assert r[1..] == Bump(t[1..], x);
      }
    }
  }

  lemma {:induction false} BumpCounts(t: Tally, x: string)
    ensures Total(Bump(t, x)) == Total(t) + 1
    ensures forall y :: CountOf(Bump(t, x), y) == CountOf(t, y) + (if y == x then 1 else 0)
    decreases |t|
  {
    if |t| > 0 {
      var r := Bump(t, x);
      if t[0].0 == x {
        assert r[1..] == t[1..];
      } else {
        BumpCounts(t[1..], x);
        assert r[1..] == Bump(t[1..], x);
      }
    }
  }

  /**
   * The tally the endpoint evidently intends: one entry per distinct label,
   * each with the number of times it occurs, counts summing to the number
   * of label occurrences.
   */
  function TallyOf(s: seq<string>): (t: Tally)
    ensures KeysUnique(t)
    ensures forall x :: x in Keys(t) <==> x in s
    ensures Total(t) == |s|
    ensures forall y :: CountOf(t, y) == Count(s, y)
    decreases |s|
  {
    if |s| == 0 then []
    else
      var p := s[..|s| - 1];
      var x := s[|s| - 1];
      var t0 := TallyOf(p);
      BumpKeys(t0, x);
      BumpCounts(t0, x);
      assert s == p + [x];
      Bump(t0, x)
  }

  /** `getIssuesByLabel`, as intended. */
  function ByLabel(issues: seq<seq<string>>): (t: Tally)
    ensures KeysUnique(t)
    ensures forall x :: x in Keys(t) <==> x in Flatten(issues)
    ensures Total(t) == |Flatten(issues)|
    ensures forall y :: CountOf(t, y) == Count(Flatten(issues), y)
  {
    TallyOf(Flatten(issues))
  }

  // ---------------------------------------------------------------------
  // The label tally, as written: a reduce into `{}`
  // ---------------------------------------------------------------------

  /** A value held under a key of the accumulator object. */
  datatype JsValue = Num(n: nat) | Text(s: string)

  /** The members every plain object inherits from `Object.prototype`, other than `__proto__`. */
  const InheritedMethods: set<string> := {
    "constructor", "hasOwnProperty", "isPrototypeOf", "propertyIsEnumerable", "toLocaleString", "toString",
    "valueOf", "__defineGetter__", "__defineSetter__", "__lookupGetter__", "__lookupSetter__"}

  /** What reading an absent own key yields, converted to a string by `+`: inherited members are truthy. */
  function Inherited(key: string): (r: Option<string>)
    ensures r.Some? <==> key in InheritedMethods || key == "__proto__"
  {
    if key == "__proto__" then Some("[object Object]")
    else if key == "constructor" then Some("function Object() { [native code] }")
    else if key in InheritedMethods then Some("function " + key + "() { [native code] }")
    else None
  }

  function OwnLookup(acc: seq<(string, JsValue)>, key: string): Option<JsValue>
  {
    if |acc| == 0 then None else if acc[0].0 == key then Some(acc[0].1) else OwnLookup(acc[1..], key)
  }

  /** Assigning an own property: in place when present, appended otherwise. */
  function Put(acc: seq<(string, JsValue)>, key: string, v: JsValue): seq<(string, JsValue)>
  {
    if |acc| == 0 then [(key, v)] else if acc[0].0 == key then [(key, v)] + acc[1..] else [acc[0]] + Put(acc[1..], key, v)
  }

  /** `acc[label] = (acc[label] || 0) + 1`. Assigning a string to `__proto__` is silently ignored. */
  function StepAsWritten(acc: seq<(string, JsValue)>, lbl: string): seq<(string, JsValue)>
  {
    var current: Option<JsValue> :=
      match OwnLookup(acc, lbl)
      case Some(v) => Some(v)
      case None => if Inherited(lbl).Some? then Some(Text(Inherited(lbl).value)) else None;
    var next :=
      match current
      case None => Num(1)
      case Some(Num(n)) => Num(n + 1)
      case Some(Text(t)) => if t == "" then Num(1) else Text(t + "1");
    if lbl == "__proto__" then acc else Put(acc, lbl, next)
  }

  function FoldAsWritten(s: seq<string>): seq<(string, JsValue)>
  {
    if |s| == 0 then [] else StepAsWritten(FoldAsWritten(s[..|s| - 1]), s[|s| - 1])
  }

  /**
   * `getIssuesByLabel` as written: the entries of the accumulator object.
   * When no label is the name of an inherited member it agrees with the
   * intended tally.
   */
  function ByLabelAsWritten(issues: seq<seq<string>>): (r: seq<(string, JsValue)>)
    ensures (forall i :: 0 <= i < |Flatten(issues)| ==> Inherited(Flatten(issues)[i]).None?) ==>
              r == AsNumbers(ByLabel(issues))
  {
    var s := Flatten(issues);
    AsWrittenAgrees(s);
    FoldAsWritten(s)
  }

  /** A label named after an inherited method gets a string where a count belongs. */
  lemma ConstructorLabelMiscounted()
    ensures Flatten([["constructor"]]) == ["constructor"]
    ensures ByLabelAsWritten([["constructor"]]) == [("constructor", Text("function Object() { [native code] }1"))]
    ensures ByLabel([["constructor"]]) == [("constructor", 1)]
  {
    assert Flatten([["constructor"]]) == ["constructor"] by {
      assert [["constructor"]][..0] == [];
    }
    assert ["constructor"][..0] == [];
    assert FoldAsWritten(["constructor"]) == StepAsWritten([], "constructor");
    assert "function Object() { [native code] }" + "1" == "function Object() { [native code] }1";
  }

  /** The label "__proto__" disappears from the result: its occurrence is counted nowhere. */
  lemma ProtoLabelLost()
    ensures Flatten([["__proto__"]]) == ["__proto__"]
    ensures ByLabelAsWritten([["__proto__"]]) == []
    ensures Total(ByLabel([["__proto__"]])) == 1
  {
    assert Flatten([["__proto__"]]) == ["__proto__"] by {
      assert [["__proto__"]][..0] == [];
    }
    assert ["__proto__"][..0] == [];
  }

  /** The intended tally, with every count as a JavaScript number. */
  function AsNumbers(t: Tally): (r: seq<(string, JsValue)>)
    ensures |r| == |t|
    ensures forall i :: 0 <= i < |t| ==> r[i] == (t[i].0, Num(t[i].1))
  {
    seq(|t|, i requires 0 <= i < |t| => (t[i].0, Num(t[i].1)))
  }

  lemma {:induction false} StepAgrees(t: Tally, x: string)
    requires Inherited(x).None?
    requires forall i :: 0 <= i < |t| ==> t[i].1 >= 1
    ensures StepAsWritten(AsNumbers(t), x) == AsNumbers(Bump(t, x))
    ensures forall i :: 0 <= i < |Bump(t, x)| ==> Bump(t, x)[i].1 >= 1
    decreases |t|
  {
    if |t| > 0 {
      assert AsNumbers(t)[1..] == AsNumbers(t[1..]);
      if t[0].0 != x {
        StepAgrees(t[1..], x);
        LookupRest(AsNumbers(t), x);
        assert AsNumbers(Bump(t, x)) == [AsNumbers(t)[0]] + AsNumbers(Bump(t[1..], x));
      } else {
        assert AsNumbers(Bump(t, x)) == [(x, Num(t[0].1 + 1))] + AsNumbers(t[1..]);
      }
    }
  }

  lemma LookupRest(acc: seq<(string, JsValue)>, x: string)
    requires |acc| > 0 && acc[0].0 != x
    ensures OwnLookup(acc, x) == OwnLookup(acc[1..], x)
    ensures Put(acc, x, Num(1)) == [acc[0]] + Put(acc[1..], x, Num(1))
  {
  }

  /** On labels that are not names of inherited members, the code as written computes the intended tally. */
  lemma {:induction false} AsWrittenAgrees(s: seq<string>)
    ensures (forall i :: 0 <= i < |s| ==> Inherited(s[i]).None?) ==>
              FoldAsWritten(s) == AsNumbers(TallyOf(s)) &&
              forall i :: 0 <= i < |TallyOf(s)| ==> TallyOf(s)[i].1 >= 1
    decreases |s|
  {
    if |s| > 0 && forall i :: 0 <= i < |s| ==> Inherited(s[i]).None? {
      var p := s[..|s| - 1];
      AsWrittenAgrees(p);
      StepAgrees(TallyOf(p), s[|s| - 1]);
    }
  }
}

=== FILE: issues.dfy ===
/**
 * The issue tracker's state changes: deleting, assigning, moving an issue
 * through its statuses, commenting, labelling, and the label analytics.
 * Every successful change appends one audit row whose old and new values
 * are JSON objects, or null when the caller gave none.
 */
module Issues {
  import opened Common
  import IssueLabels

  datatype IssueStatus = Open | InProgress | Resolved | Closed

  /** The enum member's name, as it appears in messages and audit rows. */
  function StatusName(s: IssueStatus): (r: string)
    ensures |r| >= 4
  {
    match s
    case Open => "OPEN"
    case InProgress => "IN_PROGRESS"
    case Resolved => "RESOLVED"
    case Closed => "CLOSED"
  }

  /** Distinct statuses have distinct names, so the audit trail identifies the status. */
  lemma StatusNameInjective(a: IssueStatus, b: IssueStatus)
    ensures StatusName(a) == StatusName(b) <==> a == b
  {
  }

  datatype Issue = Issue(title: string, status: IssueStatus, reporterId: Id, assigneeId: Option<Id>,
                         labels: seq<string>, closedAt: Option<int>)

  datatype Comment = Comment(issueId: Id, authorId: Id, content: string)

  datatype Store = Store(issues: map<Id, Issue>, comments: seq<Comment>, audit: seq<AuditRow>, nextId: nat)

  predicate KeysBelow(s: Store)
  {
    forall k :: k in s.issues ==> k < s.nextId
  }

  /** `createAuditLog`: values are recorded when given and stored as null otherwise. */
  function CreateAuditLog(s: Store, action: string, id: Id, oldValues: Option<Json>, newValues: Option<Json>, user: Id): (r: Store)
    ensures r.issues == s.issues && r.comments == s.comments && r.nextId == s.nextId
    ensures |r.audit| == |s.audit| + 1 && r.audit[..|s.audit|] == s.audit
    ensures var row := r.audit[|s.audit|];
            row.resource == "Issue" && row.resourceId == id && row.userId == user && row.action == action &&
            row.oldValues == oldValues && row.newValues == newValues
  {
    s.(audit := s.audit + [AuditRow(action, "Issue", id, oldValues, newValues, user)])
  }

  /** The audit log only grows, by exactly one row about `id` whose action is `action`. */
  predicate AuditedOnce(s: Store, s': Store, id: Id, action: string, user: Id)
  {
    |s'.audit| == |s.audit| + 1 && s'.audit[..|s.audit|] == s.audit &&
    s'.audit[|s.audit|].resourceId == id && s'.audit[|s.audit|].action == action &&
    s'.audit[|s.audit|].userId == user && s'.audit[|s.audit|].resource == "Issue"
  }

  // ---------------------------------------------------------------------
  // Deleting and assigning
  // ---------------------------------------------------------------------

  /**
   * `deleteIssue`: a missing issue is NotFound and one in progress cannot be
   * deleted. The issue's comments go with it (their foreign key cascades);
   * the audit log keeps every row.
   */
  function DeleteIssue(s: Store, id: Id, user: Id): (r: Result<Store>)
    ensures id !in s.issues ==> r == Err(NotFound("Issue not found"))
    ensures id in s.issues && s.issues[id].status == InProgress ==> r == Err(BadRequest("Cannot delete issue that is in progress"))
    ensures r.Ok? <==> id in s.issues && s.issues[id].status != InProgress
    ensures r.Ok? ==> forall c :: c in r.value.comments <==> c in s.comments && c.issueId != id
    ensures r.Ok? ==>
              r.value.issues == s.issues - {id} && r.value.nextId == s.nextId &&
              AuditedOnce(s, r.value, id, "ISSUE_DELETED", user) &&
              r.value.audit[|s.audit|].oldValues ==
                Some(JObj([("title", JStr(s.issues[id].title)), ("status", JStr(StatusName(s.issues[id].status)))])) &&
              r.value.audit[|s.audit|].newValues.None?
  {
    if id !in s.issues then Err(NotFound("Issue not found"))
    else
      var issue := s.issues[id];
      if issue.status == InProgress then Err(BadRequest("Cannot delete issue that is in progress"))
      else
        var before := JObj([("title", JStr(issue.title)), ("status", JStr(StatusName(issue.status)))]);
        var s1 := s.(issues := s.issues - {id}, comments := Filter(s.comments, (c: Comment) => c.issueId != id));
        Ok(CreateAuditLog(s1, "ISSUE_DELETED", id, Some(before), None, user))
  }

  /** `assignIssue`: whatever the prior status, the issue goes to the assignee and becomes IN_PROGRESS. */
  function AssignIssue(s: Store, id: Id, assignee: Id, user: Id): (r: Result<Store>)
    ensures r.Ok? <==> id in s.issues
    ensures !r.Ok? ==> r == Err(NotFound("Issue not found"))
    ensures r.Ok? ==>
              r.value.issues.Keys == s.issues.Keys && r.value.comments == s.comments &&
              (forall k :: k in s.issues && k != id ==> r.value.issues[k] == s.issues[k]) &&
              r.value.issues[id] == s.issues[id].(assigneeId := Some(assignee), status := InProgress) &&
              AuditedOnce(s, r.value, id, "ISSUE_ASSIGNED", user) &&
              r.value.audit[|s.audit|].oldValues == Some(JObj([("assigneeId", IdJson(s.issues[id].assigneeId))])) &&
              r.value.audit[|s.audit|].newValues == Some(JObj([("assigneeId", JStr(IdText(assignee)))]))
  {
    if id !in s.issues then Err(NotFound("Issue not found"))
    else
      var issue := s.issues[id];
      var s1 := s.(issues := s.issues[id := issue.(assigneeId := Some(assignee), status := InProgress)]);
      Ok(CreateAuditLog(s1, "ISSUE_ASSIGNED", id, Some(JObj([("assigneeId", IdJson(issue.assigneeId))])),
                        Some(JObj([("assigneeId", JStr(IdText(assignee)))])), user))
  }

  // ---------------------------------------------------------------------
  // Status and comments
  // ---------------------------------------------------------------------

  /** `addComment`: the issue must exist; the comment is appended. */
  function AddComment(s: Store, issueId: Id, content: string, user: Id): (r: Result<Store>)
    ensures r.Ok? <==> issueId in s.issues
    ensures !r.Ok? ==> r == Err(NotFound("Issue not found"))
    ensures r.Ok? ==> r.value.comments == s.comments + [Comment(issueId, user, content)] &&
                      r.value.issues == s.issues && r.value.audit == s.audit
  {
    if issueId !in s.issues then Err(NotFound("Issue not found"))
    else Ok(s.(comments := s.comments + [Comment(issueId, user, content)]))
  }

  /** The comment a status change with notes leaves behind. */
  function StatusNote(status: IssueStatus, notes: string): string
  {
    "Status updated to " + StatusName(status) + ": " + notes
  }

  /**
   * `updateIssueStatus`: the new status is written, `closedAt` is stamped
   * only when the status is CLOSED (otherwise kept), a comment is added only
   * when the notes are non-empty, and the audit row records old and new status.
   */
  function UpdateIssueStatus(s: Store, id: Id, status: IssueStatus, user: Id, notes: Option<string>, now: int): (r: Result<Store>)
    ensures r.Ok? <==> id in s.issues
    ensures !r.Ok? ==> r == Err(NotFound("Issue not found"))
    ensures r.Ok? ==>
              r.value.issues.Keys == s.issues.Keys &&
              (forall k :: k in s.issues && k != id ==> r.value.issues[k] == s.issues[k]) &&
              r.value.issues[id].status == status &&
              r.value.issues[id].closedAt == (if status == Closed then Some(now) else s.issues[id].closedAt) &&
              r.value.issues[id].(status := s.issues[id].status, closedAt := s.issues[id].closedAt) == s.issues[id]
    ensures r.Ok? ==>
              (Truthy(notes) ==>
                 r.value.comments == s.comments + [Comment(id, user, StatusNote(status, notes.value))]) &&
              (!Truthy(notes) ==> r.value.comments == s.comments)
    ensures r.Ok? ==>
              AuditedOnce(s, r.value, id, "ISSUE_STATUS_UPDATED", user) &&
              r.value.audit[|s.audit|].oldValues == Some(JObj([("status", JStr(StatusName(s.issues[id].status)))])) &&
              r.value.audit[|s.audit|].newValues == Some(StatusChange(StatusName(status), notes))
  {
    if id !in s.issues then Err(NotFound("Issue not found"))
    else
      var issue := s.issues[id];
      var updated := issue.(status := status, closedAt := if status == Closed then Some(now) else issue.closedAt);
      var s1 := s.(issues := s.issues[id := updated]);
      var s2 :=
        if Truthy(notes) then
          match AddComment(s1, id, StatusNote(status, notes.value), user)
          case Ok(t) => t
          case Err(_) => s1
        else s1;
      Ok(CreateAuditLog(s2, "ISSUE_STATUS_UPDATED", id, Some(JObj([("status", JStr(StatusName(issue.status)))])),
                        Some(StatusChange(StatusName(status), notes)), user))
  }

  /** Every CLOSED issue carries the time it was closed. */
  predicate ClosedAreStamped(s: Store)
  {
    forall k :: k in s.issues && s.issues[k].status == Closed ==> s.issues[k].closedAt.Some?
  }

  /** The status-changing operations, and commenting, keep closed issues stamped. */
  lemma StatusOpsKeepStamps(s: Store, id: Id, status: IssueStatus, assignee: Id, user: Id, notes: Option<string>, content: string, now: int)
    requires ClosedAreStamped(s)
    ensures UpdateIssueStatus(s, id, status, user, notes, now).Ok? ==> ClosedAreStamped(UpdateIssueStatus(s, id, status, user, notes, now).value)
    ensures AssignIssue(s, id, assignee, user).Ok? ==> ClosedAreStamped(AssignIssue(s, id, assignee, user).value)
    ensures DeleteIssue(s, id, user).Ok? ==> ClosedAreStamped(DeleteIssue(s, id, user).value)
    ensures AddComment(s, id, content, user).Ok? ==> ClosedAreStamped(AddComment(s, id, content, user).value)
  {
  }

  /**
   * Every comment belongs to a stored issue: comments are attached only to
   * an existing issue and deleting the issue takes them along.
   */
  predicate CommentsOwned(s: Store)
  {
    forall c :: c in s.comments ==> c.issueId in s.issues
  }

  /** Commenting, status changes, assignment and deletion keep every comment attached to a stored issue. */
  lemma OpsKeepCommentsOwned(s: Store, id: Id, status: IssueStatus, assignee: Id, user: Id, notes: Option<string>, content: string, now: int)
    requires CommentsOwned(s)
    ensures AddComment(s, id, content, user).Ok? ==> CommentsOwned(AddComment(s, id, content, user).value)
    ensures UpdateIssueStatus(s, id, status, user, notes, now).Ok? ==> CommentsOwned(UpdateIssueStatus(s, id, status, user, notes, now).value)
    ensures AssignIssue(s, id, assignee, user).Ok? ==> CommentsOwned(AssignIssue(s, id, assignee, user).value)
    ensures DeleteIssue(s, id, user).Ok? ==> CommentsOwned(DeleteIssue(s, id, user).value)
  {
  }

  /** Closing twice re-stamps `closedAt` with the later time and comments twice; the status stays CLOSED. */
  lemma CloseTwice(s: Store, id: Id, user: Id, t1: int, t2: int)
    requires id in s.issues
    ensures var s1 := UpdateIssueStatus(s, id, Closed, user, None, t1).value;
            var s2 := UpdateIssueStatus(s1, id, Closed, user, None, t2).value;
            s2.issues[id].status == Closed && s2.issues[id].closedAt == Some(t2) && s2.comments == s.comments &&
            |s2.audit| == |s.audit| + 2
  {
  }

  // ---------------------------------------------------------------------
  // Labels
  // ---------------------------------------------------------------------

  /** `addLabel`: the label list loses duplicates and gains the label once; the audit row names the label. */
  function AddLabel(s: Store, id: Id, lbl: string, user: Id): (r: Result<Store>)
    ensures r.Ok? <==> id in s.issues
    ensures !r.Ok? ==> r == Err(NotFound("Issue not found"))
    ensures r.Ok? ==>
              r.value.issues.Keys == s.issues.Keys &&
              (forall k :: k in s.issues && k != id ==> r.value.issues[k] == s.issues[k]) &&
              r.value.issues[id] == s.issues[id].(labels := IssueLabels.AddLabel(s.issues[id].labels, lbl)) &&
              r.value.comments == s.comments &&
              AuditedOnce(s, r.value, id, "ISSUE_LABEL_ADDED", user) &&
              r.value.audit[|s.audit|].oldValues == Some(JObj([("labels", StrArray(s.issues[id].labels))])) &&
              r.value.audit[|s.audit|].newValues ==
                Some(JObj([("labels", StrArray(r.value.issues[id].labels)), ("addedLabel", JStr(lbl))]))
  {
    if id !in s.issues then Err(NotFound("Issue not found"))
    else
      var issue := s.issues[id];
      var labels := IssueLabels.AddLabel(issue.labels, lbl);
      Ok(CreateAuditLog(s.(issues := s.issues[id := issue.(labels := labels)]), "ISSUE_LABEL_ADDED", id,
                        Some(JObj([("labels", StrArray(issue.labels))])),
                        Some(JObj([("labels", StrArray(labels)), ("addedLabel", JStr(lbl))])), user))
  }

  /** `removeLabel`: every occurrence of the label goes, the other labels keep their order. */
  function RemoveLabel(s: Store, id: Id, lbl: string, user: Id): (r: Result<Store>)
    ensures r.Ok? <==> id in s.issues
    ensures !r.Ok? ==> r == Err(NotFound("Issue not found"))
    ensures r.Ok? ==>
              r.value.issues.Keys == s.issues.Keys &&
              (forall k :: k in s.issues && k != id ==> r.value.issues[k] == s.issues[k]) &&
              r.value.issues[id] == s.issues[id].(labels := IssueLabels.RemoveLabel(s.issues[id].labels, lbl)) &&
              r.value.comments == s.comments &&
              AuditedOnce(s, r.value, id, "ISSUE_LABEL_REMOVED", user) &&
              r.value.audit[|s.audit|].oldValues == Some(JObj([("labels", StrArray(s.issues[id].labels))])) &&
              r.value.audit[|s.audit|].newValues ==
                Some(JObj([("labels", StrArray(r.value.issues[id].labels)), ("removedLabel", JStr(lbl))]))
  {
    if id !in s.issues then Err(NotFound("Issue not found"))
    else
      var issue := s.issues[id];
      var labels := IssueLabels.RemoveLabel(issue.labels, lbl);
      Ok(CreateAuditLog(s.(issues := s.issues[id := issue.(labels := labels)]), "ISSUE_LABEL_REMOVED", id,
                        Some(JObj([("labels", StrArray(issue.labels))])),
                        Some(JObj([("labels", StrArray(labels)), ("removedLabel", JStr(lbl))])), user))
  }

  /** No issue's label list has a duplicate. */
  predicate LabelsDistinct(s: Store)
  {
    forall k :: k in s.issues ==> NoDup(s.issues[k].labels)
  }

  /** Adding a label makes that issue's list duplicate-free; removing keeps a duplicate-free store so. */
  lemma LabelOpsKeepDistinct(s: Store, id: Id, lbl: string, user: Id)
    ensures AddLabel(s, id, lbl, user).Ok? ==> NoDup(AddLabel(s, id, lbl, user).value.issues[id].labels)
    ensures LabelsDistinct(s) && AddLabel(s, id, lbl, user).Ok? ==> LabelsDistinct(AddLabel(s, id, lbl, user).value)
    ensures LabelsDistinct(s) && RemoveLabel(s, id, lbl, user).Ok? ==> LabelsDistinct(RemoveLabel(s, id, lbl, user).value)
  {
    if LabelsDistinct(s) && RemoveLabel(s, id, lbl, user).Ok? {
      var before := s.issues[id].labels;
      var after := IssueLabels.RemoveLabel(before, lbl);
      forall y ensures Count(after, y) <= 1 {
        CountNoDup(before, y);
        if y != lbl {
          assert Count(after, y) == Count(before, y);
        } else {
          CountPositive(after, y);
        }
      }
      CountAtMostOneIsNoDup(after);
    }
  }

  /** Adding then removing a label that the issue did not have restores its labels, on a duplicate-free list. */
  lemma AddThenRemoveLabel(s: Store, id: Id, lbl: string, user: Id)
    requires id in s.issues && NoDup(s.issues[id].labels) && lbl !in s.issues[id].labels
    ensures var s1 := AddLabel(s, id, lbl, user).value;
            RemoveLabel(s1, id, lbl, user).value.issues == s.issues
  {
    IssueLabels.RemoveAfterAdd(s.issues[id].labels, lbl);
    var s1 := AddLabel(s, id, lbl, user).value;
    assert s1.issues[id].labels == IssueLabels.AddLabel(s.issues[id].labels, lbl);
  }

  // ---------------------------------------------------------------------
  // Analytics
  // ---------------------------------------------------------------------

  /** The label lists of the issues with ids below `n`, in id order. */
  function LabelLists(issues: map<Id, Issue>, n: nat): seq<seq<string>>
  {
    if n == 0 then []
    else LabelLists(issues, n - 1) + (if n - 1 in issues then [issues[n - 1].labels] else [])
  }

  /** `getIssuesByLabel`, with own-property counting, over the issues in id order. */
  function IssuesByLabel(s: Store): (t: IssueLabels.Tally)
    ensures IssueLabels.KeysUnique(t)
    ensures IssueLabels.Total(t) == |IssueLabels.Flatten(LabelLists(s.issues, s.nextId))|
  {
    IssueLabels.ByLabel(LabelLists(s.issues, s.nextId))
  }

  /** The number of lists that contain `y`. */
  function ListsWith(lists: seq<seq<string>>, y: string): nat
  {
    if |lists| == 0 then 0 else ListsWith(lists[..|lists| - 1], y) + (if y in lists[|lists| - 1] then 1 else 0)
  }

  lemma {:induction false} FlattenCount(lists: seq<seq<string>>, y: string)
    requires forall i :: 0 <= i < |lists| ==> NoDup(lists[i])
    ensures Count(IssueLabels.Flatten(lists), y) == ListsWith(lists, y)
    decreases |lists|
  {
    if |lists| > 0 {
      var p := lists[..|lists| - 1];
      FlattenCount(p, y);
      CountAppend(IssueLabels.Flatten(p), lists[|lists| - 1], y);
      CountNoDup(lists[|lists| - 1], y);
    }
  }

  lemma {:induction false} LabelListsDistinct(issues: map<Id, Issue>, n: nat)
    requires forall k :: k in issues ==> NoDup(issues[k].labels)
    ensures forall i :: 0 <= i < |LabelLists(issues, n)| ==> NoDup(LabelLists(issues, n)[i])
  {
    if n > 0 {
      LabelListsDistinct(issues, n - 1);
    }
  }

  /** When no issue repeats a label, a label's count is the number of issues carrying it. */
  lemma IssuesByLabelCountsIssues(s: Store, y: string)
    requires LabelsDistinct(s)
    ensures IssueLabels.CountOf(IssuesByLabel(s), y) == ListsWith(LabelLists(s.issues, s.nextId), y)
  {
    LabelListsDistinct(s.issues, s.nextId);
    FlattenCount(LabelLists(s.issues, s.nextId), y);
  }
}

=== FILE: pagination.dfy ===
/**
 * The offset pagination every list endpoint shares: page `page` of size
 * `limit` skips `(page - 1) * limit` rows, and the reply reports
 * `Math.ceil(total / limit)` pages.
 */
module Pagination {

  /** A JavaScript number as `Math.ceil(total / limit)` can produce it. */
  datatype JsNumber = Finite(n: int) | Infinity | NaN

  /** `(page - 1) * limit`: the number of rows before the page. */
  function Skip(page: int, limit: int): (r: int)
    ensures page >= 1 && limit >= 0 ==> r >= 0
    ensures page == 1 ==> r == 0
  {
    (page - 1) * limit
  }

  /**
   * `Math.ceil(total / limit)`. The issue filter does not bound `limit`, so a
   * zero limit divides by zero (NaN for no rows, Infinity otherwise) and a
   * negative one gives a non-positive count.
   */
  function Pages(total: nat, limit: int): (r: JsNumber)
    ensures limit > 0 ==> r.Finite? && r.n >= 0 && (r.n - 1) * limit < total <= r.n * limit
    ensures limit == 0 ==> r == (if total == 0 then NaN else Infinity)
    ensures limit < 0 ==> r.Finite? && r.n <= 0
  {
    if limit > 0 then Finite((total + limit - 1) / limit)
    else if limit == 0 then (if total == 0 then NaN else Infinity)
    else Finite(-(total / -limit))
  }

  /** The page a row lands on. */
  function PageOf(index: nat, limit: int): (p: int)
    requires limit > 0
  {
    index / limit + 1
  }

  /** Every row is on exactly one page, and that page is within the reported page count. */
  lemma {:induction false} RowOnOnePage(total: nat, limit: int, index: nat)
    requires limit > 0 && index < total
    ensures var p := PageOf(index, limit);
            1 <= p && Pages(total, limit).Finite? && p <= Pages(total, limit).n &&
            Skip(p, limit) <= index < Skip(p, limit) + limit
    ensures forall page: int :: Skip(page, limit) <= index < Skip(page, limit) + limit ==> page == PageOf(index, limit)
  {
    var p := PageOf(index, limit);
    var q := index / limit;
    assert q * limit <= index < q * limit + limit;
    assert Skip(p, limit) == q * limit;
    var n := Pages(total, limit).n;
    assert (n - 1) * limit < total <= n * limit;
    if p > n {
      assert q >= n;
      MulMono(n, q, limit);
      assert false;
    }
    forall page: int | Skip(page, limit) <= index < Skip(page, limit) + limit ensures page == p {
      if page < p {
        MulMono(page, q, limit);
      } else if page > p {
        MulMono(q + 1, page - 1, limit);
      }
    }
  }

  lemma MulMono(a: int, b: int, k: int)
    requires a <= b && k >= 0
    ensures a * k <= b * k
  {
  }
}

=== FILE: permissions_guard.dfy ===
/**
 * The permissions guard: a route that declares required permission tags is
 * let through only when the authenticated user's roles, taken together,
 * hold every one of those tags.
 */
module PermissionsGuard {
  import opened Common
  import opened Identity

  /** The authenticated principal the JWT strategy attaches to the request; `sub` is the user id. */
  datatype Principal = Principal(sub: Id)

  /** The tags of every permission of every role the user holds, as stored in the directory. */
  function EffectiveTags(d: Directory, u: User): set<string>
  {
    set r, p | r in u.roles && r in d.roles && p in d.roles[r].permissions && p in d.permissions ::
      Tag(d.permissions[p])
  }

  /** `required.every(t => held.includes(t))`. */
  function Every(required: seq<string>, held: set<string>): (b: bool)
    ensures b <==> forall i :: 0 <= i < |required| ==> required[i] in held
  {
    if |required| == 0 then true
    else required[0] in held && Every(required[1..], held)
  }

  /**
   * `canActivate`. `required == None` means the route declares no permission
   * metadata; a declared empty list is not the same thing, since an empty array
   * is truthy and still makes the guard look the user up.
   */
  function CanActivate(required: Option<seq<string>>, principal: Option<Principal>, d: Directory): (allowed: bool)
    ensures required.None? ==> allowed
    ensures required.Some? && principal.None? ==> !allowed
    ensures required.Some? && principal.Some? && principal.value.sub !in d.users ==> !allowed
    ensures required.Some? && principal.Some? && principal.value.sub in d.users ==>
              (allowed <==> forall t :: t in required.value ==> t in EffectiveTags(d, d.users[principal.value.sub]))
  {
    if required.None? then true
    else if principal.None? then false
    else if principal.value.sub !in d.users then false
    else Every(required.value, EffectiveTags(d, d.users[principal.value.sub]))
  }

  /** A user without roles is refused on every route that declares at least one tag. */
  lemma NoRolesNoAccess(required: seq<string>, sub: Id, d: Directory)
    requires sub in d.users && d.users[sub].roles == {}
    requires |required| > 0
    ensures !CanActivate(Some(required), Some(Principal(sub)), d)
  {
    assert required[0] !in EffectiveTags(d, d.users[sub]);
  }

  /**
   * The guard ignores the account flags: deactivating (or un-verifying) a user
   * leaves every decision about them unchanged.
   */
  lemma FlagsIrrelevant(required: Option<seq<string>>, sub: Id, d: Directory, active: bool, verified: bool)
    requires sub in d.users
    ensures var d' := d.(users := d.users[sub := d.users[sub].(isActive := active, isVerified := verified)]);
            CanActivate(required, Some(Principal(sub)), d') == CanActivate(required, Some(Principal(sub)), d)
  {
    var d' := d.(users := d.users[sub := d.users[sub].(isActive := active, isVerified := verified)]);
    assert EffectiveTags(d', d'.users[sub]) == EffectiveTags(d, d.users[sub]);
  }

  /**
   * Granting more never takes access away: if the user keeps their roles, each
   * of those roles keeps its permissions, and those permission rows keep their
   * resource and action, every request allowed before is still allowed.
   */
  lemma GrantMonotone(required: Option<seq<string>>, sub: Id, d: Directory, d': Directory)
    requires sub in d.users && sub in d'.users
    requires d.users[sub].roles <= d'.users[sub].roles
    requires forall r :: r in d.users[sub].roles && r in d.roles ==>
               r in d'.roles && d.roles[r].permissions <= d'.roles[r].permissions
    requires forall p :: p in d.permissions ==> p in d'.permissions && Tag(d'.permissions[p]) == Tag(d.permissions[p])
    requires CanActivate(required, Some(Principal(sub)), d)
    ensures CanActivate(required, Some(Principal(sub)), d')
  {
    if required.Some? {
      forall t | t in EffectiveTags(d, d.users[sub]) ensures t in EffectiveTags(d', d'.users[sub]) {
        var r, p :| r in d.users[sub].roles && r in d.roles && p in d.roles[r].permissions && p in d.permissions &&
                    Tag(d.permissions[p]) == t;
        assert r in d'.users[sub].roles && r in d'.roles && p in d'.roles[r].permissions && p in d'.permissions;
      }
    }
  }

  /** Only tags stored on some permission row can ever be satisfied. */
  lemma OnlyStoredTags(t: string, sub: Id, d: Directory)
    requires forall p :: p in d.permissions ==> Tag(d.permissions[p]) != t
    ensures !CanActivate(Some([t]), Some(Principal(sub)), d)
  {
    if sub in d.users {
      assert t !in EffectiveTags(d, d.users[sub]);
    }
  }
}

=== FILE: release_months.dfy ===
/**
 * The "releases by month" analytics: the latest 100 release dates, each
 * reduced to its UTC calendar month, counted per month and listed in
 * ascending month order.
 */
module ReleaseMonths {
  import opened Common

  const MsPerDay: int := 86_400_000

  /** How many releases the query fetches. */
  const FetchLimit: nat := 100

  /** A UTC calendar month, the `YYYY-MM` prefix of an ISO timestamp. */
  datatype Month = Month(year: int, month: int)

  /**
   * The civil (proleptic Gregorian) year and month of a day count since
   * 1970-01-01, by the era / day-of-era decomposition. Division is floored,
   * which Dafny's `/` is for positive divisors.
   */
  function CivilMonth(days: int): Month
  {
    var z := days + 719468;
    var era := z / 146097;
    var doe := z - era * 146097;
    var yoe := (doe - doe / 1460 + doe / 36524 - doe / 146096) / 365;
    var doy := doe - (365 * yoe + yoe / 4 - yoe / 100);
    var mp := (5 * doy + 2) / 153;
    var month := if mp < 10 then mp + 3 else mp - 9;
    Month(yoe + era * 400 + (if month <= 2 then 1 else 0), month)
  }

  /** Day 0 is in January 1970. */
  lemma CivilMonthEpoch()
    ensures CivilMonth(0) == Month(1970, 1)
  {
    assert 719468 / 146097 == 4;
    assert (135080 - 135080 / 1460 + 135080 / 36524 - 135080 / 146096) / 365 == 369;
    assert (5 * 306 + 2) / 153 == 10;
  }

  /** `releaseDate.toISOString().substring(0, 7)`. */
  function MonthOf(ms: int): Month
  {
    CivilMonth(ms / MsPerDay)
  }

  /** Month order, which is also the order of the `YYYY-MM` strings for four-digit years. */
  predicate Before(a: Month, b: Month)
  {
    a.year < b.year || (a.year == b.year && a.month < b.month)
  }

  lemma BeforeTotal(a: Month, b: Month)
    ensures a == b || Before(a, b) || Before(b, a)
    ensures !(Before(a, b) && Before(b, a))
  {
  }

  // ---------------------------------------------------------------------
  // Fetching the latest releases
  // ---------------------------------------------------------------------

  predicate Descending(s: seq<int>)
  {
    forall i, j :: 0 <= i < j < |s| ==> s[i] >= s[j]
  }

  function InsertDesc(x: int, s: seq<int>): (r: seq<int>)
    requires Descending(s)
    ensures Descending(r)
    ensures multiset(r) == multiset(s) + multiset{x}
    ensures |r| == |s| + 1
    ensures r[0] == x || (|s| > 0 && r[0] == s[0])
    decreases |s|
  {
    if |s| == 0 then [x]
    else if x >= s[0] then [x] + s
    else
      var rest := InsertDesc(x, s[1..]);
      assert s == [s[0]] + s[1..];
      assert s[0] >= rest[0] by {
        if |s| > 1 { assert s[0] >= s[1]; }
      }
      [s[0]] + rest
  }

  /** `orderBy: { releaseDate: 'desc' }`. */
  function SortDesc(s: seq<int>): (r: seq<int>)
    ensures Descending(r)
    ensures multiset(r) == multiset(s)
    ensures |r| == |s|
    decreases |s|
  {
    if |s| == 0 then []
    else
      assert s == s[..|s| - 1] + [s[|s| - 1]];
      InsertDesc(s[|s| - 1], SortDesc(s[..|s| - 1]))
  }

  /** `findMany({ orderBy: { releaseDate: 'desc' }, take: 100 })` over the release dates. */
  function Latest(dates: seq<int>): (r: seq<int>)
    ensures |r| == if |dates| < FetchLimit then |dates| else FetchLimit
    ensures Descending(r)
    ensures multiset(r) <= multiset(dates)
  {
    var sorted := SortDesc(dates);
    var k := if |dates| < FetchLimit then |dates| else FetchLimit;
    assert sorted == sorted[..k] + sorted[k..];
    sorted[..k]
  }

  /** No release left out of the fetch is newer than one fetched. */
  lemma LatestAreNewest(dates: seq<int>, x: int)
    requires x in multiset(dates) - multiset(Latest(dates))
    ensures forall i :: 0 <= i < |Latest(dates)| ==> x <= Latest(dates)[i]
  {
    var sorted := SortDesc(dates);
    var k := |Latest(dates)|;
    var front, back := sorted[..k], sorted[k..];
    assert sorted == front + back;
    assert multiset(sorted) == multiset(front) + multiset(back);
    assert x in multiset(back);
    assert x in back;
    var j :| 0 <= j < |back| && back[j] == x;
    assert sorted[k + j] == x;
  }

  // ---------------------------------------------------------------------
  // The monthly tally
  // ---------------------------------------------------------------------

  /** Month entries with counts. */
  type MonthCounts = seq<(Month, nat)>

  /** The months a tally has an entry for. */
  function Keys(t: MonthCounts): set<Month>
  {
    if |t| == 0 then {} else {t[0].0} + Keys(t[1..])
  }

  /** Each entry's month comes before every later entry's month. */
  predicate Ascending(t: MonthCounts)
  {
    |t| == 0 || ((forall y :: y in Keys(t[1..]) ==> Before(t[0].0, y)) && Ascending(t[1..]))
  }

  /** The count recorded for `m`, or 0. */
  function CountOf(t: MonthCounts, m: Month): nat
  {
    if |t| == 0 then 0 else if t[0].0 == m then t[0].1 else CountOf(t[1..], m)
  }

  function Total(t: MonthCounts): nat
  {
    if |t| == 0 then 0 else t[0].1 + Total(t[1..])
  }

  /** One more release in month `m`: its entry is incremented, or a new entry is placed in order. */
  function Bump(t: MonthCounts, m: Month): (r: MonthCounts)
  {
    if |t| == 0 then [(m, 1)]
    else if t[0].0 == m then [(m, t[0].1 + 1)] + t[1..]
    else if Before(m, t[0].0) then [(m, 1)] + t
    else [t[0]] + Bump(t[1..], m)
  }

  lemma {:induction false} BumpKeys(t: MonthCounts, m: Month)
    ensures Keys(Bump(t, m)) == Keys(t) + {m}
    ensures Ascending(t) ==> Ascending(Bump(t, m))
    decreases |t|
  {
    var r := Bump(t, m);
    if |t| > 0 {
      if t[0].0 == m {
        assert r[1..] == t[1..];
      } else if Before(m, t[0].0) {
        assert r[1..] == t;
      } else {
        BeforeTotal(m, t[0].0);
        BumpKeys(t[1..], m);
        assert r[1..] == Bump(t[1..], m);
      }
    }
  }

  lemma {:induction false} BumpCounts(t: MonthCounts, m: Month)
    requires Ascending(t)
    ensures Total(Bump(t, m)) == Total(t) + 1
    ensures forall y :: CountOf(Bump(t, m), y) == CountOf(t, y) + (if y == m then 1 else 0)
    decreases |t|
  {
    var r := Bump(t, m);
    if |t| > 0 {
      if t[0].0 == m {
        assert r[1..] == t[1..];
      } else if Before(m, t[0].0) {
        assert r[1..] == t;
        if m in Keys(t[1..]) {
          assert false;
        }
        CountOfAbsent(t[1..], m);
      } else {
        BumpCounts(t[1..], m);
        assert r[1..] == Bump(t[1..], m);
      }
    }
  }

  lemma {:induction false} CountOfAbsent(t: MonthCounts, m: Month)
    requires m !in Keys(t)
    ensures CountOf(t, m) == 0
    decreases |t|
  {
    if |t| > 0 {
      CountOfAbsent(t[1..], m);
    }
  }

  /** The recursive order gives the pairwise one. */
  lemma {:induction false} AscendingPairwise(t: MonthCounts)
    requires Ascending(t)
    ensures forall i, j :: 0 <= i < j < |t| ==> Before(t[i].0, t[j].0)
    decreases |t|
  {
    if |t| > 0 {
      AscendingPairwise(t[1..]);
      forall j | 0 < j < |t| ensures Before(t[0].0, t[j].0) {
        InKeys(t[1..], j - 1);
      }
      forall i, j | 0 < i < j < |t| ensures Before(t[i].0, t[j].0) {
        assert t[i] == t[1..][i - 1] && t[j] == t[1..][j - 1];
      }
    }
  }

  lemma {:induction false} InKeys(t: MonthCounts, i: nat)
    requires i < |t|
    ensures t[i].0 in Keys(t)
    decreases i
  {
    if i > 0 {
      InKeys(t[1..], i - 1);
    }
  }

  /** Counts per month of a list of months, in ascending month order. */
  function Tally(months: seq<Month>): (t: MonthCounts)
    ensures Ascending(t)
    ensures forall y :: y in Keys(t) <==> y in months
    ensures Total(t) == |months|
    ensures forall y :: CountOf(t, y) == Count(months, y)
    decreases |months|
  {
    if |months| == 0 then []
    else
      var p := months[..|months| - 1];
      var t0 := Tally(p);
      BumpKeys(t0, months[|months| - 1]);
      BumpCounts(t0, months[|months| - 1]);
      assert months == p + [months[|months| - 1]];
      Bump(t0, months[|months| - 1])
  }

  function MonthsOf(dates: seq<int>): (r: seq<Month>)
    ensures |r| == |dates|
    ensures forall i :: 0 <= i < |dates| ==> r[i] == MonthOf(dates[i])
  {
    seq(|dates|, i requires 0 <= i < |dates| => MonthOf(dates[i]))
  }

  /**
   * `getReleasesByMonth`: ascending months, each with the number of fetched
   * releases dated in it; the counts add up to the number fetched, at most 100.
   */
  function ReleasesByMonth(dates: seq<int>): (t: MonthCounts)
    ensures forall i, j :: 0 <= i < j < |t| ==> Before(t[i].0, t[j].0)
    ensures Total(t) == |Latest(dates)| <= FetchLimit
    ensures forall y :: y in Keys(t) <==> y in MonthsOf(Latest(dates))
    ensures forall y :: CountOf(t, y) == Count(MonthsOf(Latest(dates)), y)
  {
    var t := Tally(MonthsOf(Latest(dates)));
    AscendingPairwise(t);
    t
  }
}

=== FILE: requests.dfy ===
/**
 * Service requests and their workflow. Equipment and maintenance requests
 * get a fixed five-step workflow when they are created; when every step of
 * a request is completed or skipped, the request itself is completed.
 */
module Requests {
  import opened Common

  datatype RequestType = EquipmentRequest | MaintenanceRequest | SoftwareRequest | AccessRequest | OtherRequest
  datatype Priority = Low | Medium | High | Critical
  datatype RequestStatus = Pending | Approved | InProgress | Completed | Rejected | Cancelled

  function TypeName(t: RequestType): string
  {
    match t
    case EquipmentRequest => "EQUIPMENT_REQUEST"
    case MaintenanceRequest => "MAINTENANCE_REQUEST"
    case SoftwareRequest => "SOFTWARE_REQUEST"
    case AccessRequest => "ACCESS_REQUEST"
    case OtherRequest => "OTHER"
  }

  function PriorityName(p: Priority): string
  {
    match p
    case Low => "LOW"
    case Medium => "MEDIUM"
    case High => "HIGH"
    case Critical => "CRITICAL"
  }

  function StatusName(s: RequestStatus): string
  {
    match s
    case Pending => "PENDING"
    case Approved => "APPROVED"
    case InProgress => "IN_PROGRESS"
    case Completed => "COMPLETED"
    case Rejected => "REJECTED"
    case Cancelled => "CANCELLED"
  }

  datatype Request = Request(title: string, description: string, kind: RequestType, priority: Priority,
                             department: Option<string>, status: RequestStatus, requesterId: Id,
                             assigneeId: Option<Id>, dueDate: Option<int>, closedAt: Option<int>)

  /** A workflow step; its status is free text, compared against "COMPLETED" and "SKIPPED". */
  datatype WorkflowStep = WorkflowStep(requestId: Id, stepOrder: nat, name: string, description: string,
                                       status: string, completedAt: Option<int>)

  datatype Comment = Comment(requestId: Id, authorId: Id, content: string)

  datatype Store = Store(requests: map<Id, Request>, steps: map<Id, WorkflowStep>, comments: seq<Comment>,
                         audit: seq<AuditRow>, nextId: nat)

  /** An asset line of the request form: the asset wanted and an optional note. */
  datatype AssetLine = AssetLine(assetId: Id, notes: Option<string>)

  /** The validated request form; `assets` is the optional list of asset lines. */
  datatype RequestForm = RequestForm(title: string, description: string, kind: RequestType, priority: Priority,
                                     department: Option<string>, dueDate: Option<int>, assets: Option<seq<AssetLine>>)

  /** The status a new row takes from the column default. */
  const InitialStatus: RequestStatus := Pending
  const InitialStepStatus: string := "PENDING"

  /**
   * Ids are never reused: every request and step id, and every step's
   * request id, is below `nextId`. The counter stands in for the ids the
   * database generates, which never collide.
   */
  predicate IdsBelow(s: Store)
  {
    (forall k :: k in s.requests ==> k < s.nextId) &&
    (forall k :: k in s.steps ==> k < s.nextId && s.steps[k].requestId < s.nextId)
  }

  function CreateAuditLog(s: Store, action: string, id: Id, oldValues: Option<Json>, newValues: Option<Json>, user: Id): (r: Store)
    ensures r.requests == s.requests && r.steps == s.steps && r.comments == s.comments && r.nextId == s.nextId
    ensures |r.audit| == |s.audit| + 1 && r.audit[..|s.audit|] == s.audit
    ensures r.audit[|s.audit|] == AuditRow(action, "Request", id, oldValues, newValues, user)
  {
    s.(audit := s.audit + [AuditRow(action, "Request", id, oldValues, newValues, user)])
  }

  // ---------------------------------------------------------------------
  // Creating
  // ---------------------------------------------------------------------

  /** The default workflow: order, name and description of each step. */
  const DefaultSteps: seq<(nat, string, string)> := [
    (1, "Initial Review", "Review request details and requirements"),
    (2, "Approval", "Approve or reject the request"),
    (3, "Implementation", "Implement the requested changes"),
    (4, "Testing", "Test the implementation"),
    (5, "Completion", "Finalize and close the request")
  ]

  /** Only equipment and maintenance requests get a workflow. */
  predicate HasWorkflow(t: RequestType)
  {
    t == EquipmentRequest || t == MaintenanceRequest
  }

  /** The five ids from `base` on. */
  function WorkflowIds(base: nat): (ids: set<Id>)
    ensures forall k :: k in ids <==> base <= k < base + 5
  {
    {base, base + 1, base + 2, base + 3, base + 4}
  }

  /** The default workflow's steps for `requestId`, under the ids `base` to `base + 4`. */
  function DefaultWorkflow(base: nat, requestId: Id): (m: map<Id, WorkflowStep>)
    ensures forall k :: k in m <==> base <= k < base + 5
    ensures forall k :: k in m ==> m[k].requestId == requestId && m[k].stepOrder == k - base + 1 &&
                                   m[k].status == InitialStepStatus && m[k].completedAt.None?
  {
    map k | k in WorkflowIds(base) ::
      WorkflowStep(requestId, DefaultSteps[k - base].0, DefaultSteps[k - base].1, DefaultSteps[k - base].2, InitialStepStatus, None)
  }

  /** `createInitialWorkflowSteps`: five new steps with fresh ids. */
  function CreateInitialWorkflowSteps(s: Store, requestId: Id): (r: Store)
    ensures r.requests == s.requests && r.comments == s.comments && r.audit == s.audit
    ensures r.nextId == s.nextId + 5
    ensures forall k :: k in s.steps && k < s.nextId ==> k in r.steps && r.steps[k] == s.steps[k]
    ensures forall k :: k in r.steps <==> k in s.steps || s.nextId <= k < s.nextId + 5
    ensures forall k :: s.nextId <= k < s.nextId + 5 ==>
              r.steps[k].requestId == requestId && r.steps[k].stepOrder == k - s.nextId + 1
  {
    s.(steps := s.steps + DefaultWorkflow(s.nextId, requestId), nextId := s.nextId + 5)
  }

  /** The row a form creates: every form field is spread into it, and the request starts PENDING and unassigned. */
  function NewRequest(form: RequestForm, requester: Id): Request
  {
    Request(form.title, form.description, form.kind, form.priority, form.department, InitialStatus, requester,
            None, form.dueDate, None)
  }

  /**
   * `createRequest`: the form is spread into the create data, so a given
   * `assets` list reaches the ORM as a plain array on the `assets` relation
   * and the create is refused as invalid before anything is written.
   * Otherwise the request takes the next id, keeps the form's fields, is
   * PENDING, and gets a workflow when its type calls for one.
   */
  function CreateRequest(s: Store, form: RequestForm, requester: Id): (r: Result<(Store, Id)>)
    requires IdsBelow(s)
    ensures r.Err? <==> form.assets.Some?
    ensures r.Err? ==> r.failure == Invalid
    ensures r.Ok? ==>
              var (s', k) := r.value;
              k == s.nextId && k !in s.requests && k in s'.requests &&
              s'.requests == s.requests[k := s'.requests[k]] &&
              s'.requests[k].title == form.title && s'.requests[k].description == form.description &&
              s'.requests[k].kind == form.kind && s'.requests[k].priority == form.priority &&
              s'.requests[k].department == form.department && s'.requests[k].dueDate == form.dueDate &&
              s'.requests[k].status == Pending && s'.requests[k].requesterId == requester &&
              s'.requests[k].assigneeId.None? && s'.requests[k].closedAt.None?
    ensures r.Ok? ==>
              var (s', k) := r.value;
              s'.comments == s.comments &&
              |s'.audit| == |s.audit| + 1 && s'.audit[..|s.audit|] == s.audit &&
              s'.audit[|s.audit|] == AuditRow("REQUEST_CREATED", "Request", k, None, Some(JObj([
                ("title", JStr(form.title)), ("type", JStr(TypeName(form.kind))), ("priority", JStr(PriorityName(form.priority)))])), requester)
    ensures r.Ok? ==> IdsBelow(r.value.0)
  {
    if form.assets.Some? then Err(Invalid)
    else
      var k := s.nextId;
      var s1 := s.(requests := s.requests[k := NewRequest(form, requester)], nextId := k + 1);
      var s2 := if HasWorkflow(form.kind) then CreateInitialWorkflowSteps(s1, k) else s1;
      var values := JObj([("title", JStr(form.title)), ("type", JStr(TypeName(form.kind))), ("priority", JStr(PriorityName(form.priority)))]);
      Ok((CreateAuditLog(s2, "REQUEST_CREATED", k, None, Some(values), requester), k))
  }

  /** The ids of the steps that belong to request `k`. */
  ghost predicate StepOf(s: Store, j: Id, k: Id)
  {
    j in s.steps && s.steps[j].requestId == k
  }

  /**
   * A new equipment or maintenance request owns exactly five steps, with
   * orders 1 to 5; a request of any other type owns none.
   */
  lemma CreateRequestWorkflow(s: Store, form: RequestForm, requester: Id)
    requires IdsBelow(s) && form.assets.None?
    ensures var (s', k) := CreateRequest(s, form, requester).value;
            HasWorkflow(form.kind) ==>
              (forall j: Id :: StepOf(s', j, k) <==> k < j <= k + 5) &&
              (forall j: Id :: k < j <= k + 5 ==> s'.steps[j].stepOrder == j - k)
    ensures var (s', k) := CreateRequest(s, form, requester).value;
            !HasWorkflow(form.kind) ==> forall j: Id :: !StepOf(s', j, k)
  {
    var k := s.nextId;
    var s1 := s.(requests := s.requests[k := NewRequest(form, requester)], nextId := k + 1);
  }

  // ---------------------------------------------------------------------
  // Deleting, assigning, status
  // ---------------------------------------------------------------------

  /** The comments that do not belong to request `id`. */
  function CommentsNotOn(comments: seq<Comment>, id: Id): seq<Comment>
  {
    Filter(comments, (c: Comment) => c.requestId != id)
  }

  /**
   * `deleteRequest`: a missing request is NotFound; one in progress is kept.
   * The request's workflow steps and comments go with it (their foreign key
   * cascades); the audit log keeps every row.
   */
  function DeleteRequest(s: Store, id: Id, user: Id): (r: Result<Store>)
    ensures id !in s.requests ==> r == Err(NotFound("Request not found"))
    ensures id in s.requests && s.requests[id].status == InProgress ==>
              r == Err(BadRequest("Cannot delete request that is in progress"))
    ensures r.Ok? <==> id in s.requests && s.requests[id].status != InProgress
    ensures r.Ok? ==>
              r.value.requests == s.requests - {id} && r.value.nextId == s.nextId &&
              r.value.audit == s.audit + [AuditRow("REQUEST_DELETED", "Request", id,
                Some(JObj([("title", JStr(s.requests[id].title)), ("status", JStr(StatusName(s.requests[id].status)))])), None, user)]
    ensures r.Ok? ==>
              (forall j :: j in r.value.steps <==> j in s.steps && s.steps[j].requestId != id) &&
              (forall j :: j in r.value.steps ==> r.value.steps[j] == s.steps[j]) &&
              (forall c :: c in r.value.comments <==> c in s.comments && c.requestId != id)
  {
    if id !in s.requests then Err(NotFound("Request not found"))
    else
      var req := s.requests[id];
      if req.status == InProgress then Err(BadRequest("Cannot delete request that is in progress"))
      else
        var before := JObj([("title", JStr(req.title)), ("status", JStr(StatusName(req.status)))]);
        var s1 := s.(requests := s.requests - {id},
                     steps := map j | j in s.steps && s.steps[j].requestId != id :: s.steps[j],
                     comments := CommentsNotOn(s.comments, id));
        Ok(CreateAuditLog(s1, "REQUEST_DELETED", id, Some(before), None, user))
  }

  /** Deleting a request that has no comments leaves the comment list exactly as it was. */
  lemma DeleteKeepsOtherComments(s: Store, id: Id, user: Id)
    requires DeleteRequest(s, id, user).Ok?
    requires forall i :: 0 <= i < |s.comments| ==> s.comments[i].requestId != id
    ensures DeleteRequest(s, id, user).value.comments == s.comments
  {
    FilterKeepsAll(s.comments, (c: Comment) => c.requestId != id);
  }

  /** `assignRequest`: from any status the request goes to the assignee and becomes IN_PROGRESS. */
  function AssignRequest(s: Store, id: Id, assignee: Id, user: Id): (r: Result<Store>)
    ensures r.Ok? <==> id in s.requests
    ensures !r.Ok? ==> r == Err(NotFound("Request not found"))
    ensures r.Ok? ==>
              r.value.requests == s.requests[id := s.requests[id].(assigneeId := Some(assignee), status := InProgress)] &&
              r.value.steps == s.steps && r.value.comments == s.comments &&
              r.value.audit == s.audit + [AuditRow("REQUEST_ASSIGNED", "Request", id,
                Some(JObj([("assigneeId", IdJson(s.requests[id].assigneeId))])),
                Some(JObj([("assigneeId", JStr(IdText(assignee)))])), user)]
  {
    if id !in s.requests then Err(NotFound("Request not found"))
    else
      var req := s.requests[id];
      var s1 := s.(requests := s.requests[id := req.(assigneeId := Some(assignee), status := InProgress)]);
      Ok(CreateAuditLog(s1, "REQUEST_ASSIGNED", id, Some(JObj([("assigneeId", IdJson(req.assigneeId))])),
                        Some(JObj([("assigneeId", JStr(IdText(assignee)))])), user))
  }

  /** `addComment`: the request must exist. */
  function AddComment(s: Store, requestId: Id, content: string, user: Id): (r: Result<Store>)
    ensures r.Ok? <==> requestId in s.requests
    ensures !r.Ok? ==> r == Err(NotFound("Request not found"))
    ensures r.Ok? ==> r.value == s.(comments := s.comments + [Comment(requestId, user, content)])
  {
    if requestId !in s.requests then Err(NotFound("Request not found"))
    else Ok(s.(comments := s.comments + [Comment(requestId, user, content)]))
  }

  /** The comment a status change with notes leaves behind. */
  function StatusNote(status: RequestStatus, notes: string): string
  {
    "Status updated to " + StatusName(status) + ": " + notes
  }

  /**
   * `updateRequestStatus`: `closedAt` is stamped only when the new status is
   * COMPLETED, a comment is added only for non-empty notes, and the audit row
   * records the old and new status.
   */
  function UpdateRequestStatus(s: Store, id: Id, status: RequestStatus, user: Id, notes: Option<string>, now: int): (r: Result<Store>)
    ensures r.Ok? <==> id in s.requests
    ensures !r.Ok? ==> r == Err(NotFound("Request not found"))
    ensures r.Ok? ==>
              r.value.requests.Keys == s.requests.Keys && r.value.steps == s.steps && r.value.nextId == s.nextId &&
              (forall k :: k in s.requests && k != id ==> r.value.requests[k] == s.requests[k]) &&
              r.value.requests[id].status == status &&
              r.value.requests[id].closedAt == (if status == Completed then Some(now) else s.requests[id].closedAt) &&
              r.value.requests[id].(status := s.requests[id].status, closedAt := s.requests[id].closedAt) == s.requests[id]
    ensures r.Ok? ==>
              (Truthy(notes) ==>
                 r.value.comments == s.comments + [Comment(id, user, StatusNote(status, notes.value))]) &&
              (!Truthy(notes) ==> r.value.comments == s.comments)
    ensures r.Ok? ==>
              r.value.audit == s.audit + [AuditRow("REQUEST_STATUS_UPDATED", "Request", id,
                Some(JObj([("status", JStr(StatusName(s.requests[id].status)))])), Some(StatusChange(StatusName(status), notes)), user)]
  {
    if id !in s.requests then Err(NotFound("Request not found"))
    else
      var req := s.requests[id];
      var updated := req.(status := status, closedAt := if status == Completed then Some(now) else req.closedAt);
      var s1 := s.(requests := s.requests[id := updated]);
      var s2 :=
        if Truthy(notes) then
          match AddComment(s1, id, StatusNote(status, notes.value), user)
          case Ok(t) => t
          case Err(_) => s1
        else s1;
      Ok(CreateAuditLog(s2, "REQUEST_STATUS_UPDATED", id, Some(JObj([("status", JStr(StatusName(req.status)))])),
                        Some(StatusChange(StatusName(status), notes)), user))
  }

  /** Every COMPLETED request carries the time it was closed. */
  predicate CompletedAreStamped(s: Store)
  {
    forall k :: k in s.requests && s.requests[k].status == Completed ==> s.requests[k].closedAt.Some?
  }

  lemma StatusOpsKeepStamps(s: Store, id: Id, status: RequestStatus, assignee: Id, user: Id, notes: Option<string>, content: string, now: int)
    requires CompletedAreStamped(s)
    ensures UpdateRequestStatus(s, id, status, user, notes, now).Ok? ==>
              CompletedAreStamped(UpdateRequestStatus(s, id, status, user, notes, now).value)
    ensures AssignRequest(s, id, assignee, user).Ok? ==> CompletedAreStamped(AssignRequest(s, id, assignee, user).value)
    ensures DeleteRequest(s, id, user).Ok? ==> CompletedAreStamped(DeleteRequest(s, id, user).value)
    ensures AddComment(s, id, content, user).Ok? ==> CompletedAreStamped(AddComment(s, id, content, user).value)
  {
  }

  // ---------------------------------------------------------------------
  // Workflow
  // ---------------------------------------------------------------------

  const CompletionNote: string := "All workflow steps completed"

  /** A step counts as finished when it is completed or skipped. */
  predicate Finished(step: WorkflowStep)
  {
    step.status == "COMPLETED" || step.status == "SKIPPED"
  }

  /** `allSteps.every(...)`: every step of the request is finished. */
  predicate AllFinished(steps: map<Id, WorkflowStep>, requestId: Id)
  {
    forall j :: j in steps && steps[j].requestId == requestId ==> Finished(steps[j])
  }

  /** The step after `data` is applied: a new status if given, and `completedAt` when it is "COMPLETED". */
  function ApplyStep(step: WorkflowStep, status: Option<string>, now: int): (r: WorkflowStep)
    ensures r.requestId == step.requestId && r.stepOrder == step.stepOrder && r.name == step.name
    ensures r.status == (if status.Some? then status.value else step.status)
    ensures r.completedAt == (if status == Some("COMPLETED") then Some(now) else step.completedAt)
  {
    step.(status := if status.Some? then status.value else step.status,
          completedAt := if status == Some("COMPLETED") then Some(now) else step.completedAt)
  }

  /**
   * `updateWorkflowStep`: the step must belong to the request; after the
   * update, if every step of the request is finished the request is set to
   * COMPLETED with the note "All workflow steps completed".
   */
  function UpdateWorkflowStep(s: Store, requestId: Id, stepId: Id, status: Option<string>, user: Id, now: int): (r: Result<Store>)
    ensures stepId !in s.steps || s.steps[stepId].requestId != requestId ==> r == Err(NotFound("Workflow step not found"))
    ensures r.Ok? ==> stepId in s.steps && s.steps[stepId].requestId == requestId &&
                      r.value.steps == s.steps[stepId := ApplyStep(s.steps[stepId], status, now)]
  {
    if stepId !in s.steps || s.steps[stepId].requestId != requestId then Err(NotFound("Workflow step not found"))
    else
      var s1 := s.(steps := s.steps[stepId := ApplyStep(s.steps[stepId], status, now)]);
      if AllFinished(s1.steps, requestId) then
        UpdateRequestStatus(s1, requestId, Completed, user, Some(CompletionNote), now)
      else Ok(s1)
  }

  /** When the update leaves every step of the request finished, the request is COMPLETED and stamped. */
  lemma WorkflowCompletes(s: Store, requestId: Id, stepId: Id, status: Option<string>, user: Id, now: int)
    requires UpdateWorkflowStep(s, requestId, stepId, status, user, now).Ok?
    ensures var s' := UpdateWorkflowStep(s, requestId, stepId, status, user, now).value;
            AllFinished(s'.steps, requestId) ==>
              s'.requests[requestId].status == Completed && s'.requests[requestId].closedAt == Some(now)
  {
  }

  /** Completing the request through its workflow leaves a comment saying so. */
  lemma WorkflowCompletionNote(s: Store, requestId: Id, stepId: Id, status: Option<string>, user: Id, now: int)
    requires UpdateWorkflowStep(s, requestId, stepId, status, user, now).Ok?
    ensures var s' := UpdateWorkflowStep(s, requestId, stepId, status, user, now).value;
            AllFinished(s'.steps, requestId) ==>
              s'.comments == s.comments + [Comment(requestId, user, StatusNote(Completed, CompletionNote))]
  {
    assert Truthy(Some(CompletionNote));
  }

  /** While some step of the request is unfinished, the request, comments and audit log are untouched. */
  lemma WorkflowWaits(s: Store, requestId: Id, stepId: Id, status: Option<string>, user: Id, now: int)
    requires UpdateWorkflowStep(s, requestId, stepId, status, user, now).Ok?
    ensures var s' := UpdateWorkflowStep(s, requestId, stepId, status, user, now).value;
            !AllFinished(s'.steps, requestId) ==>
              s'.requests == s.requests && s'.comments == s.comments && s'.audit == s.audit
  {
  }

  /** A step that still has an unfinished sibling never completes the request. */
  lemma UnfinishedSiblingBlocks(s: Store, requestId: Id, stepId: Id, other: Id, status: Option<string>, user: Id, now: int)
    requires other != stepId && other in s.steps && s.steps[other].requestId == requestId && !Finished(s.steps[other])
    requires UpdateWorkflowStep(s, requestId, stepId, status, user, now).Ok?
    ensures UpdateWorkflowStep(s, requestId, stepId, status, user, now).value.requests == s.requests
  {
    var s1 := s.(steps := s.steps[stepId := ApplyStep(s.steps[stepId], status, now)]);
    assert s1.steps[other] == s.steps[other];
    assert !AllFinished(s1.steps, requestId);
  }

  // ---------------------------------------------------------------------
  // Ownership
  // ---------------------------------------------------------------------

  /**
   * Every workflow step and comment belongs to a stored request. Creation
   * attaches children only to an existing request and deletion takes them
   * along, so no step ever outlives its request.
   */
  predicate ChildrenOwned(s: Store)
  {
    (forall j :: j in s.steps ==> s.steps[j].requestId in s.requests) &&
    (forall c :: c in s.comments ==> c.requestId in s.requests)
  }

  /** Every operation on requests keeps each step and comment attached to a stored request. */
  lemma OpsKeepChildrenOwned(s: Store, form: RequestForm, id: Id, stepId: Id, status: RequestStatus,
                             stepStatus: Option<string>, assignee: Id, user: Id, notes: Option<string>, content: string, now: int)
    requires ChildrenOwned(s) && IdsBelow(s)
    ensures CreateRequest(s, form, user).Ok? ==> ChildrenOwned(CreateRequest(s, form, user).value.0)
    ensures DeleteRequest(s, id, user).Ok? ==> ChildrenOwned(DeleteRequest(s, id, user).value)
    ensures AssignRequest(s, id, assignee, user).Ok? ==> ChildrenOwned(AssignRequest(s, id, assignee, user).value)
    ensures AddComment(s, id, content, user).Ok? ==> ChildrenOwned(AddComment(s, id, content, user).value)
    ensures UpdateRequestStatus(s, id, status, user, notes, now).Ok? ==>
              ChildrenOwned(UpdateRequestStatus(s, id, status, user, notes, now).value)
    ensures UpdateWorkflowStep(s, id, stepId, stepStatus, user, now).Ok? ==>
              ChildrenOwned(UpdateWorkflowStep(s, id, stepId, stepStatus, user, now).value)
  {
    CreateKeepsChildrenOwned(s, form, user);
    DeleteKeepsChildrenOwned(s, id, user);
    StatusKeepsChildrenOwned(s, id, status, assignee, user, notes, content, now);
    StepKeepsChildrenOwned(s, id, stepId, stepStatus, user, now);
  }

  /** A new request's steps point at the new request. */
  lemma CreateKeepsChildrenOwned(s: Store, form: RequestForm, user: Id)
    requires ChildrenOwned(s) && IdsBelow(s)
    ensures CreateRequest(s, form, user).Ok? ==> ChildrenOwned(CreateRequest(s, form, user).value.0)
  {
    if form.assets.None? {
      var k := s.nextId;
      var s1 := s.(requests := s.requests[k := NewRequest(form, user)], nextId := k + 1);
      assert ChildrenOwned(s1);
    }
  }

  /** Deletion takes the request's steps and comments along. */
  lemma DeleteKeepsChildrenOwned(s: Store, id: Id, user: Id)
    requires ChildrenOwned(s)
    ensures DeleteRequest(s, id, user).Ok? ==> ChildrenOwned(DeleteRequest(s, id, user).value)
  {
  }

  /** Assignment, comments and status changes attach comments only to an existing request. */
  lemma StatusKeepsChildrenOwned(s: Store, id: Id, status: RequestStatus, assignee: Id, user: Id,
                                 notes: Option<string>, content: string, now: int)
    requires ChildrenOwned(s)
    ensures AssignRequest(s, id, assignee, user).Ok? ==> ChildrenOwned(AssignRequest(s, id, assignee, user).value)
    ensures AddComment(s, id, content, user).Ok? ==> ChildrenOwned(AddComment(s, id, content, user).value)
    ensures UpdateRequestStatus(s, id, status, user, notes, now).Ok? ==>
              ChildrenOwned(UpdateRequestStatus(s, id, status, user, notes, now).value)
  {
  }

  /** A step update keeps the step's request, and a completion comments on that request. */
  lemma StepKeepsChildrenOwned(s: Store, id: Id, stepId: Id, stepStatus: Option<string>, user: Id, now: int)
    requires ChildrenOwned(s)
    ensures UpdateWorkflowStep(s, id, stepId, stepStatus, user, now).Ok? ==>
              ChildrenOwned(UpdateWorkflowStep(s, id, stepId, stepStatus, user, now).value)
  {
    if UpdateWorkflowStep(s, id, stepId, stepStatus, user, now).Ok? {
      var s1 := s.(steps := s.steps[stepId := ApplyStep(s.steps[stepId], stepStatus, now)]);
      assert ChildrenOwned(s1);
      StatusKeepsChildrenOwned(s1, id, Completed, id, user, Some(CompletionNote), "", now);
    }
  }

  /**
   * With every step attached to its request, updating a step fails exactly
   * when the step is missing or belongs to another request: the request
   * lookup inside the completion never misses.
   */
  lemma OwnedStepUpdate(s: Store, requestId: Id, stepId: Id, status: Option<string>, user: Id, now: int)
    requires ChildrenOwned(s)
    ensures UpdateWorkflowStep(s, requestId, stepId, status, user, now).Ok? <==>
              stepId in s.steps && s.steps[stepId].requestId == requestId
  {
  }

  // ---------------------------------------------------------------------
  // Overdue
  // ---------------------------------------------------------------------

  /** The statistics' overdue filter: not COMPLETED and due strictly before now; no due date is never overdue. */
  predicate Overdue(r: Request, now: int)
  {
    r.status != Completed && r.dueDate.Some? && r.dueDate.value < now
  }

  /** Once overdue, a request stays overdue as time passes until its status or due date changes. */
  lemma OverdueStaysOverdue(r: Request, now: int, later: int)
    requires Overdue(r, now) && now <= later
    ensures Overdue(r, later)
  {
  }

  /** Completing a request clears it from the overdue count; assigning it does not. */
  lemma CompletionClearsOverdue(s: Store, id: Id, assignee: Id, user: Id, notes: Option<string>, now: int, at: int)
    requires id in s.requests
    ensures !Overdue(UpdateRequestStatus(s, id, Completed, user, notes, now).value.requests[id], at)
    ensures Overdue(s.requests[id], at) ==> Overdue(AssignRequest(s, id, assignee, user).value.requests[id], at)
  {
  }

  /** The number of overdue requests among ids below `n`: none exactly when no such request is overdue. */
  function OverdueCount(requests: map<Id, Request>, n: nat, now: int): (c: nat)
    ensures c <= n
    ensures c == 0 <==> forall k :: k < n && k in requests ==> !Overdue(requests[k], now)
  {
    if n == 0 then 0
    else OverdueCount(requests, n - 1, now) + (if n - 1 in requests && Overdue(requests[n - 1], now) then 1 else 0)
  }

  /** Completing one request lowers the overdue count by one if it was overdue and leaves it otherwise. */
  lemma {:induction false} CompletingLowersOverdue(s: Store, id: Id, user: Id, notes: Option<string>, now: int, at: int, n: nat)
    requires id in s.requests
    ensures var s' := UpdateRequestStatus(s, id, Completed, user, notes, now).value;
            OverdueCount(s'.requests, n, at) ==
              OverdueCount(s.requests, n, at) - (if id < n && Overdue(s.requests[id], at) then 1 else 0)
  {
    if n > 0 {
      CompletingLowersOverdue(s, id, user, notes, now, at, n - 1);
    }
  }
}

=== FILE: seed.dfy ===
/**
 * The steps of the database seed: upserting the default roles, a permission
 * catalogue, the role grants, a list of asset categories and the default
 * administrator. Every write is an upsert on a natural key that leaves an
 * existing row as it is, so the seed can be run again. The concrete
 * catalogue and categories are in `SeedScript`.
 */
module Seed {
  import opened Common
  import opened Identity

  const AdminEmail: string := "admin@hospital.com"
  const AdminUsername: string := "admin"

  /** The natural key of a permission row. */
  function Pair(p: Permission): (string, string)
  {
    (p.resource, p.action)
  }

  function PairSet(m: map<Id, Permission>): set<(string, string)>
  {
    set k | k in m :: Pair(m[k])
  }

  function PairsOf(ps: seq<Permission>): set<(string, string)>
  {
    set p | p in ps :: Pair(p)
  }

  function NameSet(m: map<Id, Category>): set<string>
  {
    set k | k in m :: m[k].name
  }

  function NamesOf(cs: seq<Category>): set<string>
  {
    set c | c in cs :: c.name
  }

  /** Every entry of `m` is still in `m'`, unchanged. */
  predicate Keeps<T(==)>(m: map<Id, T>, m': map<Id, T>)
  {
    forall k :: k in m ==> k in m' && m'[k] == m[k]
  }

  /** The permission rows a filter over `findMany()` selects. */
  function Matching(d: Directory, keep: Permission -> bool): set<Id>
  {
    set k | k in d.permissions && keep(d.permissions[k])
  }

  /** The manager filter: everything except `users:delete` and `admin:manage`. */
  predicate ManagerKeeps(p: Permission)
  {
    Tag(p) !in ["users:delete", "admin:manage"]
  }

  /** The standard-user filter: every `read` action, plus `requests:create`. */
  predicate UserKeeps(p: Permission)
  {
    p.action == "read" || (p.resource == "requests" && p.action == "create")
  }

  /** `role.upsert({where: {name}, update: {}, create: {name, description}})`. */
  function UpsertRole(d: Directory, name: string, description: string): (r: (Directory, Id))
    requires KeysBelow(d)
    ensures KeysBelow(r.0) && d.nextId <= r.0.nextId
    ensures r.1 in r.0.roles && r.0.roles[r.1].name == name
    ensures RoleNamed(d, name).Some? ==> r == (d, RoleNamed(d, name).value)
    ensures RoleNamed(d, name).None? ==> r.1 !in d.roles && r.0.roles[r.1] == Role(name, description, {})
    ensures r.0.users == d.users && r.0.permissions == d.permissions && r.0.categories == d.categories
    ensures Keeps(d.roles, r.0.roles) && r.0.roles.Keys == d.roles.Keys + {r.1}
  {
    match RoleNamed(d, name)
    case Some(k) => (d, k)
    case None => (d.(roles := d.roles[d.nextId := Role(name, description, {})], nextId := d.nextId + 1), d.nextId)
  }

  lemma UpsertRoleValid(d: Directory, name: string, description: string)
    requires Valid(d)
    ensures Valid(UpsertRole(d, name, description).0)
  {
    if RoleNamed(d, name).None? {
      assert forall k :: k in d.roles ==> d.roles[k].name != name;
    }
  }

  /** One `permission.upsert` on the `(resource, action)` key. */
  function UpsertPermission(d: Directory, p: Permission): (r: Directory)
    requires KeysBelow(d)
    ensures KeysBelow(r) && d.nextId <= r.nextId
    ensures r.users == d.users && r.roles == d.roles && r.categories == d.categories
    ensures Keeps(d.permissions, r.permissions)
    ensures PairSet(r.permissions) == PairSet(d.permissions) + {Pair(p)}
    ensures Pair(p) in PairSet(d.permissions) ==> r == d
  {
    match PermissionFor(d, p.resource, p.action)
    case Some(k) =>
      assert Pair(d.permissions[k]) == Pair(p);
      d
    case None =>
      assert forall k :: k in d.permissions ==> Pair(d.permissions[k]) != Pair(p);
      var r := d.(permissions := d.permissions[d.nextId := p], nextId := d.nextId + 1);
      assert PairSet(r.permissions) == PairSet(d.permissions) + {Pair(p)} by {
        forall q | q in PairSet(r.permissions) ensures q in PairSet(d.permissions) + {Pair(p)} {
          var k :| k in r.permissions && Pair(r.permissions[k]) == q;
          if k != d.nextId {
            assert k in d.permissions;
          }
        }
        forall q | q in PairSet(d.permissions) ensures q in PairSet(r.permissions) {
          var k :| k in d.permissions && Pair(d.permissions[k]) == q;
          assert k in r.permissions && r.permissions[k] == d.permissions[k];
        }
        assert Pair(r.permissions[d.nextId]) == Pair(p);
      }
      r
  }

  lemma UpsertPermissionValid(d: Directory, p: Permission)
    requires Valid(d)
    ensures Valid(UpsertPermission(d, p))
  {
    if PermissionFor(d, p.resource, p.action).None? {
      assert forall k :: k in d.permissions ==> Pair(d.permissions[k]) != Pair(p);
    }
  }

  lemma PairsOfCons(ps: seq<Permission>)
    requires |ps| > 0
    ensures PairsOf(ps) == {Pair(ps[0])} + PairsOf(ps[1..])
  {
    assert ps == [ps[0]] + ps[1..];
  }

  lemma NamesOfCons(cs: seq<Category>)
    requires |cs| > 0
    ensures NamesOf(cs) == {cs[0].name} + NamesOf(cs[1..])
  {
    assert cs == [cs[0]] + cs[1..];
  }

  lemma KeepsTrans<T>(a: map<Id, T>, b: map<Id, T>, c: map<Id, T>)
    requires Keeps(a, b) && Keeps(b, c)
    ensures Keeps(a, c)
  {
  }

  /** The loop over the catalogue, one upsert per entry in order. */
  function UpsertPermissions(d: Directory, ps: seq<Permission>): (r: Directory)
    requires KeysBelow(d)
    ensures KeysBelow(r) && d.nextId <= r.nextId
    ensures r.users == d.users && r.roles == d.roles && r.categories == d.categories
    ensures Keeps(d.permissions, r.permissions)
    ensures PairSet(r.permissions) == PairSet(d.permissions) + PairsOf(ps)
    ensures PairsOf(ps) <= PairSet(d.permissions) ==> r == d
    decreases |ps|
  {
    if |ps| == 0 then d
    else
      var d1 := UpsertPermission(d, ps[0]);
      var r := UpsertPermissions(d1, ps[1..]);
      PairsOfCons(ps);
      KeepsTrans(d.permissions, d1.permissions, r.permissions);
      r
  }

  lemma {:induction false} UpsertPermissionsValid(d: Directory, ps: seq<Permission>)
    requires Valid(d)
    ensures Valid(UpsertPermissions(d, ps))
    decreases |ps|
  {
    if |ps| > 0 {
      UpsertPermissionValid(d, ps[0]);
      UpsertPermissionsValid(UpsertPermission(d, ps[0]), ps[1..]);
    }
  }

  /** Attaching every permission that `keep` selects to one role (`rolePermission.upsert` in a loop). */
  function Grant(d: Directory, role: Id, keep: Permission -> bool): (r: Directory)
    requires role in d.roles
    ensures r.users == d.users && r.permissions == d.permissions && r.categories == d.categories && r.nextId == d.nextId
    ensures r.roles.Keys == d.roles.Keys
    ensures forall k :: k in d.roles && k != role ==> r.roles[k] == d.roles[k]
    ensures r.roles[role].name == d.roles[role].name && r.roles[role].description == d.roles[role].description
    ensures r.roles[role].permissions == d.roles[role].permissions + Matching(d, keep)
    ensures Matching(d, keep) <= d.roles[role].permissions ==> r == d
  {
    var current := d.roles[role];
    assert Matching(d, keep) <= current.permissions ==> current.permissions + Matching(d, keep) == current.permissions;
    d.(roles := d.roles[role := current.(permissions := current.permissions + Matching(d, keep))])
  }

  /** Granting existing permissions keeps the directory valid. */
  lemma GrantValid(d: Directory, role: Id, keep: Permission -> bool)
    requires Valid(d) && role in d.roles
    ensures Valid(Grant(d, role, keep))
  {
    var r := Grant(d, role, keep);
    assert forall k :: k in r.roles ==> r.roles[k].name == d.roles[k].name;
  }

  /** One `category.upsert` on the unique name. */
  function UpsertCategory(d: Directory, c: Category): (r: Directory)
    requires KeysBelow(d)
    ensures KeysBelow(r) && d.nextId <= r.nextId
    ensures r.users == d.users && r.roles == d.roles && r.permissions == d.permissions
    ensures Keeps(d.categories, r.categories)
    ensures NameSet(r.categories) == NameSet(d.categories) + {c.name}
    ensures c.name in NameSet(d.categories) ==> r == d
  {
    match CategoryNamed(d, c.name)
    case Some(k) => d
    case None =>
      assert forall k :: k in d.categories ==> d.categories[k].name != c.name;
      var r := d.(categories := d.categories[d.nextId := c], nextId := d.nextId + 1);
      assert NameSet(r.categories) == NameSet(d.categories) + {c.name} by {
        forall n | n in NameSet(r.categories) ensures n in NameSet(d.categories) + {c.name} {
          var k :| k in r.categories && r.categories[k].name == n;
          if k != d.nextId {
            assert k in d.categories;
          }
        }
        forall n | n in NameSet(d.categories) ensures n in NameSet(r.categories) {
          var k :| k in d.categories && d.categories[k].name == n;
          assert k in r.categories && r.categories[k] == d.categories[k];
        }
        assert r.categories[d.nextId].name == c.name;
      }
      r
  }

  lemma UpsertCategoryValid(d: Directory, c: Category)
    requires Valid(d)
    ensures Valid(UpsertCategory(d, c))
  {
    if CategoryNamed(d, c.name).None? {
      assert forall k :: k in d.categories ==> d.categories[k].name != c.name;
    }
  }

  function UpsertCategories(d: Directory, cs: seq<Category>): (r: Directory)
    requires KeysBelow(d)
    ensures KeysBelow(r) && d.nextId <= r.nextId
    ensures r.users == d.users && r.roles == d.roles && r.permissions == d.permissions
    ensures Keeps(d.categories, r.categories)
    ensures NameSet(r.categories) == NameSet(d.categories) + NamesOf(cs)
    ensures NamesOf(cs) <= NameSet(d.categories) ==> r == d
    decreases |cs|
  {
    if |cs| == 0 then d
    else
      var d1 := UpsertCategory(d, cs[0]);
      var r := UpsertCategories(d1, cs[1..]);
      NamesOfCons(cs);
      KeepsTrans(d.categories, d1.categories, r.categories);
      r
  }

  lemma {:induction false} UpsertCategoriesValid(d: Directory, cs: seq<Category>)
    requires Valid(d)
    ensures Valid(UpsertCategories(d, cs))
    decreases |cs|
  {
    if |cs| > 0 {
      UpsertCategoryValid(d, cs[0]);
      UpsertCategoriesValid(UpsertCategory(d, cs[0]), cs[1..]);
    }
  }

  /** The administrator row the seed creates. */
  function DefaultAdmin(passwordHash: string): User
  {
    User(AdminEmail, Some(AdminUsername), "System", "Administrator", passwordHash, true, true, None, {})
  }

  /**
   * `user.upsert` on the administrator's email. Creating the row also writes
   * the unique username `admin`, so a different user already holding that
   * username makes the create fail.
   */
  function UpsertAdmin(d: Directory, passwordHash: string): (r: Result<(Directory, Id)>)
    requires KeysBelow(d)
    ensures r.Err? <==> UserWithEmail(d, AdminEmail).None? && UserWithUsername(d, AdminUsername).Some?
    ensures r.Err? ==> r.failure == Db(UniqueViolation, Some("username"))
    ensures r.Ok? ==> KeysBelow(r.value.0) && d.nextId <= r.value.0.nextId
    ensures r.Ok? ==> r.value.1 in r.value.0.users && r.value.0.users[r.value.1].email == AdminEmail
    ensures r.Ok? ==> r.value.0.roles == d.roles && r.value.0.permissions == d.permissions &&
                      r.value.0.categories == d.categories && Keeps(d.users, r.value.0.users)
    ensures UserWithEmail(d, AdminEmail).Some? ==> r == Ok((d, UserWithEmail(d, AdminEmail).value))
    ensures r.Ok? && UserWithEmail(d, AdminEmail).None? ==>
              r.value.1 !in d.users && r.value.0.users[r.value.1] == DefaultAdmin(passwordHash)
  {
    match UserWithEmail(d, AdminEmail)
    case Some(k) => Ok((d, k))
    case None =>
      if UserWithUsername(d, AdminUsername).Some? then Err(Db(UniqueViolation, Some("username")))
      else Ok((d.(users := d.users[d.nextId := DefaultAdmin(passwordHash)], nextId := d.nextId + 1), d.nextId))
  }

  lemma UpsertAdminValid(d: Directory, passwordHash: string)
    requires Valid(d)
    requires UpsertAdmin(d, passwordHash).Ok?
    ensures Valid(UpsertAdmin(d, passwordHash).value.0)
  {
    if UserWithEmail(d, AdminEmail).None? {
      assert forall k :: k in d.users ==> d.users[k].email != AdminEmail;
      assert forall k :: k in d.users ==> d.users[k].username != Some(AdminUsername);
    }
  }

  /** `userRole.upsert`: the link is added once. */
  function LinkRole(d: Directory, user: Id, role: Id): (r: Directory)
    requires user in d.users
    ensures r.roles == d.roles && r.permissions == d.permissions && r.categories == d.categories && r.nextId == d.nextId
    ensures r.users.Keys == d.users.Keys
    ensures forall k :: k in d.users && k != user ==> r.users[k] == d.users[k]
    ensures r.users[user] == d.users[user].(roles := d.users[user].roles + {role})
    ensures role in d.users[user].roles ==> r == d
  {
    var u := d.users[user];
    assert role in u.roles ==> u.roles + {role} == u.roles;
    d.(users := d.users[user := u.(roles := u.roles + {role})])
  }

  lemma LinkRoleValid(d: Directory, user: Id, role: Id)
    requires Valid(d) && user in d.users && role in d.roles
    ensures Valid(LinkRole(d, user, role))
  {
    var u := d.users[user];
    ValidAfterUserEdit(d, user, u.(roles := u.roles + {role}));
  }

  lemma MatchingAll(d: Directory)
    ensures Matching(d, (p: Permission) => true) == d.permissions.Keys
  {
  }

  /** The selection depends on the permission rows alone. */
  lemma MatchingFrame(d: Directory, d': Directory, keep: Permission -> bool)
    requires d'.permissions == d.permissions
    ensures Matching(d', keep) == Matching(d, keep)
  {
  }

  lemma RoleNamesDistinct()
    ensures "Admin" != "Manager" && "Admin" != "User" && "Admin" != "Technician"
    ensures "Manager" != "User" && "Manager" != "Technician" && "User" != "Technician"
  {
    assert |"Admin"| == 5 && |"Manager"| == 7 && |"User"| == 4 && |"Technician"| == 10;
  }

  /**
   * Upserting roles of other names leaves the answer to "is there a role
   * called `name`?" unchanged.
   */
  lemma RoleNamedGrows(d: Directory, d': Directory, name: string)
    requires KeysBelow(d) && KeysBelow(d')
    requires Keeps(d.roles, d'.roles)
    requires forall k :: k in d'.roles && k !in d.roles ==> d'.roles[k].name != name
    ensures RoleNamed(d', name).None? <==> RoleNamed(d, name).None?
  {
    FindKeyComplete(d.roles, (r: Role) => r.name == name, d.nextId);
    FindKeyComplete(d'.roles, (r: Role) => r.name == name, d'.nextId);
  }

  /** The four role upserts, in the order the script runs them. */
  function SeedRoles(d: Directory): (Directory, Id, Id, Id, Id)
    requires KeysBelow(d)
  {
    RoleNamesDistinct();
    UpsertFourRoles(d, "Admin", "System administrator with full access",
                    "Manager", "Department manager with elevated privileges",
                    "User", "Standard user with basic access",
                    "Technician", "IT technician with maintenance and support access")
  }

  /** Four role upserts in a row, for four distinct names. */
  function UpsertFourRoles(d: Directory, n1: string, x1: string, n2: string, x2: string,
                           n3: string, x3: string, n4: string, x4: string): (r: (Directory, Id, Id, Id, Id))
    requires KeysBelow(d)
    requires n1 != n2 && n1 != n3 && n1 != n4 && n2 != n3 && n2 != n4 && n3 != n4
    ensures KeysBelow(r.0) && d.nextId <= r.0.nextId
    ensures r.0.users == d.users && r.0.permissions == d.permissions && r.0.categories == d.categories
    ensures Keeps(d.roles, r.0.roles)
    ensures r.1 in r.0.roles && r.0.roles[r.1].name == n1
    ensures r.2 in r.0.roles && r.0.roles[r.2].name == n2
    ensures r.3 in r.0.roles && r.0.roles[r.3].name == n3
    ensures r.4 in r.0.roles && r.0.roles[r.4].name == n4
    ensures RoleNamed(d, n2).None? ==> r.0.roles[r.2].permissions == {}
    ensures RoleNamed(d, n3).None? ==> r.0.roles[r.3].permissions == {}
    ensures RoleNamed(d, n4).None? ==> r.0.roles[r.4].permissions == {}
    ensures (RoleNamed(d, n1).Some? && RoleNamed(d, n2).Some? && RoleNamed(d, n3).Some? && RoleNamed(d, n4).Some?) ==>
              r == (d, RoleNamed(d, n1).value, RoleNamed(d, n2).value, RoleNamed(d, n3).value, RoleNamed(d, n4).value)
  {
    var (d1, k1) := UpsertRole(d, n1, x1);
    RoleNamedGrows(d, d1, n2);
    RoleNamedGrows(d, d1, n3);
    RoleNamedGrows(d, d1, n4);
    var (d2, k2) := UpsertRole(d1, n2, x2);
    RoleNamedGrows(d1, d2, n3);
    RoleNamedGrows(d1, d2, n4);
    var (d3, k3) := UpsertRole(d2, n3, x3);
    RoleNamedGrows(d2, d3, n4);
    var (d4, k4) := UpsertRole(d3, n4, x4);
    KeepsTrans(d.roles, d1.roles, d2.roles);
    KeepsTrans(d.roles, d2.roles, d3.roles);
    KeepsTrans(d.roles, d3.roles, d4.roles);
    (d4, k1, k2, k3, k4)
  }

  lemma SeedRolesValid(d: Directory)
    requires Valid(d)
    ensures Valid(SeedRoles(d).0)
  {
    UpsertRoleValid(d, "Admin", "System administrator with full access");
    var d1 := UpsertRole(d, "Admin", "System administrator with full access").0;
    UpsertRoleValid(d1, "Manager", "Department manager with elevated privileges");
    var d2 := UpsertRole(d1, "Manager", "Department manager with elevated privileges").0;
    UpsertRoleValid(d2, "User", "Standard user with basic access");
    var d3 := UpsertRole(d2, "User", "Standard user with basic access").0;
    UpsertRoleValid(d3, "Technician", "IT technician with maintenance and support access");
  }

  /** The three grants: Admin everything, Manager and User through their filters. */
  function SeedGrants(d: Directory, admin: Id, manager: Id, user: Id): (r: Directory)
    requires admin in d.roles && manager in d.roles && user in d.roles
    requires admin != manager && admin != user && manager != user
    ensures r.users == d.users && r.permissions == d.permissions && r.categories == d.categories && r.nextId == d.nextId
    ensures r.roles.Keys == d.roles.Keys
    ensures forall k :: k in d.roles && k !in {admin, manager, user} ==> r.roles[k] == d.roles[k]
    ensures forall k :: k in d.roles ==> r.roles[k].name == d.roles[k].name
    ensures r.roles[admin].permissions == d.roles[admin].permissions + d.permissions.Keys
    ensures r.roles[manager].permissions == d.roles[manager].permissions + Matching(d, ManagerKeeps)
    ensures r.roles[user].permissions == d.roles[user].permissions + Matching(d, UserKeeps)
    ensures (d.permissions.Keys <= d.roles[admin].permissions && Matching(d, ManagerKeeps) <= d.roles[manager].permissions &&
             Matching(d, UserKeeps) <= d.roles[user].permissions) ==> r == d
  {
    var d6 := Grant(d, admin, (p: Permission) => true);
    var d7 := Grant(d6, manager, ManagerKeeps);
    var d8 := Grant(d7, user, UserKeeps);
    MatchingAll(d);
    MatchingFrame(d, d6, ManagerKeeps);
    MatchingFrame(d, d7, UserKeeps);
    d8
  }

  lemma SeedGrantsValid(d: Directory, admin: Id, manager: Id, user: Id)
    requires Valid(d)
    requires admin in d.roles && manager in d.roles && user in d.roles
    requires admin != manager && admin != user && manager != user
    ensures Valid(SeedGrants(d, admin, manager, user))
  {
    var d6 := Grant(d, admin, (p: Permission) => true);
    GrantValid(d, admin, (p: Permission) => true);
    var d7 := Grant(d6, manager, ManagerKeeps);
    GrantValid(d6, manager, ManagerKeeps);
    GrantValid(d7, user, UserKeeps);
  }

  /** The permission catalogue followed by the three grants over `findMany()`. */
  function SeedCatalogue(d: Directory, catalogue: seq<Permission>, admin: Id, manager: Id, user: Id): (r: Directory)
    requires KeysBelow(d)
    requires admin in d.roles && manager in d.roles && user in d.roles
    requires admin != manager && admin != user && manager != user
    ensures KeysBelow(r) && d.nextId <= r.nextId
    ensures r.users == d.users && r.categories == d.categories
    ensures r.roles.Keys == d.roles.Keys
    ensures forall k :: k in d.roles && k !in {admin, manager, user} ==> r.roles[k] == d.roles[k]
    ensures forall k :: k in d.roles ==> r.roles[k].name == d.roles[k].name
    ensures PairSet(r.permissions) == PairSet(d.permissions) + PairsOf(catalogue)
    ensures r.permissions.Keys <= r.roles[admin].permissions
    ensures r.roles[manager].permissions == d.roles[manager].permissions + Matching(r, ManagerKeeps)
    ensures r.roles[user].permissions == d.roles[user].permissions + Matching(r, UserKeeps)
    ensures (PairsOf(catalogue) <= PairSet(d.permissions) && d.permissions.Keys <= d.roles[admin].permissions &&
             Matching(d, ManagerKeeps) <= d.roles[manager].permissions &&
             Matching(d, UserKeeps) <= d.roles[user].permissions) ==> r == d
  {
    var d5 := UpsertPermissions(d, catalogue);
    var r := SeedGrants(d5, admin, manager, user);
    MatchingFrame(d5, r, ManagerKeeps);
    MatchingFrame(d5, r, UserKeeps);
    r
  }

  lemma SeedCatalogueValid(d: Directory, catalogue: seq<Permission>, admin: Id, manager: Id, user: Id)
    requires Valid(d)
    requires admin in d.roles && manager in d.roles && user in d.roles
    requires admin != manager && admin != user && manager != user
    ensures Valid(SeedCatalogue(d, catalogue, admin, manager, user))
  {
    UpsertPermissionsValid(d, catalogue);
    SeedGrantsValid(UpsertPermissions(d, catalogue), admin, manager, user);
  }

  /** The administrator upsert followed by the `userRole` upsert linking it to Admin. */
  function SeedAdminUser(d: Directory, admin: Id, passwordHash: string): (r: Result<(Directory, Id)>)
    requires KeysBelow(d) && admin in d.roles
    ensures r.Err? <==> UserWithEmail(d, AdminEmail).None? && UserWithUsername(d, AdminUsername).Some?
    ensures r.Err? ==> r.failure == Db(UniqueViolation, Some("username"))
    ensures r.Ok? ==> KeysBelow(r.value.0) && d.nextId <= r.value.0.nextId
    ensures r.Ok? ==> r.value.0.roles == d.roles && r.value.0.permissions == d.permissions &&
                      r.value.0.categories == d.categories
    ensures r.Ok? ==> r.value.1 in r.value.0.users && r.value.0.users[r.value.1].email == AdminEmail &&
                      admin in r.value.0.users[r.value.1].roles
    ensures r.Ok? && UserWithEmail(d, AdminEmail).None? ==>
              r.value.0.users[r.value.1] == DefaultAdmin(passwordHash).(roles := {admin})
    ensures (UserWithEmail(d, AdminEmail).Some? && admin in d.users[UserWithEmail(d, AdminEmail).value].roles) ==>
              r == Ok((d, UserWithEmail(d, AdminEmail).value))
  {
    match UpsertAdmin(d, passwordHash)
    case Err(f) => Err(f)
    case Ok((d1, k)) => Ok((LinkRole(d1, k, admin), k))
  }

  lemma SeedAdminUserValid(d: Directory, admin: Id, passwordHash: string)
    requires Valid(d) && admin in d.roles
    requires SeedAdminUser(d, admin, passwordHash).Ok?
    ensures Valid(SeedAdminUser(d, admin, passwordHash).value.0)
  {
    UpsertAdminValid(d, passwordHash);
    var (d1, k) := UpsertAdmin(d, passwordHash).value;
    LinkRoleValid(d1, k, admin);
  }

  /** The identifiers the seed settles on. */
  datatype Seeded = Seeded(dir: Directory, adminRole: Id, managerRole: Id, userRole: Id, technicianRole: Id, adminUser: Id)

  /**
   * The shape a seeded directory has, whatever the catalogue and category
   * list: the four roles by name, the Admin role holding every permission,
   * and the administrator holding the Admin role.
   */
  ghost predicate SeedShape(s: Seeded)
  {
    var d := s.dir;
    && KeysBelow(d)
    && s.adminRole in d.roles && d.roles[s.adminRole].name == "Admin"
    && s.managerRole in d.roles && d.roles[s.managerRole].name == "Manager"
    && s.userRole in d.roles && d.roles[s.userRole].name == "User"
    && s.technicianRole in d.roles && d.roles[s.technicianRole].name == "Technician"
    && d.permissions.Keys <= d.roles[s.adminRole].permissions
    && s.adminUser in d.users && d.users[s.adminUser].email == AdminEmail
    && s.adminRole in d.users[s.adminUser].roles
  }

  /** The user lookups only look at the user table. */
  lemma UserLookupsStable(d: Directory, d': Directory)
    requires KeysBelow(d) && d.nextId <= d'.nextId && d'.users == d.users
    ensures UserWithEmail(d', AdminEmail) == UserWithEmail(d, AdminEmail)
    ensures UserWithUsername(d', AdminUsername) == UserWithUsername(d, AdminUsername)
  {
    FindKeyBound(d.users, (u: User) => u.email == AdminEmail, d.nextId, d'.nextId);
    FindKeyBound(d.users, (u: User) => u.username == Some(AdminUsername), d.nextId, d'.nextId);
  }

  /** The catalogue, the three grants and the categories. */
  function SeedTables(d: Directory, catalogue: seq<Permission>, categories: seq<Category>,
                      admin: Id, manager: Id, user: Id): (r: Directory)
    requires KeysBelow(d)
    requires admin in d.roles && manager in d.roles && user in d.roles
    requires admin != manager && admin != user && manager != user
    ensures KeysBelow(r) && d.nextId <= r.nextId
    ensures r.users == d.users
    ensures r.roles.Keys == d.roles.Keys
    ensures forall k :: k in d.roles && k !in {admin, manager, user} ==> r.roles[k] == d.roles[k]
    ensures forall k :: k in d.roles ==> r.roles[k].name == d.roles[k].name
    ensures PairSet(r.permissions) == PairSet(d.permissions) + PairsOf(catalogue)
    ensures NameSet(r.categories) == NameSet(d.categories) + NamesOf(categories)
    ensures r.permissions.Keys <= r.roles[admin].permissions
    ensures r.roles[manager].permissions == d.roles[manager].permissions + Matching(r, ManagerKeeps)
    ensures r.roles[user].permissions == d.roles[user].permissions + Matching(r, UserKeeps)
  {
    var d8 := SeedCatalogue(d, catalogue, admin, manager, user);
    var r := UpsertCategories(d8, categories);
    MatchingFrame(d8, r, ManagerKeeps);
    MatchingFrame(d8, r, UserKeeps);
    r
  }

  lemma SeedTablesValid(d: Directory, catalogue: seq<Permission>, categories: seq<Category>,
                        admin: Id, manager: Id, user: Id)
    requires Valid(d)
    requires admin in d.roles && manager in d.roles && user in d.roles
    requires admin != manager && admin != user && manager != user
    ensures Valid(SeedTables(d, catalogue, categories, admin, manager, user))
  {
    SeedCatalogueValid(d, catalogue, admin, manager, user);
    UpsertCategoriesValid(SeedCatalogue(d, catalogue, admin, manager, user), categories);
  }

  /** Everything after the roles: catalogue, grants, categories, administrator. */
  function SeedRest(d: Directory, catalogue: seq<Permission>, categories: seq<Category>,
                    admin: Id, manager: Id, user: Id, technician: Id, passwordHash: string): (r: Result<Seeded>)
    requires KeysBelow(d)
    requires admin in d.roles && d.roles[admin].name == "Admin"
    requires manager in d.roles && d.roles[manager].name == "Manager"
    requires user in d.roles && d.roles[user].name == "User"
    requires technician in d.roles && d.roles[technician].name == "Technician"
    requires admin != manager && admin != user && manager != user
    requires technician != admin && technician != manager && technician != user
    ensures r.Err? <==> UserWithEmail(d, AdminEmail).None? && UserWithUsername(d, AdminUsername).Some?
    ensures r.Err? ==> r.failure == Db(UniqueViolation, Some("username"))
    ensures r.Ok? ==> SeedShape(r.value)
    ensures r.Ok? ==> r.value.adminRole == admin && r.value.managerRole == manager && r.value.userRole == user &&
                      r.value.technicianRole == technician
    ensures r.Ok? ==> PairSet(r.value.dir.permissions) == PairSet(d.permissions) + PairsOf(catalogue)
    ensures r.Ok? ==> NameSet(r.value.dir.categories) == NameSet(d.categories) + NamesOf(categories)
    ensures r.Ok? ==> r.value.dir.roles[manager].permissions == d.roles[manager].permissions + Matching(r.value.dir, ManagerKeeps)
    ensures r.Ok? ==> r.value.dir.roles[user].permissions == d.roles[user].permissions + Matching(r.value.dir, UserKeeps)
    ensures r.Ok? ==> r.value.dir.roles[technician] == d.roles[technician]
  {
    var d9 := SeedTables(d, catalogue, categories, admin, manager, user);
    UserLookupsStable(d, d9);
    match SeedAdminUser(d9, admin, passwordHash)
    case Err(f) => Err(f)
    case Ok((d11, k)) =>
      MatchingFrame(d9, d11, ManagerKeeps);
      MatchingFrame(d9, d11, UserKeeps);
      Ok(Seeded(d11, admin, manager, user, technician, k))
  }
  /** The seed script's steps, for a given permission catalogue and category list. */
  function SeedWith(d: Directory, catalogue: seq<Permission>, categories: seq<Category>, passwordHash: string): (r: Result<Seeded>)
    requires KeysBelow(d)
    ensures r.Err? <==> UserWithEmail(d, AdminEmail).None? && UserWithUsername(d, AdminUsername).Some?
    ensures r.Err? ==> r.failure == Db(UniqueViolation, Some("username"))
    ensures r.Ok? ==> SeedShape(r.value)
  {
    var (d4, admin, manager, user, technician) := SeedRoles(d);
    UserLookupsStable(d, d4);
    SeedRest(d4, catalogue, categories, admin, manager, user, technician, passwordHash)
  }

  /**
   * The directory the seed script leaves behind. The script writes step by
   * step without a transaction, so when the administrator step fails the
   * roles, the catalogue, the grants and the categories written before it
   * stay; only the user table is as it was.
   */
  function SeedCommitted(d: Directory, catalogue: seq<Permission>, categories: seq<Category>, passwordHash: string): (r: Directory)
    requires KeysBelow(d)
    ensures KeysBelow(r)
    ensures var s := SeedWith(d, catalogue, categories, passwordHash);
            (s.Ok? ==> r == s.value.dir) && (s.Err? ==> r.users == d.users)
    ensures PairSet(r.permissions) == PairSet(d.permissions) + PairsOf(catalogue)
    ensures NameSet(r.categories) == NameSet(d.categories) + NamesOf(categories)
    ensures exists k :: k in r.roles && r.roles[k].name == "Admin" && r.permissions.Keys <= r.roles[k].permissions
  {
    var s := SeedWith(d, catalogue, categories, passwordHash);
    if s.Ok? then
      SeedWithPairs(d, catalogue, categories, passwordHash);
      SeedWithCategories(d, catalogue, categories, passwordHash);
      assert s.value.adminRole in s.value.dir.roles;
      s.value.dir
    else SeedBeforeAdmin(d, catalogue, categories)
  }

  /** The directory after the roles, the catalogue, the grants and the categories: every step before the administrator. */
  function SeedBeforeAdmin(d: Directory, catalogue: seq<Permission>, categories: seq<Category>): (r: Directory)
    requires KeysBelow(d)
    ensures KeysBelow(r) && r.users == d.users
    ensures PairSet(r.permissions) == PairSet(d.permissions) + PairsOf(catalogue)
    ensures NameSet(r.categories) == NameSet(d.categories) + NamesOf(categories)
    ensures exists k :: k in r.roles && r.roles[k].name == "Admin" && r.permissions.Keys <= r.roles[k].permissions
  {
    var (d4, admin, manager, user, technician) := SeedRoles(d);
    var d9 := SeedTables(d4, catalogue, categories, admin, manager, user);
    assert admin in d9.roles && d9.roles[admin].name == "Admin";
    d9
  }

  /** The seed adds exactly the catalogue's `(resource, action)` pairs to the permission table. */
  lemma SeedWithPairs(d: Directory, catalogue: seq<Permission>, categories: seq<Category>, passwordHash: string)
    requires KeysBelow(d) && SeedWith(d, catalogue, categories, passwordHash).Ok?
    ensures PairSet(SeedWith(d, catalogue, categories, passwordHash).value.dir.permissions) ==
            PairSet(d.permissions) + PairsOf(catalogue)
  {
    var (d4, admin, manager, user, technician) := SeedRoles(d);
    UserLookupsStable(d, d4);
  }

  /** The seed adds exactly the listed category names to the category table. */
  lemma SeedWithCategories(d: Directory, catalogue: seq<Permission>, categories: seq<Category>, passwordHash: string)
    requires KeysBelow(d) && SeedWith(d, catalogue, categories, passwordHash).Ok?
    ensures NameSet(SeedWith(d, catalogue, categories, passwordHash).value.dir.categories) ==
            NameSet(d.categories) + NamesOf(categories)
  {
    var (d4, admin, manager, user, technician) := SeedRoles(d);
    UserLookupsStable(d, d4);
  }

  /** After seeding, Manager and User hold at least what their filters select. */
  lemma SeedWithGrantsHeld(d: Directory, catalogue: seq<Permission>, categories: seq<Category>, passwordHash: string)
    requires KeysBelow(d) && SeedWith(d, catalogue, categories, passwordHash).Ok?
    ensures var s := SeedWith(d, catalogue, categories, passwordHash).value;
            Matching(s.dir, ManagerKeeps) <= s.dir.roles[s.managerRole].permissions
    ensures var s := SeedWith(d, catalogue, categories, passwordHash).value;
            Matching(s.dir, UserKeeps) <= s.dir.roles[s.userRole].permissions
  {
    var (d4, admin, manager, user, technician) := SeedRoles(d);
    UserLookupsStable(d, d4);
    assert SeedWith(d, catalogue, categories, passwordHash) ==
           SeedRest(d4, catalogue, categories, admin, manager, user, technician, passwordHash);
  }

  lemma EmptyUnion<T>(a: set<T>, b: set<T>)
    requires a == {}
    ensures a + b == b
  {
  }

  /** A Manager role the seed creates holds exactly what the manager filter selects. */
  lemma SeedWithFreshManager(d: Directory, catalogue: seq<Permission>, categories: seq<Category>, passwordHash: string)
    requires KeysBelow(d) && SeedWith(d, catalogue, categories, passwordHash).Ok?
    requires RoleNamed(d, "Manager").None?
    ensures var s := SeedWith(d, catalogue, categories, passwordHash).value;
            s.dir.roles[s.managerRole].permissions == Matching(s.dir, ManagerKeeps)
  {
    var (d4, admin, manager, user, technician) := SeedRoles(d);
    UserLookupsStable(d, d4);
    var s := SeedRest(d4, catalogue, categories, admin, manager, user, technician, passwordHash).value;
    assert SeedWith(d, catalogue, categories, passwordHash).value == s;
    var m := Matching(s.dir, ManagerKeeps);
    assert s.dir.roles[manager].permissions == d4.roles[manager].permissions + m;
    EmptyUnion(d4.roles[manager].permissions, m);
  }

  /** A User role the seed creates holds exactly what the standard-user filter selects. */
  lemma SeedWithFreshUser(d: Directory, catalogue: seq<Permission>, categories: seq<Category>, passwordHash: string)
    requires KeysBelow(d) && SeedWith(d, catalogue, categories, passwordHash).Ok?
    requires RoleNamed(d, "User").None?
    ensures var s := SeedWith(d, catalogue, categories, passwordHash).value;
            s.dir.roles[s.userRole].permissions == Matching(s.dir, UserKeeps)
  {
    var (d4, admin, manager, user, technician) := SeedRoles(d);
    UserLookupsStable(d, d4);
    var s := SeedRest(d4, catalogue, categories, admin, manager, user, technician, passwordHash).value;
    assert SeedWith(d, catalogue, categories, passwordHash).value == s;
    var m := Matching(s.dir, UserKeeps);
    assert s.dir.roles[user].permissions == d4.roles[user].permissions + m;
    EmptyUnion(d4.roles[user].permissions, m);
  }

  /** A Technician role the seed creates holds no permission at all. */
  lemma SeedWithFreshTechnician(d: Directory, catalogue: seq<Permission>, categories: seq<Category>, passwordHash: string)
    requires KeysBelow(d) && SeedWith(d, catalogue, categories, passwordHash).Ok?
    requires RoleNamed(d, "Technician").None?
    ensures var s := SeedWith(d, catalogue, categories, passwordHash).value;
            s.dir.roles[s.technicianRole].permissions == {}
  {
    var (d4, admin, manager, user, technician) := SeedRoles(d);
    UserLookupsStable(d, d4);
    assert SeedWith(d, catalogue, categories, passwordHash) ==
           SeedRest(d4, catalogue, categories, admin, manager, user, technician, passwordHash);
  }

  /** The seed keeps every constraint of the identity tables. */
  lemma SeedWithValid(d: Directory, catalogue: seq<Permission>, categories: seq<Category>, passwordHash: string)
    requires Valid(d)
    requires SeedWith(d, catalogue, categories, passwordHash).Ok?
    ensures Valid(SeedWith(d, catalogue, categories, passwordHash).value.dir)
  {
    RoleNamesDistinct();
    var (d4, admin, manager, user, technician) := SeedRoles(d);
    SeedRolesValid(d);
    SeedTablesValid(d4, catalogue, categories, admin, manager, user);
    SeedAdminUserValid(SeedTables(d4, catalogue, categories, admin, manager, user), admin, passwordHash);
  }

  /** On a directory that already holds the four roles, the role step changes nothing. */
  lemma SeedRolesNoop(e: Directory, s: Seeded)
    requires Valid(e) && SeedShape(s) && s.dir == e
    ensures SeedRoles(e) == (e, s.adminRole, s.managerRole, s.userRole, s.technicianRole)
  {
    RoleNamedExact(e, s.adminRole);
    RoleNamedExact(e, s.managerRole);
    RoleNamedExact(e, s.userRole);
    RoleNamedExact(e, s.technicianRole);
    RoleNamesDistinct();
  }

  /** On a directory that already holds the catalogue, the grants and the categories, the table step changes nothing. */
  lemma SeedTablesNoop(e: Directory, catalogue: seq<Permission>, categories: seq<Category>,
                       admin: Id, manager: Id, user: Id)
    requires KeysBelow(e)
    requires admin in e.roles && manager in e.roles && user in e.roles
    requires admin != manager && admin != user && manager != user
    requires PairsOf(catalogue) <= PairSet(e.permissions) && NamesOf(categories) <= NameSet(e.categories)
    requires e.permissions.Keys <= e.roles[admin].permissions
    requires Matching(e, ManagerKeeps) <= e.roles[manager].permissions
    requires Matching(e, UserKeeps) <= e.roles[user].permissions
    ensures SeedTables(e, catalogue, categories, admin, manager, user) == e
  {
    assert SeedCatalogue(e, catalogue, admin, manager, user) == e;
  }

  /** When the administrator exists and already holds the Admin role, the last step changes nothing. */
  lemma SeedAdminUserNoop(e: Directory, admin: Id, k: Id, passwordHash: string)
    requires Valid(e) && admin in e.roles
    requires k in e.users && e.users[k].email == AdminEmail && admin in e.users[k].roles
    ensures SeedAdminUser(e, admin, passwordHash) == Ok((e, k))
  {
    UserWithEmailExact(e, k);
  }

  /**
   * Running the seed a second time changes nothing and settles on the same
   * rows, whatever password hash the second run computes.
   */
  lemma SeedWithIdempotent(d: Directory, catalogue: seq<Permission>, categories: seq<Category>,
                           passwordHash: string, passwordHash': string)
    requires Valid(d) && SeedWith(d, catalogue, categories, passwordHash).Ok?
    ensures var s := SeedWith(d, catalogue, categories, passwordHash).value;
            SeedWith(s.dir, catalogue, categories, passwordHash') == Ok(s)
  {
    var s := SeedWith(d, catalogue, categories, passwordHash).value;
    var e := s.dir;
    SeedWithValid(d, catalogue, categories, passwordHash);
    SeedWithPairs(d, catalogue, categories, passwordHash);
    SeedWithCategories(d, catalogue, categories, passwordHash);
    SeedWithGrantsHeld(d, catalogue, categories, passwordHash);
    SeedRolesNoop(e, s);
    RoleNamesDistinct();
    SeedTablesNoop(e, catalogue, categories, s.adminRole, s.managerRole, s.userRole);
    SeedAdminUserNoop(e, s.adminRole, s.adminUser, passwordHash');
  }
}

=== FILE: seed_script.dfy ===
/**
 * The seed script itself: the sixteen-entry permission catalogue, the six
 * asset categories, and what running the script guarantees to the
 * permissions guard afterwards.
 */
module SeedScript {
  import opened Common
  import opened Identity
  import opened PermissionsGuard
  import opened Seed

  const Catalogue: seq<Permission> := [
    Permission("users", "create", "Create new users"),
    Permission("users", "read", "View user information"),
    Permission("users", "update", "Update user information"),
    Permission("users", "delete", "Delete users"),
    Permission("inventory", "create", "Add new inventory items"),
    Permission("inventory", "read", "View inventory"),
    Permission("inventory", "update", "Update inventory items"),
    Permission("inventory", "delete", "Remove inventory items"),
    Permission("requests", "create", "Create new requests"),
    Permission("requests", "read", "View requests"),
    Permission("requests", "update", "Update requests"),
    Permission("requests", "approve", "Approve requests"),
    Permission("requests", "delete", "Delete requests"),
    Permission("admin", "manage", "Full administrative access"),
    Permission("audit", "read", "View audit logs"),
    Permission("settings", "manage", "Manage system settings")
  ]

  const Categories: seq<Category> := [
    Category("Computers", "Desktop and laptop computers"),
    Category("Monitors", "Display monitors and screens"),
    Category("Printers", "Printing devices"),
    Category("Network Equipment", "Routers, switches, and network devices"),
    Category("Medical Equipment", "Hospital-specific medical devices"),
    Category("Software", "Software licenses and applications")
  ]

  /**
   * `main()` of the seed script, against the current contents of the
   * directory: when it succeeds it leaves the four roles, the Admin role
   * holding every permission, and the administrator holding the Admin role.
   */
  function SeedRun(d: Directory, passwordHash: string): (r: Result<Seeded>)
    requires KeysBelow(d)
    ensures r.Ok? ==> SeedShape(r.value)
  {
    SeedWith(d, Catalogue, Categories, passwordHash)
  }

  /** The catalogue has sixteen entries, no two with the same `(resource, action)` key. */
  lemma CatalogueDistinct()
    ensures |Catalogue| == 16
    ensures forall i, j :: 0 <= i < j < |Catalogue| ==> Pair(Catalogue[i]) != Pair(Catalogue[j])
  {
  }

  /** The resources the catalogue covers. */
  const CatalogueResources: set<string> := {"users", "inventory", "requests", "admin", "audit", "settings"}

  lemma CatalogueCovers()
    ensures forall p :: p in Catalogue ==> p.resource in CatalogueResources
  {
  }

  /** No catalogue resource contains a colon, so catalogue tags are unambiguous. */
  lemma CatalogueColonFree()
    ensures forall p :: p in Catalogue ==> ':' !in p.resource
  {
    CatalogueCovers();
    assert forall r :: r in CatalogueResources ==> ':' !in r;
  }

  /** A tag depends on the natural key of the permission only. */
  lemma TagOfPair(p: Permission, q: Permission)
    requires Pair(p) == Pair(q)
    ensures Tag(p) == Tag(q)
  {
  }

  /** After seeding, the administrator passes every route guarded by the tag of a stored permission. */
  lemma AdminPassesStored(s: Seeded, c: Permission)
    requires SeedShape(s)
    requires Pair(c) in PairSet(s.dir.permissions)
    ensures CanActivate(Some([Tag(c)]), Some(Principal(s.adminUser)), s.dir)
  {
    var e := s.dir;
    var k :| k in e.permissions && Pair(e.permissions[k]) == Pair(c);
    TagOfPair(e.permissions[k], c);
    assert Tag(c) in EffectiveTags(e, e.users[s.adminUser]);
  }

  /** Every catalogue entry is stored after seeding. */
  lemma CatalogueStored(d: Directory, catalogue: seq<Permission>, categories: seq<Category>, passwordHash: string, c: Permission)
    requires KeysBelow(d) && SeedWith(d, catalogue, categories, passwordHash).Ok?
    requires c in catalogue
    ensures Pair(c) in PairSet(SeedWith(d, catalogue, categories, passwordHash).value.dir.permissions)
  {
    SeedWithPairs(d, catalogue, categories, passwordHash);
  }

  /** After the seed script, the administrator passes every route guarded by one catalogue tag. */
  lemma AdminPassesCatalogue(d: Directory, passwordHash: string, c: Permission)
    requires KeysBelow(d) && SeedRun(d, passwordHash).Ok?
    requires c in Catalogue
    ensures var s := SeedRun(d, passwordHash).value;
            CanActivate(Some([Tag(c)]), Some(Principal(s.adminUser)), s.dir)
  {
    CatalogueStored(d, Catalogue, Categories, passwordHash, c);
    AdminPassesStored(SeedRun(d, passwordHash).value, c);
  }

  /** The standard-user filter never selects the permission that deleting a request needs. */
  lemma UserKeepsNoDelete(p: Permission)
    requires UserKeeps(p)
    ensures Tag(p) != "requests:delete"
  {
    var t := Tag(p);
    if p.action == "read" {
      assert t[|t| - 1] == 'd';
    } else {
      assert t == "requests:create";
      assert t[9] == 'c';
    }
    assert "requests:delete"[9] == 'd' && "requests:delete"[|"requests:delete"| - 1] == 'e';
  }

  /**
   * A user holding only a User role that holds exactly the standard-user
   * selection is refused on the request-deletion route, and may create
   * requests once the `requests:create` permission is stored.
   */
  lemma FreshUserRole(s: Seeded, sub: Id)
    requires SeedShape(s)
    requires s.dir.roles[s.userRole].permissions == Matching(s.dir, UserKeeps)
    requires sub in s.dir.users && s.dir.users[sub].roles == {s.userRole}
    ensures !CanActivate(Some(["requests:delete"]), Some(Principal(sub)), s.dir)
    ensures ("requests", "create") in PairSet(s.dir.permissions) ==>
              CanActivate(Some(["requests:create"]), Some(Principal(sub)), s.dir)
  {
    var e := s.dir;
    var u := e.users[sub];
    forall t | t in EffectiveTags(e, u) ensures t != "requests:delete" {
      var r, p :| r in u.roles && r in e.roles && p in e.roles[r].permissions && p in e.permissions &&
                  Tag(e.permissions[p]) == t;
      UserKeepsNoDelete(e.permissions[p]);
    }
    if ("requests", "create") in PairSet(e.permissions) {
      var k :| k in e.permissions && Pair(e.permissions[k]) == ("requests", "create");
      assert Tag(e.permissions[k]) == "requests:create";
      assert "requests:create" in EffectiveTags(e, u);
    }
  }

  lemma CatalogueHasRequestCreate()
    ensures ("requests", "create") in PairsOf(Catalogue)
  {
    assert Catalogue[8] in Catalogue && Pair(Catalogue[8]) == ("requests", "create");
  }

  /**
   * After the seed script, a user whose only role is a User role the script
   * created may create requests and may not delete them.
   */
  lemma FreshUserRequests(d: Directory, passwordHash: string, sub: Id)
    requires KeysBelow(d) && SeedRun(d, passwordHash).Ok?
    requires RoleNamed(d, "User").None?
    requires var s := SeedRun(d, passwordHash).value;
             sub in s.dir.users && s.dir.users[sub].roles == {s.userRole}
    ensures var s := SeedRun(d, passwordHash).value;
            CanActivate(Some(["requests:create"]), Some(Principal(sub)), s.dir) &&
            !CanActivate(Some(["requests:delete"]), Some(Principal(sub)), s.dir)
  {
    SeedWithFreshUser(d, Catalogue, Categories, passwordHash);
    SeedWithPairs(d, Catalogue, Categories, passwordHash);
    CatalogueHasRequestCreate();
    FreshUserRole(SeedRun(d, passwordHash).value, sub);
  }

  predicate NoEntryTagged(ps: seq<Permission>, tag: string)
  {
    forall p :: p in ps ==> Tag(p) != tag
  }

  /**
   * A tag that neither an existing row nor a catalogue entry carries stays
   * unreachable after seeding: the route it guards refuses everybody.
   */
  lemma UncataloguedUnreachable(d: Directory, catalogue: seq<Permission>, categories: seq<Category>,
                                passwordHash: string, tag: string, sub: Id)
    requires KeysBelow(d) && SeedWith(d, catalogue, categories, passwordHash).Ok?
    requires NoEntryTagged(catalogue, tag)
    requires forall k :: k in d.permissions ==> Tag(d.permissions[k]) != tag
    ensures !CanActivate(Some([tag]), Some(Principal(sub)), SeedWith(d, catalogue, categories, passwordHash).value.dir)
  {
    var e := SeedWith(d, catalogue, categories, passwordHash).value.dir;
    SeedWithPairs(d, catalogue, categories, passwordHash);
    forall k | k in e.permissions ensures Tag(e.permissions[k]) != tag {
      var row := e.permissions[k];
      assert Pair(row) in PairSet(e.permissions);
      if Pair(row) in PairSet(d.permissions) {
        var j :| j in d.permissions && Pair(d.permissions[j]) == Pair(row);
        TagOfPair(d.permissions[j], row);
      } else {
        var c :| c in catalogue && Pair(c) == Pair(row);
        TagOfPair(c, row);
      }
    }
    OnlyStoredTags(tag, sub, e);
  }

  /** Entries with colon-free resources other than `resource` never carry a tag of `resource`. */
  lemma TagAbsent(ps: seq<Permission>, resource: string, action: string)
    requires forall p :: p in ps ==> ':' !in p.resource && p.resource != resource
    requires ':' !in resource
    ensures forall p :: p in ps ==> Tag(p) != resource + ":" + action
  {
    var wanted := Permission(resource, action, "");
    forall p | p in ps ensures Tag(p) != Tag(wanted) {
      if Tag(p) == Tag(wanted) {
        TagInjective(p, wanted);
      }
    }
  }

  lemma StockTag()
    ensures "stock" + ":" + "update" == "stock:update" && ':' !in "stock"
  {
  }

  lemma CatalogueHasNoStock()
    ensures forall p :: p in Catalogue ==> p.resource != "stock"
  {
    CatalogueCovers();
    assert "stock" !in CatalogueResources;
  }

  /**
   * No catalogue entry carries the tag `stock:update` that the
   * stock-adjustment route demands: with `UncataloguedUnreachable`, nobody
   * passes that route after the seed unless a row was added by other means.
   */
  lemma StockNotCatalogued()
    ensures NoEntryTagged(Catalogue, "stock:update")
  {
    CatalogueHasNoStock();
    CatalogueColonFree();
    StockTag();
    TagAbsent(Catalogue, "stock", "update");
  }
}

=== FILE: versions.dfy ===
/**
 * The release service: releases with a unique version string, links between
 * releases and issues that are unique per pair, and the release analytics
 * (stable-release count, releases per month).
 */
module Versions {
  import opened Common
  import ReleaseMonths

  /** A release row. `releaseDate` is in milliseconds since the epoch. */
  datatype Release = Release(version: string, title: string, description: Option<string>,
                             releaseDate: int, isPrerelease: bool, changelog: Option<string>)

  /** A row of the release/issue join table, keyed by the pair. */
  datatype Link = Link(releaseId: Id, issueId: Id)

  datatype Store = Store(releases: map<Id, Release>, links: seq<Link>, nextId: Id)

  /** The create body; the version and title are non-empty strings and the date is already parsed. */
  datatype ReleaseForm = ReleaseForm(version: string, title: string, description: Option<string>,
                                     releaseDate: int, isPrerelease: Option<bool>, changelog: Option<string>)

  /** The update body: every field optional. */
  datatype ReleaseChanges = ReleaseChanges(version: Option<string>, title: Option<string>,
                                           description: Option<string>, releaseDate: Option<int>,
                                           isPrerelease: Option<bool>, changelog: Option<string>)

  /** What the database guarantees and every operation keeps. */
  predicate Valid(s: Store)
  {
    && (forall k :: k in s.releases ==> k < s.nextId)
    && VersionsUnique(s.releases)
    && NoDup(s.links)
    && (forall i :: 0 <= i < |s.links| ==> s.links[i].releaseId in s.releases)
  }

  /** The unique index on `version`. */
  predicate VersionsUnique(rels: map<Id, Release>)
  {
    forall a, b :: a in rels && b in rels && rels[a].version == rels[b].version ==> a == b
  }

  /** Some release other than `except` holds version `v`. */
  predicate VersionHeld(rels: map<Id, Release>, v: string, except: Option<Id>)
  {
    exists k :: k in rels && rels[k].version == v && except != Some(k)
  }

  function VersionExists(v: string): string
  {
    "Release version " + v + " already exists"
  }

  function ReleaseMissing(id: Id): string
  {
    "Release with ID " + IdText(id) + " not found"
  }

  function IssueMissing(id: Id): string
  {
    "Issue with ID " + IdText(id) + " not found"
  }

  const AlreadyLinked := "Issue is already linked to this release"
  const NotLinked := "Issue is not linked to this release"
  const ReleaseDeleted := "Release deleted successfully"
  const IssueRemoved := "Issue removed from release successfully"

  // ---------------------------------------------------------------------
  // create / update / remove
  // ---------------------------------------------------------------------

  /**
   * `create`: a version already in use is refused before anything is written;
   * otherwise the release is inserted, a prerelease only when the body says so.
   */
  function Create(s: Store, form: ReleaseForm): (r: Result<(Store, Id)>)
    requires Valid(s)
    ensures VersionHeld(s.releases, form.version, None) <==> r.Err?
    ensures r.Err? ==> r.failure == BadRequest(VersionExists(form.version))
    ensures r.Ok? ==>
              var (s', k) := r.value;
              && k !in s.releases
              && s'.releases == s.releases[k := Release(form.version, form.title, form.description,
                                   form.releaseDate, form.isPrerelease == Some(true), form.changelog)]
              && s'.links == s.links
              && Valid(s')
  {
    if VersionHeld(s.releases, form.version, None) then Err(BadRequest(VersionExists(form.version)))
    else
      var k := s.nextId;
      var rel := Release(form.version, form.title, form.description, form.releaseDate,
                         match form.isPrerelease case Some(b) => b case None => false, form.changelog);
      var s' := Store(s.releases[k := rel], s.links, k + 1);
      Ok((s', k))
  }

  /** The values an update writes: a field absent from the body keeps its value. */
  function Merge(rel: Release, ch: ReleaseChanges): (r: Release)
    ensures ch.version.Some? ==> r.version == ch.version.value
    ensures ch.version.None? ==> r.version == rel.version
  {
    Release(
      match ch.version case Some(v) => v case None => rel.version,
      match ch.title case Some(t) => t case None => rel.title,
      match ch.description case Some(d) => Some(d) case None => rel.description,
      match ch.releaseDate case Some(d) => d case None => rel.releaseDate,
      match ch.isPrerelease case Some(b) => b case None => rel.isPrerelease,
      match ch.changelog case Some(c) => Some(c) case None => rel.changelog)
  }

  /**
   * `update`: a missing release is NotFound. The service looks for a clash only
   * when the body carries a non-empty version that differs from the current
   * one; the unique index still refuses an empty version another release holds.
   */
  function Update(s: Store, id: Id, ch: ReleaseChanges): (r: Result<Store>)
    requires Valid(s)
    ensures id !in s.releases <==> r == Err(NotFound(ReleaseMissing(id)))
    ensures r.Ok? <==> id in s.releases && !VersionHeld(s.releases, Merge(s.releases[id], ch).version, Some(id))
    ensures r.Ok? ==> UpdatedTo(s, id, ch, r.value)
  {
    if id !in s.releases then Err(NotFound(ReleaseMissing(id)))
    else
      var current := s.releases[id];
      if Truthy(ch.version) && ch.version.value != current.version
         && VersionHeld(s.releases, ch.version.value, None)
      then Err(BadRequest(VersionExists(ch.version.value)))
      else
        var rel := Merge(current, ch);
        if VersionHeld(s.releases, rel.version, Some(id)) then Err(Db(UniqueViolation, Some("version")))
        else Ok(Store(s.releases[id := rel], s.links, s.nextId))
  }

  /** The shape of a successful update: only release `id` changes, to the merged values. */
  predicate UpdatedTo(s: Store, id: Id, ch: ReleaseChanges, s': Store)
    requires id in s.releases
  {
    s' == Store(s.releases[id := Merge(s.releases[id], ch)], s.links, s.nextId)
  }

  /** Moving a release to a version another release holds is refused with BadRequest. */
  lemma UpdateRefusesHeldVersion(s: Store, id: Id, ch: ReleaseChanges)
    requires Valid(s) && id in s.releases
    requires ch.version.Some? && ch.version.value != "" && VersionHeld(s.releases, ch.version.value, Some(id))
    ensures Update(s, id, ch) == Err(BadRequest(VersionExists(ch.version.value)))
  {
  }

  /**
   * A body repeating the release's own version skips the service check, and
   * the update goes through.
   */
  lemma UpdateSameVersionPasses(s: Store, id: Id, ch: ReleaseChanges)
    requires Valid(s) && id in s.releases
    requires ch.version == Some(s.releases[id].version) || ch.version.None?
    ensures Update(s, id, ch).Ok?
  {
  }

  /**
   * An empty version passes the service check (it is falsy), so a clash on it
   * surfaces as the database's unique-constraint error rather than BadRequest.
   */
  lemma EmptyVersionClashIsDbError(s: Store, id: Id, ch: ReleaseChanges)
    requires Valid(s) && id in s.releases
    requires ch.version == Some("") && VersionHeld(s.releases, "", Some(id))
    ensures Update(s, id, ch) == Err(Db(UniqueViolation, Some("version")))
  {
  }

  lemma {:induction false} UpdateValid(s: Store, id: Id, ch: ReleaseChanges)
    requires Valid(s)
    requires Update(s, id, ch).Ok?
    ensures Valid(Update(s, id, ch).value)
  {
    var rel := Merge(s.releases[id], ch);
    var s' := Update(s, id, ch).value;
    assert s'.releases == s.releases[id := rel];
    assert !VersionHeld(s.releases, rel.version, Some(id));
  }

  /** Links of the release, dropped with it (the join table cascades). */
  function DropLinksOf(links: seq<Link>, rid: Id): (r: seq<Link>)
    ensures forall l :: l in r <==> l in links && l.releaseId != rid
    ensures NoDup(links) ==> NoDup(r)
  {
    if |links| == 0 then []
    else
      var rest := DropLinksOf(links[1..], rid);
      if links[0].releaseId == rid then rest else [links[0]] + rest
  }

  /** `remove`: NotFound for a missing release; otherwise the release and its links go. */
  function Remove(s: Store, id: Id): (r: Result<(Store, string)>)
    requires Valid(s)
    ensures id !in s.releases <==> r == Err(NotFound(ReleaseMissing(id)))
    ensures r.Ok? ==>
              && r.value.0.releases == s.releases - {id}
              && (forall l :: l in r.value.0.links <==> l in s.links && l.releaseId != id)
              && r.value.1 == ReleaseDeleted
              && Valid(r.value.0)
  {
    if id !in s.releases then Err(NotFound(ReleaseMissing(id)))
    else
      var s' := Store(s.releases - {id}, DropLinksOf(s.links, id), s.nextId);
      assert forall i :: 0 <= i < |s'.links| ==> s'.links[i] in s'.links;
      Ok((s', ReleaseDeleted))
  }

  // ---------------------------------------------------------------------
  // release <-> issue links
  // ---------------------------------------------------------------------

  /**
   * `addIssue`: the release must exist, then the issue (`issues` are the ids
   * of the issue table), then the pair must not be linked yet.
   */
  function AddIssue(s: Store, issues: set<Id>, rid: Id, iid: Id): (r: Result<Store>)
    requires Valid(s)
    ensures rid !in s.releases ==> r == Err(NotFound(ReleaseMissing(rid)))
    ensures rid in s.releases && iid !in issues ==> r == Err(NotFound(IssueMissing(iid)))
    ensures rid in s.releases && iid in issues && Link(rid, iid) in s.links ==> r == Err(BadRequest(AlreadyLinked))
    ensures r.Ok? <==> rid in s.releases && iid in issues && Link(rid, iid) !in s.links
    ensures r.Ok? ==> r.value == s.(links := s.links + [Link(rid, iid)]) && Valid(r.value)
  {
    if rid !in s.releases then Err(NotFound(ReleaseMissing(rid)))
    else if iid !in issues then Err(NotFound(IssueMissing(iid)))
    else if Link(rid, iid) in s.links then Err(BadRequest(AlreadyLinked))
    else
      var s' := s.(links := s.links + [Link(rid, iid)]);
      assert NoDup(s'.links) by {
        forall i, j | 0 <= i < j < |s'.links| ensures s'.links[i] != s'.links[j] {
          if j == |s.links| {
            assert s'.links[i] == s.links[i];
          }
        }
      }
      Ok(s')
  }

  /** `removeIssue`: NotFound unless the pair is linked; afterwards it is not. */
  function RemoveIssue(s: Store, rid: Id, iid: Id): (r: Result<(Store, string)>)
    requires Valid(s)
    ensures Link(rid, iid) !in s.links <==> r == Err(NotFound(NotLinked))
    ensures r.Ok? ==>
              && Link(rid, iid) !in r.value.0.links
              && (forall l :: l != Link(rid, iid) ==> (l in r.value.0.links <==> l in s.links))
              && r.value.0.releases == s.releases
              && r.value.1 == IssueRemoved
              && Valid(r.value.0)
  {
    if Link(rid, iid) !in s.links then Err(NotFound(NotLinked))
    else
      var links := RemoveAll(s.links, Link(rid, iid));
      RemoveAllKeepsNoDup(s.links, Link(rid, iid));
      assert forall i :: 0 <= i < |links| ==> links[i] in s.links;
      Ok((s.(links := links), IssueRemoved))
  }

  /** Adding then removing a link gives back the original links. */
  lemma {:induction false} AddThenRemoveIssue(s: Store, issues: set<Id>, rid: Id, iid: Id)
    requires Valid(s) && AddIssue(s, issues, rid, iid).Ok?
    ensures RemoveIssue(AddIssue(s, issues, rid, iid).value, rid, iid) == Ok((s, IssueRemoved))
  {
    var s' := AddIssue(s, issues, rid, iid).value;
    RemoveAllAppend(s.links, [Link(rid, iid)], Link(rid, iid));
    RemoveAllAbsent(s.links, Link(rid, iid));
    assert RemoveAll([Link(rid, iid)], Link(rid, iid)) == [];
  }

  // ---------------------------------------------------------------------
  // analytics
  // ---------------------------------------------------------------------

  /** Ids of the prerelease rows. */
  function Prereleases(rels: map<Id, Release>): set<Id>
  {
    set k | k in rels && rels[k].isPrerelease
  }

  /** Ids of the stable rows. */
  function StableIds(rels: map<Id, Release>): set<Id>
  {
    set k | k in rels && !rels[k].isPrerelease
  }

  /**
   * `stableReleases: totalReleases - prereleases`. The subtraction counts
   * exactly the releases that are not prereleases, so it is never negative.
   */
  function StableReleases(s: Store): (n: int)
    ensures n == |StableIds(s.releases)|
    ensures n >= 0
  {
    var p, q := Prereleases(s.releases), StableIds(s.releases);
    assert s.releases.Keys == p + q;
    assert p * q == {};
    |s.releases| - |p|
  }

  /** Release dates in id order over ids below `n`. */
  function DatesBelow(rels: map<Id, Release>, n: nat): (r: seq<int>)
    ensures |r| == |set k | k in rels && k < n|
    ensures forall i :: 0 <= i < |r| ==> exists k :: k in rels && k < n && rels[k].releaseDate == r[i]
  {
    if n == 0 then
      assert (set k | k in rels && k < 0) == {};
      []
    else
      var rest := DatesBelow(rels, n - 1);
      var before := set k | k in rels && k < n - 1;
      if n - 1 in rels then
        assert (set k | k in rels && k < n) == before + {n - 1};
        rest + [rels[n - 1].releaseDate]
      else
        assert (set k | k in rels && k < n) == before;
        rest
  }

  /** Every release's date, one per release. */
  function Dates(s: Store): (r: seq<int>)
    requires Valid(s)
    ensures |r| == |s.releases|
  {
    assert (set k | k in s.releases && k < s.nextId) == s.releases.Keys;
    DatesBelow(s.releases, s.nextId)
  }

  /**
   * `getReleasesByMonth`: the latest (at most 100) releases counted per month,
   * months ascending, counts adding up to the number fetched.
   */
  function ReleasesByMonth(s: Store): (t: ReleaseMonths.MonthCounts)
    requires Valid(s)
    ensures forall i, j :: 0 <= i < j < |t| ==> ReleaseMonths.Before(t[i].0, t[j].0)
    ensures ReleaseMonths.Total(t) == if |s.releases| < ReleaseMonths.FetchLimit then |s.releases| else ReleaseMonths.FetchLimit
    ensures forall y :: y in ReleaseMonths.Keys(t) <==> y in ReleaseMonths.MonthsOf(ReleaseMonths.Latest(Dates(s)))
  {
    ReleaseMonths.ReleasesByMonth(Dates(s))
  }
}

=== FILE: warehouse.dfy ===
/**
 * The warehouse stock ledger: inventory items with a current stock level,
 * an append-only table of stock movements, and low-stock alerts of which at
 * most one per item is open at any time.
 */
module Warehouse {
  import opened Common

  /** `StockMovementType`; the kinds the service does not special-case are kept by name. */
  datatype MovementType = StockIn | StockOut | Adjustment | OtherMovement(kind: string)

  datatype Item = Item(
    name: string,
    sku: string,
    categoryId: Id,
    locationId: Id,
    currentStock: int,
    minStockLevel: int,
    createdById: Id,
    lastStockUpdate: Option<int>)

  /**
   * A stock movement row. `previousStock` and `newStock` are recorded by
   * stock adjustments and left null by the initial movement of a new item.
   */
  datatype Movement = Movement(
    itemId: Id,
    kind: MovementType,
    quantity: int,
    reason: Option<string>,
    referenceNumber: Option<string>,
    userId: Id,
    previousStock: Option<int>,
    newStock: Option<int>)

  datatype Alert = Alert(
    itemId: Id,
    message: string,
    currentStock: int,
    minLevel: int,
    createdById: Id,
    resolved: bool,
    resolvedAt: Option<int>,
    resolvedById: Option<Id>)

  datatype Store = Store(items: map<Id, Item>, movements: seq<Movement>, alerts: map<Id, Alert>, nextId: nat)

  /** The body of a stock movement request. */
  datatype MovementForm = MovementForm(kind: MovementType, quantity: int, reason: Option<string>, referenceNumber: Option<string>)

  /** The fields of a new item the model keeps. */
  datatype ItemForm = ItemForm(name: string, sku: Option<string>, categoryId: Id, locationId: Id,
                               currentStock: int, minStockLevel: int)

  ghost predicate KeysBelow(w: Store)
  {
    (forall k :: k in w.items ==> k < w.nextId) && (forall k :: k in w.alerts ==> k < w.nextId)
  }

  /** No item ever holds negative stock. */
  ghost predicate StockNonNegative(w: Store)
  {
    forall k :: k in w.items ==> w.items[k].currentStock >= 0
  }

  /** An unresolved alert for `item`. */
  predicate OpenAlertFor(w: Store, a: Id, item: Id)
  {
    a in w.alerts && w.alerts[a].itemId == item && !w.alerts[a].resolved
  }

  /** At most one unresolved alert per item. */
  ghost predicate OneOpenAlert(w: Store)
  {
    forall a, b, item :: OpenAlertFor(w, a, item) && OpenAlertFor(w, b, item) ==> a == b
  }

  /** A movement's recorded quantity accounts for the step from its previous to its new stock. */
  predicate Explains(m: Movement)
  {
    m.previousStock.Some? && m.newStock.Some? &&
    match m.kind
    case StockIn => m.newStock.value == m.previousStock.value + m.quantity
    case StockOut => m.newStock.value == m.previousStock.value - m.quantity
    case Adjustment => m.quantity == Abs(m.newStock.value - m.previousStock.value)
    case OtherMovement(_) => m.newStock.value == m.previousStock.value
  }

  /** Every movement that records a before and after value is explained by its quantity. */
  ghost predicate LedgerConsistent(w: Store)
  {
    forall i :: 0 <= i < |w.movements| && w.movements[i].newStock.Some? ==> Explains(w.movements[i])
  }

  ghost predicate Inv(w: Store)
  {
    KeysBelow(w) && StockNonNegative(w) && OneOpenAlert(w) && LedgerConsistent(w)
  }

  function Abs(x: int): (r: int)
    ensures r >= 0 && (r == x || r == -x)
  {
    if x < 0 then -x else x
  }

  /** The stock level after a movement, or the refusal of a stock-out larger than the stock. */
  function NextStock(kind: MovementType, quantity: int, current: int): (r: Result<int>)
    ensures r.Err? <==> kind == StockOut && quantity > current
    ensures r.Err? ==> r.failure == BadRequest("Insufficient stock available")
    ensures r.Ok? && kind == StockIn ==> r.value == current + quantity
    ensures r.Ok? && kind == StockOut ==> r.value == current - quantity && r.value >= 0
    ensures r.Ok? && kind == Adjustment ==> r.value == quantity
    ensures r.Ok? && kind.OtherMovement? ==> r.value == current
  {
    match kind
    case StockIn => Ok(current + quantity)
    case StockOut => if quantity > current then Err(BadRequest("Insufficient stock available")) else Ok(current - quantity)
    case Adjustment => Ok(quantity)
    case OtherMovement(_) => Ok(current)
  }

  /** The quantity a movement records: the size of the change for an adjustment, the request's quantity otherwise. */
  function RecordedQuantity(kind: MovementType, quantity: int, previous: int): int
  {
    if kind == Adjustment then Abs(quantity - previous) else quantity
  }

  /** The movement recorded for a successful stock change is explained by its own quantity. */
  lemma RecordedMovementExplains(kind: MovementType, quantity: int, previous: int, reason: Option<string>,
                                 reference: Option<string>, user: Id, item: Id)
    requires NextStock(kind, quantity, previous).Ok?
    ensures Explains(Movement(item, kind, RecordedQuantity(kind, quantity, previous), reason, reference, user,
                              Some(previous), Some(NextStock(kind, quantity, previous).value)))
  {
  }

  /** With a positive quantity and a non-negative stock, the next stock level is never negative. */
  lemma NextStockNonNegative(kind: MovementType, quantity: int, current: int)
    requires quantity >= 1 && current >= 0
    requires NextStock(kind, quantity, current).Ok?
    ensures NextStock(kind, quantity, current).value >= 0
  {
  }

  function AlertMessage(current: int, minLevel: int): string
  {
    "Stock level (" + IntToString(current) + ") is below minimum threshold (" + IntToString(minLevel) + ")"
  }

  /** The open alert of an item, by least identifier, if there is one. */
  function OpenAlert(w: Store, item: Id): (r: Option<Id>)
    ensures r.Some? ==> OpenAlertFor(w, r.value, item)
    ensures r.None? ==> forall a: Id :: a < w.nextId ==> !OpenAlertFor(w, a, item)
  {
    OpenAlertBelow(w, item, w.nextId)
  }

  function OpenAlertBelow(w: Store, item: Id, bound: nat): (r: Option<Id>)
    ensures r.Some? ==> OpenAlertFor(w, r.value, item)
    ensures r.None? ==> forall a: Id :: a < bound ==> !OpenAlertFor(w, a, item)
  {
    if bound == 0 then None
    else if OpenAlertFor(w, bound - 1, item) then Some(bound - 1)
    else OpenAlertBelow(w, item, bound - 1)
  }

  /** `createLowStockAlert`: a new alert unless the item already has an unresolved one. */
  function CreateLowStockAlert(w: Store, item: Id, current: int, minLevel: int, user: Id): (r: Store)
    requires KeysBelow(w)
    ensures KeysBelow(r)
    ensures r.items == w.items && r.movements == w.movements
    ensures (exists a :: OpenAlertFor(w, a, item)) ==> r == w
    ensures (forall a :: !OpenAlertFor(w, a, item)) ==>
              r.alerts == w.alerts[w.nextId := Alert(item, AlertMessage(current, minLevel), current, minLevel, user, false, None, None)]
              && r.nextId == w.nextId + 1
    ensures exists a :: OpenAlertFor(r, a, item)
  {
    match OpenAlert(w, item)
    case Some(_) => w
    case None =>
      var alert := Alert(item, AlertMessage(current, minLevel), current, minLevel, user, false, None, None);
      var r := w.(alerts := w.alerts[w.nextId := alert], nextId := w.nextId + 1);
      assert OpenAlertFor(r, w.nextId, item);
      r
  }

  /** Creating a low-stock alert never leaves two unresolved alerts for one item. */
  lemma CreateLowStockAlertOneOpen(w: Store, item: Id, current: int, minLevel: int, user: Id)
    requires KeysBelow(w) && OneOpenAlert(w)
    ensures OneOpenAlert(CreateLowStockAlert(w, item, current, minLevel, user))
  {
    var r := CreateLowStockAlert(w, item, current, minLevel, user);
    if OpenAlert(w, item).None? {
      forall a, b, i | OpenAlertFor(r, a, i) && OpenAlertFor(r, b, i) ensures a == b {
        if a != w.nextId && b != w.nextId {
          assert OpenAlertFor(w, a, i) && OpenAlertFor(w, b, i);
        } else if a == w.nextId && b != w.nextId {
          assert OpenAlertFor(w, b, item);
        } else if b == w.nextId && a != w.nextId {
          assert OpenAlertFor(w, a, item);
        }
      }
    }
  }

  /**
   * `adjustStock`: the new level, the movement recording it, and a low-stock
   * alert when the new level is at or under the item's minimum.
   */
  function AdjustStock(w: Store, itemId: Id, form: MovementForm, user: Id, now: int): (r: Result<(Store, Item)>)
    requires KeysBelow(w)
    requires form.quantity >= 1
    ensures itemId !in w.items ==> r == Err(NotFound("Inventory item not found"))
    ensures itemId in w.items ==>
              (r.Err? <==> form.kind == StockOut && form.quantity > w.items[itemId].currentStock)
    ensures r.Err? && itemId in w.items ==> r.failure == BadRequest("Insufficient stock available")
    ensures r.Ok? ==>
              var before := w.items[itemId];
              var after := NextStock(form.kind, form.quantity, before.currentStock).value;
              var w' := r.value.0;
              && KeysBelow(w')
              && w'.items == w.items[itemId := before.(currentStock := after, lastStockUpdate := Some(now))]
              && r.value.1 == w'.items[itemId]
              && w'.movements == w.movements +
                   [Movement(itemId, form.kind, RecordedQuantity(form.kind, form.quantity, before.currentStock),
                             form.reason, form.referenceNumber, user, Some(before.currentStock), Some(after))]
              && (after > before.minStockLevel ==> w'.alerts == w.alerts && w'.nextId == w.nextId)
              && (after <= before.minStockLevel ==> exists a :: OpenAlertFor(w', a, itemId))
              && (after <= before.minStockLevel && (exists a :: OpenAlertFor(w, a, itemId)) ==>
                    w'.alerts == w.alerts && w'.nextId == w.nextId)
              && (after <= before.minStockLevel && (forall a :: !OpenAlertFor(w, a, itemId)) ==>
                    w'.alerts == w.alerts[w.nextId := Alert(itemId, AlertMessage(after, before.minStockLevel), after,
                                                            before.minStockLevel, user, false, None, None)] &&
                    w'.nextId == w.nextId + 1)
  {
    if itemId !in w.items then Err(NotFound("Inventory item not found"))
    else
      var item := w.items[itemId];
      match NextStock(form.kind, form.quantity, item.currentStock)
      case Err(f) => Err(f)
      case Ok(newStock) =>
        var updated := item.(currentStock := newStock, lastStockUpdate := Some(now));
        var movement := Movement(itemId, form.kind, RecordedQuantity(form.kind, form.quantity, item.currentStock),
                                 form.reason, form.referenceNumber, user, Some(item.currentStock), Some(newStock));
        var w1 := w.(items := w.items[itemId := updated], movements := w.movements + [movement]);
        assert forall a :: OpenAlertFor(w1, a, itemId) <==> OpenAlertFor(w, a, itemId);
        var w2 := if newStock <= item.minStockLevel then CreateLowStockAlert(w1, itemId, newStock, item.minStockLevel, user) else w1;
        Ok((w2, updated))
  }

  /** A stock adjustment keeps stock non-negative, the ledger consistent and at most one open alert per item. */
  lemma AdjustStockInv(w: Store, itemId: Id, form: MovementForm, user: Id, now: int)
    requires Inv(w) && form.quantity >= 1
    requires AdjustStock(w, itemId, form, user, now).Ok?
    ensures Inv(AdjustStock(w, itemId, form, user, now).value.0)
  {
    var item := w.items[itemId];
    var newStock := NextStock(form.kind, form.quantity, item.currentStock).value;
    NextStockNonNegative(form.kind, form.quantity, item.currentStock);
    RecordedMovementExplains(form.kind, form.quantity, item.currentStock, form.reason, form.referenceNumber, user, itemId);
    var updated := item.(currentStock := newStock, lastStockUpdate := Some(now));
    var movement := Movement(itemId, form.kind, RecordedQuantity(form.kind, form.quantity, item.currentStock),
                             form.reason, form.referenceNumber, user, Some(item.currentStock), Some(newStock));
    var w1 := w.(items := w.items[itemId := updated], movements := w.movements + [movement]);
    assert OneOpenAlert(w1) by {
      assert forall a, i :: OpenAlertFor(w1, a, i) <==> OpenAlertFor(w, a, i);
    }
    assert LedgerConsistent(w1) by {
      forall i | 0 <= i < |w1.movements| && w1.movements[i].newStock.Some? ensures Explains(w1.movements[i]) {
        if i < |w.movements| {
          assert w1.movements[i] == w.movements[i];
        }
      }
    }
    if newStock <= item.minStockLevel {
      CreateLowStockAlertOneOpen(w1, itemId, newStock, item.minStockLevel, user);
    }
  }

  /**
   * `createInventoryItem`: the item, plus an initial stock-in movement when
   * it starts with stock. `generatedSku` stands for the generated SKU used
   * when the form has none.
   */
  function CreateInventoryItem(w: Store, form: ItemForm, generatedSku: string, user: Id): (r: (Store, Id))
    requires KeysBelow(w)
    requires form.currentStock >= 0 && form.minStockLevel >= 0
    ensures KeysBelow(r.0) && r.1 !in w.items && r.0.alerts == w.alerts
    ensures r.1 in r.0.items && r.0.items == w.items[r.1 := r.0.items[r.1]]
    ensures r.0.items[r.1].currentStock == form.currentStock && r.0.items[r.1].minStockLevel == form.minStockLevel
    ensures r.0.items[r.1].sku == if Truthy(form.sku) then form.sku.value else generatedSku
    ensures form.currentStock > 0 ==>
              r.0.movements == w.movements + [Movement(r.1, StockIn, form.currentStock, Some("Initial stock"), None, user, None, None)]
    ensures form.currentStock <= 0 ==> r.0.movements == w.movements
  {
    var sku := if Truthy(form.sku) then form.sku.value else generatedSku;
    var k := w.nextId;
    var item := Item(form.name, sku, form.categoryId, form.locationId, form.currentStock, form.minStockLevel, user, None);
    var movements := if form.currentStock > 0
      then w.movements + [Movement(k, StockIn, form.currentStock, Some("Initial stock"), None, user, None, None)]
      else w.movements;
    (w.(items := w.items[k := item], movements := movements, nextId := w.nextId + 1), k)
  }

  lemma CreateInventoryItemInv(w: Store, form: ItemForm, generatedSku: string, user: Id)
    requires Inv(w)
    requires form.currentStock >= 0 && form.minStockLevel >= 0
    ensures Inv(CreateInventoryItem(w, form, generatedSku, user).0)
  {
    var w' := CreateInventoryItem(w, form, generatedSku, user).0;
    assert forall a, i :: OpenAlertFor(w', a, i) <==> OpenAlertFor(w, a, i);
    assert forall i :: 0 <= i < |w.movements| ==> w'.movements[i] == w.movements[i];
  }

  /**
   * `deleteInventoryItem`: only an existing item without stock may be
   * removed. Its movements and alerts go with it (their foreign keys
   * cascade); the other items' rows are kept, movements in their order.
   */
  function DeleteInventoryItem(w: Store, itemId: Id): (r: Result<Store>)
    ensures itemId !in w.items ==> r == Err(NotFound("Inventory item not found"))
    ensures itemId in w.items && w.items[itemId].currentStock > 0 ==> r == Err(BadRequest("Cannot delete item with current stock"))
    ensures r.Ok? <==> itemId in w.items && w.items[itemId].currentStock <= 0
    ensures r.Ok? ==> itemId !in r.value.items && r.value.items.Keys == w.items.Keys - {itemId}
    ensures r.Ok? ==> forall k :: k in r.value.items ==> r.value.items[k] == w.items[k]
    ensures r.Ok? ==> forall m :: m in r.value.movements <==> m in w.movements && m.itemId != itemId
    ensures r.Ok? ==> forall a :: a in r.value.alerts <==> a in w.alerts && w.alerts[a].itemId != itemId
    ensures r.Ok? ==> forall a :: a in r.value.alerts ==> r.value.alerts[a] == w.alerts[a]
    ensures r.Ok? ==> r.value.nextId == w.nextId
  {
    if itemId !in w.items then Err(NotFound("Inventory item not found"))
    else if w.items[itemId].currentStock > 0 then Err(BadRequest("Cannot delete item with current stock"))
    else
      Ok(w.(items := w.items - {itemId},
            movements := Filter(w.movements, (m: Movement) => m.itemId != itemId),
            alerts := map a | a in w.alerts && w.alerts[a].itemId != itemId :: w.alerts[a]))
  }

  lemma DeleteInventoryItemInv(w: Store, itemId: Id)
    requires Inv(w) && DeleteInventoryItem(w, itemId).Ok?
    ensures Inv(DeleteInventoryItem(w, itemId).value)
  {
    var w' := DeleteInventoryItem(w, itemId).value;
    assert forall a, i :: OpenAlertFor(w', a, i) ==> OpenAlertFor(w, a, i);
    forall i | 0 <= i < |w'.movements| && w'.movements[i].newStock.Some? ensures Explains(w'.movements[i]) {
      assert w'.movements[i] in w.movements;
    }
  }

  /** Every movement and every alert belongs to a stored item. */
  ghost predicate LedgerOwned(w: Store)
  {
    (forall m :: m in w.movements ==> m.itemId in w.items) &&
    (forall a :: a in w.alerts ==> w.alerts[a].itemId in w.items)
  }

  /**
   * Creating an item, moving stock, resolving an alert and deleting an item
   * keep every movement and alert attached to a stored item: deletion
   * takes the item's rows along.
   */
  lemma OpsKeepLedgerOwned(w: Store, itemId: Id, form: MovementForm, itemForm: ItemForm, generatedSku: string,
                           alertId: Id, user: Id, now: int)
    requires LedgerOwned(w) && KeysBelow(w)
    ensures form.quantity >= 1 && AdjustStock(w, itemId, form, user, now).Ok? ==>
              LedgerOwned(AdjustStock(w, itemId, form, user, now).value.0)
    ensures itemForm.currentStock >= 0 && itemForm.minStockLevel >= 0 ==>
              LedgerOwned(CreateInventoryItem(w, itemForm, generatedSku, user).0)
    ensures ResolveStockAlert(w, alertId, user, now).Ok? ==> LedgerOwned(ResolveStockAlert(w, alertId, user, now).value)
    ensures DeleteInventoryItem(w, itemId).Ok? ==> LedgerOwned(DeleteInventoryItem(w, itemId).value)
  {
  }

  /**
   * `resolveStockAlert`: marks the alert resolved by `user` at `now`; a
   * missing alert makes the update fail with the ORM's record-not-found error.
   */
  function ResolveStockAlert(w: Store, alertId: Id, user: Id, now: int): (r: Result<Store>)
    ensures alertId !in w.alerts ==> r == Err(Db(RecordNotFound, None))
    ensures alertId in w.alerts ==> r.Ok?
    ensures r.Ok? ==> r.value.items == w.items && r.value.movements == w.movements && r.value.nextId == w.nextId
    ensures r.Ok? ==> r.value.alerts.Keys == w.alerts.Keys
    ensures r.Ok? ==> r.value.alerts[alertId].resolved && r.value.alerts[alertId].resolvedById == Some(user) &&
                      r.value.alerts[alertId].resolvedAt == Some(now) && r.value.alerts[alertId].itemId == w.alerts[alertId].itemId
    ensures r.Ok? ==> forall a :: a in w.alerts && a != alertId ==> r.value.alerts[a] == w.alerts[a]
  {
    if alertId !in w.alerts then Err(Db(RecordNotFound, None))
    else
      var alert := w.alerts[alertId].(resolved := true, resolvedAt := Some(now), resolvedById := Some(user));
      Ok(w.(alerts := w.alerts[alertId := alert]))
  }

  /** Resolving an alert keeps the invariant; resolving an open alert leaves its item with none. */
  lemma ResolveStockAlertInv(w: Store, alertId: Id, user: Id, now: int)
    requires Inv(w) && alertId in w.alerts
    ensures Inv(ResolveStockAlert(w, alertId, user, now).value)
    ensures var item := w.alerts[alertId].itemId;
            !w.alerts[alertId].resolved ==> forall a :: !OpenAlertFor(ResolveStockAlert(w, alertId, user, now).value, a, item)
  {
    var w' := ResolveStockAlert(w, alertId, user, now).value;
    var item := w.alerts[alertId].itemId;
    if !w.alerts[alertId].resolved {
      forall a | OpenAlertFor(w', a, item) ensures false {
        assert OpenAlertFor(w, a, item) && OpenAlertFor(w, alertId, item);
      }
    }
    assert forall a, i :: OpenAlertFor(w', a, i) ==> OpenAlertFor(w, a, i);
  }
}
